=== FILE: README.md ===
# srsRAN DU/scheduler core in Dafny

This project models six small pieces of the srsRAN gNB and proves properties about them:

- **Scheduler UE event manager** (`ue_event_manager.dfy`, `sched_ue.dfy`, `ue_event_manager_proofs.dfy`).
  - Producers (`handle_*`) defer every UE mutation as an event. UE-wide events go to one common queue, keyed by UE index. A UE being created uses the sentinel key `MAX_NOF_DU_UES`. Per-cell feedback (CRC, HARQ-ACK) goes to that cell's queue.
  - `run(slot, cell)` applies the queued events:
    - the common window advances once per distinct slot, and the advance replaces the window with the pending events, so a common event still deferred then is cleared unrun;
    - an executed event is tombstoned;
    - a UE's common events run only on its PCell;
    - events for unknown UEs or cell contexts are dropped with a warning;
    - common events run before the cell's own, so a UE created in the common phase gets its feedback in the same run.
  - `handle_harq_ind` gives each HARQ-ACK bit to the first DL HARQ process that expects its ACK in the UCI slot.
  - The proofs module shows that every enqueued common event is accounted for exactly once: it is pending, waiting in the window, executed, dropped with a warning, or discarded by an advance. So no event runs twice, whatever sequence of calls is made. It also shows that a cell's pass leaves UEs of other PCells untouched, and proves the creation / reconfiguration / feedback orderings for concrete call sequences.
- **UL MAC PDU handler** (`mac_ul_pdu_handler.dfy`).
  - It decodes the Buffer Status Report MAC CE of section 6.1.3.1 of 3GPP TS 38.321: a clamped table lookup, with an offset added at the last level.
  - A short BSR that decodes to 0 bytes expands into one zero report per LCG. A long BSR gives one report per entry.
  - `handle_ul_pdu` handles the C-RNTI MAC CE first and then the other subPDUs in PDU order. It labels every long BSR as a short truncated one, as the code at line 112 does.
- **SSB allocation** (`sched_ssb.dfy`). `sched_ssb` chooses, for a slot, the SS/PBCH blocks of the burst. The model proves the result equal to an independent definition of the candidate SS/PBCH blocks of cases A, B and C in section 4.1 of 3GPP TS 38.213.
- **CSI configuration helpers** (`csi_helper.dfy`):
  - the CSI-FrequencyOccupation width rule of 3GPP TS 38.331;
  - the CSI-RS period bound of section 5.1.6.1.1 of 3GPP TS 38.214;
  - the map from resource periodicity to report periodicity;
  - the zero-power, non-zero-power and tracking CSI-RS resource lists, and the CSI-IM resource.
- **NR Cell Identity** (`nr_cell_identity.dfy`). This is the 36-bit identifier of subclause 9.3.1.7 of 3GPP TS 38.413: its bounds, `from_number`, and `parse_hex`. `parse_hex` is modelled down to C's `strtoul`; its size check counts the UTF-8 bytes of the string, as `std::string::size()` does.
- **DU UE reconfiguration** (`du_ue_reconfiguration.dfy`). The SRBs and DRBs of a UE context update are added to the UE's bearer map, keyed by LCID, and the MAC reconfiguration request is built, with each bearer listed twice as the code does.

`wrappers.dfy` holds the `Option` and `Result` types. `report_fatal_error` becomes a `Failure` result. The repository's assertions (`srsran_assert`, `srsgnb_assert`, `srsgnb_sanity_check`) become preconditions.

Behaviours of the code worth noting:

- A creation event (sentinel key) runs on whichever cell calls `run` first in the slot, even when that is not the new UE's PCell. So in `run(slot, 1)` followed by `run(slot, 2)`, the creation of a UE with PCell 2 happens during the cell 1 call, and its reconfiguration during the cell 2 call (`CreationRunsOnFirstCell`, `ReconfigurationRunsOnPCell`).
- A zero short BSR expands into `MAX_LOGICAL_CHANNEL_GROUP + 1` reports, whatever number of LCGs the UE has configured.
- A common event deferred because its UE's PCell has not run yet is cleared, with no warning, by the next slot's advance if that PCell does not run in between (`DeferredEventDiscarded`; see Findings).

## Model

| member | source | states |
|---|---|---|
| NrCellIdentity.NofBits | include/srsran/ran/nr_cell_identity.h:54 | the identity width is a positive whole number of hexadecimal digits |
| NrCellIdentity.Min | include/srsran/ran/nr_cell_identity.h:27 | the smallest identity is 0 |
| NrCellIdentity.Max | include/srsran/ran/nr_cell_identity.h:28 | the largest identity is 2^nof_bits − 1 |
| NrCellIdentity.FromNumber | include/srsran/ran/nr_cell_identity.h:30-36 | succeeds exactly when the value fits in nof_bits bits, and then holds that value |
| NrCellIdentity.StrToUL | include/srsran/ran/nr_cell_identity.h:45 | the end index stops after a run of hexadecimal digits, at a character that is not one, or at the start of the string when nothing converts |
| NrCellIdentity.ByteLength | include/srsran/ran/nr_cell_identity.h:41 | the size in bytes is at least the number of characters, and equal to it exactly when every character is ASCII |
| NrCellIdentity.MultiByteStringRejected | include/srsran/ran/nr_cell_identity.h:40-43 | a nine-character string of sixteen bytes fails the size check |
| NrCellIdentity.ParseHexAsWritten | include/srsran/ran/nr_cell_identity.h:38-50 | strings whose UTF-8 encoding is longer than nof_bits/4 bytes are rejected, and so is every string longer than nof_bits/4 characters |
| NrCellIdentity.NegativeHexEscapesRange | include/srsran/ran/nr_cell_identity.h:45-49 | as written, "-1" is accepted and yields 2^64 − 1, which is above max() |
| NrCellIdentity.ParseHex | include/srsran/ran/nr_cell_identity.h:38-50 | a successful parse is always a valid identity and agrees with the as-written parser; over-long strings fail |
| NrCellIdentity.CorrectedParseRejectsNegative | include/srsran/ran/nr_cell_identity.h:38-50 | the corrected parser rejects "-1" |
| NrCellIdentity.ParseHexDigits | include/srsran/ran/nr_cell_identity.h:38-52 | one to nine hexadecimal digits parse to the number they denote, which is at most max() |
| NrCellIdentity.NonHexCharacterRejected | include/srsran/ran/nr_cell_identity.h:45-48 | a string containing a character strtoul can never consume fails to parse |
| NrCellIdentity.FormatParseRoundTrip | include/srsran/ran/nr_cell_identity.h:38-52 | formatting a valid identity as nine hex digits and parsing it back returns the same identity |
| MacUlPduHandler.BuffSizeFieldToBytes | lib/mac/mac_ul/mac_ul_pdu_handler.h:133-159 | index 0 is 0 bytes; an index inside the table is its level; an index at or past the last level is that level plus 1, in 32-bit arithmetic |
| MacUlPduHandler.LastLevelExceedsTable | lib/mac/mac_ul/mac_ul_pdu_handler.h:135-154 | for an ascending table, a saturated index decodes above every table level and above every in-table index |
| MacUlPduHandler.DecodeMonotonic | lib/mac/mac_ul/mac_ul_pdu_handler.h:133-159 | for an ascending table, decoding never decreases as the index grows |
| MacUlPduHandler.ZeroReports | lib/mac/mac_ul/mac_ul_pdu_handler.h:95-99 | n zero-byte reports with LCG ids 0..n−1 in order |
| MacUlPduHandler.ShortBsrReports | lib/mac/mac_ul/mac_ul_pdu_handler.h:88-102 | a zero short BSR gives MAX_LOGICAL_CHANNEL_GROUP+1 zero reports with ids 0..7; otherwise one report with the subPDU's LCG and the decoded size |
| MacUlPduHandler.LongBsrReports | lib/mac/mac_ul/mac_ul_pdu_handler.h:113-116 | one report per long-BSR entry, in order, with its LCG id and decoded size |
| MacUlPduHandler.ProcessCeSubPduAsWritten | lib/mac/mac_ul/mac_ul_pdu_handler.h:66-126 | as written, every long BSR is indicated with type SHORT_TRUNC_BSR; every other subPDU is handled as the corrected branch handles it, so no indication ever carries a long BSR type |
| MacUlPduHandler.LongBsrMislabelled | lib/mac/mac_ul/mac_ul_pdu_handler.h:112 | for every long BSR, the as-written label differs from the intended long type |
| MacUlPduHandler.ProcessCeSubPdu | lib/mac/mac_ul/mac_ul_pdu_handler.h:66-126 | CCCH notifies an SDU on LCID 0; C-RNTI grants that RNTI an UL opportunity; each BSR gives one indication typed by its LCID; padding and unknown CEs give nothing |
| MacUlPduHandler.HandleUlPdu | lib/mac/mac_ul/mac_ul_pdu_handler.h:23-63 | a PDU that fails to unpack returns false with no action. An unpacked one returns true, and k C-RNTI CEs give 2k−1 UL opportunities (exactly one when k = 1). Every BSR CE reaches the scheduler exactly once, in PDU order, with the as-written labels, so no BSR is reported as long |
| MacUlPduHandler.CRntiPass | lib/mac/mac_ul/mac_ul_pdu_handler.h:38-48 | the backward loop keeps the actions it was given as a prefix and adds only UL opportunities; the recorded position is the initial one or a scanned one |
| MacUlPduHandler.ForwardPass | lib/mac/mac_ul/mac_ul_pdu_handler.h:50-60 | each subPDU gives at most one action, and every SDU subPDU is notified with its LCID |
| MacUlPduHandler.CRntiPassFacts | lib/mac/mac_ul/mac_ul_pdu_handler.h:38-48 | the backward pass handles every C-RNTI CE once and records the lowest C-RNTI position |
| MacUlPduHandler.ForwardPassSr | lib/mac/mac_ul/mac_ul_pdu_handler.h:50-60 | the forward pass handles every C-RNTI CE except the one at the recorded position |
| MacUlPduHandler.CRntiHandledFirst | lib/mac/mac_ul/mac_ul_pdu_handler.h:38-48 | the first action of a PDU holding a C-RNTI CE is the UL opportunity of its last C-RNTI CE |
| SchedSsb.FillSsbParameters | lib/mac/sched/sched_ssb.cc:11-36 | the SSB spans 4 symbols from its start and 20 PRBs from offset_to_point_A; it is a transmission iff no lower SSB index is in the burst |
| SchedSsb.FirstInBurstIff | lib/mac/sched/sched_ssb.cc:25-26 | the mask test `(bitmap & (0xFF >> i)) == bitmap` holds iff no bit of a lower index is set |
| SchedSsb.AllocPair | lib/mac/sched/sched_ssb.cc:58-75 | the shifted mask tests exactly the burst bits of the two candidate indices, and each set bit gives one SSB on its symbol |
| SchedSsb.AllocCaseAC | lib/mac/sched/sched_ssb.cc:39-76 | nothing after slot 1 at or below the cutoff, nothing after slot 3; otherwise at most two SSBs of the slot, in the burst, on their TS 38.213 case A/C candidate symbols |
| SchedSsb.AllocCaseB | lib/mac/sched/sched_ssb.cc:78-133 | nothing after slot 1 at or below the cutoff, nothing after slot 3; otherwise at most two SSBs of the slot, in the burst, on their TS 38.213 case B candidate symbols |
| SchedSsb.AllocForCase | lib/mac/sched/sched_ssb.cc:160-177 | whichever case is selected, at most two SSBs of the slot, each in the burst and on its candidate symbol for that case |
| SchedSsb.SlotInPeriod | lib/mac/sched/sched_ssb.cc:148-158 | a period of 0 becomes the 5 ms default; the result is the slot of the period that lies a whole number of periods before the given slot |
| SchedSsb.PairMatchesCandidates | lib/mac/sched/sched_ssb.cc:58-75 | walking the mask over two candidates yields exactly the candidate SSBs of the slot that are in the burst |
| SchedSsb.AllocationMatchesCandidates | lib/mac/sched/sched_ssb.cc:39-133 | cases A/C and B allocate exactly the TS 38.213 section 4.1 candidates of the slot that the bitmap selects, with their first symbols |
| SchedSsb.AllocationFacts | lib/mac/sched/sched_ssb.cc:11-133 | at most two SSBs per slot, each in the burst, 4 symbols and 20 PRBs long, with the first-in-burst mode |
| SchedSsb.SchedSsbSlot | lib/mac/sched/sched_ssb.cc:135-178 | a full list is returned unchanged, even for an FR2 ARFCN, since the FR1 assertion comes after that return; otherwise at most two SSBs are appended, each in the burst, with their sizes and tx mode, and the list grows at most one past its capacity |
| SchedSsb.SchedSsbMatchesCandidates | lib/mac/sched/sched_ssb.cc:135-178 | a call on a list that is not full appends exactly the candidate SSBs of the slot within the period |
| SchedSsb.NoSsbBeyondSlotOneBelowCutoff | lib/mac/sched/sched_ssb.cc:48-50 | at or below the cutoff frequency, slots after the first two of the period get no SSB (all cases) |
| CsiHelper.FreqOccupationRbs | lib/scheduler/config/csi_helper.cpp:21-30 | starts at 0; the width covers both the request and the min(24, BWP) floor; it is a multiple of 4 unless it is the floor; when above the floor it exceeds the request by less than 4 RBs |
| CsiHelper.FreqOccupationIsRoundedWidth | lib/scheduler/config/csi_helper.cpp:21-30 | the width equals max(request rounded up to 4, min(24, BWP)) |
| CsiHelper.MaxCsiRsPeriod | lib/scheduler/config/csi_helper.cpp:33-38 | the longest resource periodicity not above 80 ms worth of slots |
| CsiHelper.ReportPeriodOf | lib/scheduler/config/csi_helper.cpp:119-150 | the shortest report period not shorter than the resource period; 640 slots gets the longest, 320 |
| CsiHelper.ReportPeriodKeepsSharedValues | lib/scheduler/config/csi_helper.cpp:119-150 | a resource period that is also a report period maps to itself |
| CsiHelper.ZpResourceList | lib/scheduler/config/csi_helper.cpp:40-93 | 1 port: 4 resources, 12-bit mask with only bit 8+id; 2 ports: 2 resources, 6-bit mask with only bit 4+id; symbol 8, offset 2; any other port count is fatal |
| CsiHelper.ZpResourcesAreDisjoint | lib/scheduler/config/csi_helper.cpp:63-93 | no two zp resources share a frequency-domain bit |
| CsiHelper.ZpResourceSetOf | lib/scheduler/config/csi_helper.cpp:95-115 | the set lists ids 0..4/ports−1 for 1, 2 or 4 ports; any other count is fatal |
| CsiHelper.ZpSetListsZpResources | lib/scheduler/config/csi_helper.cpp:63-115 | where both builders succeed, the set lists exactly the list's ids in order |
| CsiHelper.ChannelMeasurementNzpResource | lib/scheduler/config/csi_helper.cpp:172-201 | needs meas offset < period; id 0, symbol 4, density one; 1 port: 12-bit mask bit 11, no CDM; 2 ports: 6-bit mask bit 5, FD-CDM2; 4 ports fatal |
| CsiHelper.TrackingNzpResources | lib/scheduler/config/csi_helper.cpp:204-229 | needs base+1 < period; four 1-port resources, ids first+i, symbols 4,8,4,8, offsets base,base,base+1,base+1, all inside the period |
| CsiHelper.NzpResourceList | lib/scheduler/config/csi_helper.cpp:231-243 | five entries with res_id i: the measurement resource, then the tracking resources; fatal iff 4 ports |
| CsiHelper.NzpResourceSets | lib/scheduler/config/csi_helper.cpp:245-263 | two sets whose ids are their positions; each NZP resource 0..4 is named by exactly one set; only the tracking set carries TRS information |
| CsiHelper.NzpSetsReferToList | lib/scheduler/config/csi_helper.cpp:245-263 | every id a set names indexes the list at a resource with that id; the TRS set holds the one-port tracking resources |
| CsiHelper.CsiImResources | lib/scheduler/config/csi_helper.cpp:265-283 | subcarrier = lowest set bit of zp resource 0 times ports; symbol, band, period and offset copied from zp resource 0 |
| CsiHelper.CsiImPlacement | lib/scheduler/config/csi_helper.cpp:265-283 | for 1 and 2 ports, CSI-IM sits on subcarrier 8, symbol 8, offset 2, in the CSI-RS period |
| DuUeReconfiguration.AddBearersInUeContext | lib/du_manager/procedures/ue_reconfiguration_procedure.cpp:41-59 | each SRB becomes a bearer under its LCID with no DRB id, each DRB one with its DRB id; existing bearers are kept; nothing else is added |
| DuUeReconfiguration.AddSrbs | lib/du_manager/procedures/ue_reconfiguration_procedure.cpp:43-50 | each requested SRB is stored under its LCID with no DRB id; existing bearers are kept; no other key appears |
| DuUeReconfiguration.AddDrbs | lib/du_manager/procedures/ue_reconfiguration_procedure.cpp:52-58 | each requested DRB is stored under its LCID with its DRB id; existing bearers are kept; no other key appears |
| DuUeReconfiguration.AddingBearersKeepsKeying | lib/du_manager/procedures/ue_reconfiguration_procedure.cpp:41-59 | after the additions, every bearer is still stored under its own LCID |
| DuUeReconfiguration.CanAddBearersIff | lib/du_manager/procedures/ue_reconfiguration_procedure.cpp:43-54 | the per-bearer assertions, checked one after another as bearers are added, all pass exactly when the requested LCIDs are distinct and none is already a bearer (the precondition CanAddBearers) |
| DuUeReconfiguration.MacBearersAsWritten | lib/du_manager/procedures/ue_reconfiguration_procedure.cpp:67-87 | as written, the list has two entries per requested bearer: entries 2k and 2k+1 are equal and carry the k-th bearer's LCID, in request order |
| DuUeReconfiguration.MacBearersListedTwice | lib/du_manager/procedures/ue_reconfiguration_procedure.cpp:69-75 | as written, every request adding at least one bearer gives a list that repeats an entry |
| DuUeReconfiguration.MacBearers | lib/du_manager/procedures/ue_reconfiguration_procedure.cpp:67-87 | one MAC entry per requested bearer, carrying that bearer's LCID, in request order |
| DuUeReconfiguration.MacBearersListedOnce | lib/du_manager/procedures/ue_reconfiguration_procedure.cpp:61-90 | the corrected MAC request lists no bearer twice |
| DuUeReconfiguration.MacReconfigurationRequest | lib/du_manager/procedures/ue_reconfiguration_procedure.cpp:61-87 | the MAC request carries the request's UE index and the UE's PCell, and two entries per SRB and DRB, each pair with that bearer's LCID, SRBs first |
| DuUeReconfiguration.ReconfigureUe | lib/du_manager/procedures/ue_reconfiguration_procedure.cpp:18-87 | needs the UE to exist; only that UE changes, and only in its bearers (index, RNTI and PCell are kept); it gains exactly the requested bearers, and the MAC request lists the SRB then DRB LCIDs twice each, as built at 67-87 |
| SchedUe.AckInfo | lib/scheduler/ue_scheduling/ue_event_manager.cpp:150-156 | the result is negative exactly for an inactive process, which is what the call site tests. The post-state is the model's choice, since `ack_info`'s body is not part of this model: an active process records the bit and stays active with its ACK slot; an inactive one is unchanged |
| SchedUe.CrcInfo | lib/scheduler/ue_scheduling/ue_event_manager.cpp:135 | an active UL HARQ records the CRC and returns its TBS; an inactive one is unchanged and returns −1 |
| SchedUe.HandleCrc | lib/scheduler/ue_scheduling/ue_event_manager.cpp:132-138 | only the named UL HARQ can change; a warning is logged exactly when it is inactive (or outside the table), and then nothing changes |
| SchedUe.FirstMatchFrom | lib/scheduler/ue_scheduling/ue_event_manager.cpp:147-155 | the lowest process index expecting its ACK in the slot, or none |
| SchedUe.FirstMatchIsLowest | lib/scheduler/ue_scheduling/ue_event_manager.cpp:147-155 | the lowest index with the UCI slot is the match found |
| SchedUe.HarqAck | lib/scheduler/ue_scheduling/ue_event_manager.cpp:146-159 | one bit changes no identity, UL HARQ or ACK slot |
| SchedUe.HarqInd | lib/scheduler/ue_scheduling/ue_event_manager.cpp:143-161 | the bits, applied in order, keep the table's shape and ACK slots; at most one warning per bit |
| SchedUe.HandleHarqInd | lib/scheduler/ue_scheduling/ue_event_manager.cpp:143-161 | the nested loop with its break computes the same context and warning count as the bitwise reference |
| SchedUe.FindDlHarq | lib/scheduler/ue_scheduling/ue_event_manager.cpp:147-155 | the scan stops at the lowest process expecting its ACK in the UCI slot, and runs off the end exactly when there is none |
| SchedUe.HarqIndWithoutMatch | lib/scheduler/ue_scheduling/ue_event_manager.cpp:143-161 | with no process expecting the UCI slot, nothing changes and every bit logs a warning |
| SchedUe.OneBitWarning | lib/scheduler/ue_scheduling/ue_event_manager.cpp:143-161 | one bit logs the warning exactly when no process expects an ACK in the UCI slot or the first that does is inactive |
| SchedUe.HarqIndUpdatesFirstMatchOnly | lib/scheduler/ue_scheduling/ue_event_manager.cpp:143-161 | only the first matching process changes. Under the model's `AckInfo`, an active process receives all bits in order with no warning; otherwise there is one warning per bit |
| UeEventManager.AddCell | lib/scheduler/ue_scheduling/ue_event_manager.cpp:281-292 | needs the cell to be unregistered; afterwards exactly that cell is added and nothing queued changes |
| UeEventManager.HandleAddUeRequest | lib/scheduler/ue_scheduling/ue_event_manager.cpp:64-82 | needs the PCell to exist and the UE index below the sentinel (the range of `du_ue_index_t`); only appends a creation event under the sentinel key; no UE state changes |
| UeEventManager.HandleUeReconfigurationRequest | lib/scheduler/ue_scheduling/ue_event_manager.cpp:84-98 | needs a UE index below the sentinel; only appends a reconfiguration event keyed by the UE |
| UeEventManager.HandleUeDeleteRequest | lib/scheduler/ue_scheduling/ue_event_manager.cpp:100-114 | needs a UE index below the sentinel; only appends a deletion event keyed by the UE |
| UeEventManager.HandleUlBsrIndication | lib/scheduler/ue_scheduling/ue_event_manager.cpp:116-124 | needs the cell to exist and a UE index below the sentinel; only appends a BSR event keyed by the scheduler message's UE index |
| UeEventManager.HandleCrcIndication | lib/scheduler/ue_scheduling/ue_event_manager.cpp:126-141 | needs the cell to exist; appends one CRC event per PDU, in order, to that cell's queue only |
| UeEventManager.HarqEvents | lib/scheduler/ue_scheduling/ue_event_manager.cpp:167-177 | every UCI carrying ACK bits yields an event with its UE and bits, and every event comes from such a UCI |
| UeEventManager.SrUes | lib/scheduler/ue_scheduling/ue_event_manager.cpp:179-187 | at most one SR entry per UCI; SrUesAppend gives the exact order and count |
| UeEventManager.HarqEventsAppend | lib/scheduler/ue_scheduling/ue_event_manager.cpp:167-177 | a further UCI adds its one event after all earlier ones exactly when it carries bits, so there is exactly one event per such UCI, in UCI order |
| UeEventManager.SrUesAppend | lib/scheduler/ue_scheduling/ue_event_manager.cpp:179-187 | a further UCI adds its UE after all earlier ones exactly when it reports an SR, so the SR list (SrUes) has one UE per reporting UCI, in UCI order |
| UeEventManager.EnqueueSrs | lib/scheduler/ue_scheduling/ue_event_manager.cpp:179-187 | one SR event per reporting UE, in order, with consecutive sequence numbers |
| UeEventManager.HandleUciIndication | lib/scheduler/ue_scheduling/ue_event_manager.cpp:163-188 | needs UE indices below the sentinel; HARQ-ACK events go to the reporting cell's queue; SRs are appended as common events in UCI order; UE state is untouched |
| UeEventManager.HandleDlMacCeIndication | lib/scheduler/ue_scheduling/ue_event_manager.cpp:190-196 | needs a UE index below the sentinel; only appends a MAC CE event keyed by the UE |
| UeEventManager.HandleDlBufferStateIndication | lib/scheduler/ue_scheduling/ue_event_manager.cpp:198-209 | needs a UE index below the sentinel; only appends a buffer-state event keyed by the UE |
| UeEventManager.CellExists | lib/scheduler/ue_scheduling/ue_event_manager.cpp:289-292 | a cell exists only if its index is below MAX_NOF_DU_CELLS and a configuration was added for it; no index at or beyond the table bound exists |
| UeEventManager.UpdateUe | lib/scheduler/ue_scheduling/ue_event_manager.cpp:84-209 | a UE-wide event never changes the UE's index, its PCell or its per-cell contexts |
| UeEventManager.NotificationsOf | lib/scheduler/ue_scheduling/ue_event_manager.cpp:84-209 | a reconfiguration notifies its completion; a buffer state notifies the PCell's SRB0 scheduler exactly when it is for SRB0; no other event notifies |
| UeEventManager.ApplyCommon | lib/scheduler/ue_scheduling/ue_event_manager.cpp:64-209 | a creation inserts its UE and notifies completion (76-80); a deletion of a present UE erases it and notifies the response (107-112); any other event for a present UE updates that UE and sends its notifications; an event for an absent UE changes nothing; no UE besides the named or created one changes |
| UeEventManager.CommonStep | lib/scheduler/ue_scheduling/ue_event_manager.cpp:223-245 | tombstones are skipped; the sentinel or the UE's PCell executes the event as ApplyCommon and tombstones it; an unknown UE's event is dropped with an InvalidUeIndex warning (235) and no UE change; otherwise it is deferred unchanged |
| UeEventManager.ProcessEntries | lib/scheduler/ue_scheduling/ue_event_manager.cpp:222-245 | each window entry keeps its id and key and is either tombstoned or left as it was |
| UeEventManager.Advance | lib/scheduler/ue_scheduling/ue_event_manager.cpp:215-219 | the pending events become the whole window and nothing stays pending; every entry of the old window still live is recorded as discarded, with no warning and no other change; a window of tombstones discards nothing |
| UeEventManager.AdvanceKeepingDeferred | lib/scheduler/ue_scheduling/ue_event_manager.cpp:215-219 | the corrected advance: the new window holds exactly the live entries of the old one and the pending events, and nothing stays pending |
| UeEventManager.ProcessCommon | lib/scheduler/ue_scheduling/ue_event_manager.cpp:211-246 | the slot is recorded; in the same slot the pending events are kept back for the next slot and nothing is discarded; in a new slot the pending list is emptied into the window |
| UeEventManager.CellStep | lib/scheduler/ue_scheduling/ue_event_manager.cpp:255-267 | a missing UE logs an invalid-UE warning and a missing cell context an invalid-context warning, changing no UE; otherwise the event's callback runs on the UE's context in this cell (line 266), which becomes `ApplyCell`'s result, and the warnings gain `ApplyCell`'s; nothing else changes |
| UeEventManager.ApplyCell | lib/scheduler/ue_scheduling/ue_event_manager.cpp:130-177 | a CRC touches only UL HARQs and warns at most once, exactly when its process is inactive or absent; HARQ-ACK bits touch only DL HARQs and give at most one "not found" warning per bit |
| UeEventManager.ProcessCellEntries | lib/scheduler/ue_scheduling/ue_event_manager.cpp:253-267 | cell events change no UE-wide field, no other cell's context and no UE set |
| UeEventManager.ProcessCellEntriesAppend | lib/scheduler/ue_scheduling/ue_event_manager.cpp:255-267 | one more queued event is applied by `CellStep` after all earlier ones: the cell phase is the step over the queue in queue order |
| UeEventManagerProofs.CellPhaseAppliesUeEvents | lib/scheduler/ue_scheduling/ue_event_manager.cpp:255-267 | a UE with a context in the cell ends the cell phase as the reference `ApplyAll` of its own queued events, in queue order, whatever the other UEs' events are |
| UeEventManagerProofs.CellPhaseUeWarnings | lib/scheduler/ue_scheduling/ue_event_manager.cpp:255-267 | when the queue holds only one UE's events, the cell phase logs exactly the warnings those events log, in order |
| UeEventManager.ProcessCellSpecific | lib/scheduler/ue_scheduling/ue_event_manager.cpp:248-268 | drains this cell's queue only and leaves the common queue alone |
| UeEventManager.Run | lib/scheduler/ue_scheduling/ue_event_manager.cpp:270-279 | needs the cell to exist; drains its queue; a second call in the same slot keeps later common events pending |
| UeEventManagerProofs.CellEventsFollowCommonPhase | lib/scheduler/ue_scheduling/ue_event_manager.cpp:270-279 | a UE that has a context in the cell after the common phase, one just created included, gets all its queued events of that cell applied in the same run, in queue order, with their warnings when they are the only queued events |
| UeEventManagerProofs.ProcessEntriesAccounting | lib/scheduler/ue_scheduling/ue_event_manager.cpp:222-245 | a pass moves sequence numbers from the live window to executed or dropped, losing and duplicating none |
| UeEventManagerProofs.AdvanceAccounting | lib/scheduler/ue_scheduling/ue_event_manager.cpp:215-219 | an advance moves the live sequence numbers of the old window to the discarded list and the pending ones into the window, losing and duplicating none |
| UeEventManagerProofs.ProcessCommonAccounting | lib/scheduler/ue_scheduling/ue_event_manager.cpp:211-246 | the common phase, with or without an advance, keeps every event in exactly one place; an advance moves the deferred ones to the discarded list |
| UeEventManagerProofs.ApplyKeepsAccounted | lib/scheduler/ue_scheduling/ue_event_manager.cpp:64-292 | every entry point keeps each common event in exactly one place: pending, live in the window, executed, dropped or discarded |
| UeEventManagerProofs.ReplayAccounted | lib/scheduler/ue_scheduling/ue_event_manager.cpp:64-292 | any sequence of allowed calls from the empty manager keeps the accounting |
| UeEventManagerProofs.ExecutedAtMostOnce | lib/scheduler/ue_scheduling/ue_event_manager.cpp:224-243 | after any allowed calls, no common event has been executed twice, and none is in two of the executed, dropped and discarded lists |
| UeEventManagerProofs.PassLeavesOtherPCellAlone | lib/scheduler/ue_scheduling/ue_event_manager.cpp:239-243 | a pass leaves a UE of another PCell unchanged unless the pass creates it anew |
| UeEventManagerProofs.CommonPassLeavesOtherPCellAlone | lib/scheduler/ue_scheduling/ue_event_manager.cpp:211-246 | the same for the whole common phase, with or without an advance |
| UeEventManagerProofs.RunLeavesOtherPCellAlone | lib/scheduler/ue_scheduling/ue_event_manager.cpp:270-279 | a run of cell c changes only c's context of a UE whose PCell is not c |
| UeEventManagerProofs.CreationRunsOnFirstCell | lib/scheduler/ue_scheduling/ue_event_manager.cpp:228-243 | with UE 7 on PCell 2, run(100, 1) creates it and defers its reconfiguration |
| UeEventManagerProofs.ReconfigurationRunsOnPCell | lib/scheduler/ue_scheduling/ue_event_manager.cpp:215-243 | the next run(100, 2) uses the same window and applies the reconfiguration |
| UeEventManagerProofs.CreationPrecedesFeedback | lib/scheduler/ue_scheduling/ue_event_manager.cpp:270-279 | a UE created in this slot exists when its HARQ-ACK is applied, which acks its process with no warning |
| UeEventManagerProofs.StaleReconfigurationDropped | lib/scheduler/ue_scheduling/ue_event_manager.cpp:233-238 | a reconfiguration queued after the UE's deletion is dropped with one warning |
| UeEventManagerProofs.DeferredEventDiscarded | lib/scheduler/ue_scheduling/ue_event_manager.cpp:215-243 | the reconfiguration cell 1 deferred in slot 100 is cleared unrun by cell 2's advance in slot 101, with no warning, and UE 7 keeps its initial configuration |
| UeEventManagerProofs.KeepingDeferredLosesNothing | lib/scheduler/ue_scheduling/ue_event_manager.cpp:215-219 | under the corrected advance the live sequence numbers of the new window are those of the old window followed by the pending ones, so nothing is discarded |
| UeEventManagerProofs.DeferredEventKept | lib/scheduler/ue_scheduling/ue_event_manager.cpp:215-243 | under the corrected advance the same reconfiguration runs in cell 2's slot-101 pass |
| UeEventManagerProofs.RecreationReordersEvents | lib/scheduler/ue_scheduling/ue_event_manager.cpp:224-243 | with UE 7 on PCell 2, cell 1's pass over a reconfiguration, a re-creation of UE 7 on PCell 1 and a second reconfiguration runs the second before the first, which stays deferred |

## Left out

- Logging: `event_logger`, `log_ue_proc_event` and the debug traces are left out. A logged warning becomes an entry in the manager's warning list.
- Concurrency: each producer call is one atomic append, because the multi-producer queue is outside the sequential logic.
- The queue primitive (`slot_event_list`) is not part of this model. It is taken to work the same way for the common and the cell queues, which rules out keeping unconsumed entries, since the cell phase never tombstones an event:
  - advancing replaces the working window with everything pending, clearing what the old window held;
  - consumed common entries remain as tombstones until the next advance.
  - Each common event carries a sequence number, a model artefact used only for accounting; one cleared unrun is listed as discarded.
- Per-UE order of common events is not proved. It does not hold in general: a creation event for a UE that already exists can move it to another PCell mid-pass, and then a later event of that UE runs before an earlier one (`RecreationReordersEvents`). An order proof would need a hypothesis excluding that, and a condition on when each PCell runs.
- The liveness half of PCell affinity ("it executes on the first call where its PCell runs") is not proved. Only at-most-once, accounting and affinity are proved.
- The `ue` class and the HARQ processes are not part of this model:
  - they are small records, and their `handle_*` methods become appends or overwrites;
  - `ue_list::insert` becomes a map update;
  - building the UE from its PCell configuration is left to the caller.
- SchedUe.AckInfo: `dl_harq_process::ack_info` is not part of this model. The model keeps an ACKed process active with its ACK slot, so a second bit for the same slot reaches it again. If the program releases the process after an ACK, later bits in the same indication would log "DL HARQ not found" instead.
- SchedUe.HarqIndUpdatesFirstMatchOnly: its warning count for several bits rests on the `AckInfo` choice above. Only the one-bit count (`OneBitWarning`) depends on nothing but the call site.
- SchedUe.HandleCrc: a HARQ id outside the UL HARQ table is treated as an inactive process (warning, no change), because the table's bounds check is not part of this model.
- The SRB0 scheduler and the MAC notifier are not modelled as objects. Their calls become entries in the notification list.
- `handle_ul_pdu`: the subPDU parser is an optional list of decoded subPDUs. The model leaves out SDU payloads, the Msg3 storage that is commented out, and the PDU log.
- The BSR level tables of TS 38.321 are parameters. `MAX_LOGICAL_CHANNEL_GROUP` is taken as 7 because its definition is not part of this model.
- `sched_ssb`:
  - the list capacity is a parameter;
  - SchedSsb.SchedSsbSlot: a list one short of its capacity can receive two SSBs, one past the capacity of `ssb_list_t`. Whatever `static_vector::push_back` does on a full list is not part of this model, so both are appended;
  - the "invalid case" branch cannot occur, because the case is a closed datatype;
  - `DEFAULT_SSB_PERIODICITY` (5) and the 14 OFDM symbols per slot come from the source's comments, because their definitions are not part of this model.
- CSI helpers:
  - `make_csi_im_resource_sets`, `make_csi_resource_configs`, `make_csi_report_configs` and `make_csi_meas_config` only assemble records (codebook and report settings), so they are left out;
  - `get_nof_slots_per_subframe` is a parameter;
  - a field the builders leave default-constructed is `None` (CDM type), 0 or empty.
- NrCellIdentity.ParseHexAsWritten: a string stands for the UTF-8 encoding of its characters. Other encodings of a `std::string` are not modelled.
- NrCellIdentity.NofBits: its contract says only that the width is a positive multiple of four. The value 36 is pinned by `Max`, whose contract is 2^nof_bits − 1 and whose value is 2^36 − 1.
- The `fmt` formatter of `nr_cell_identity` prints decimal and is not modelled. `ToHex` is a reference formatter, used only for the round trip.
- The reconfiguration procedure's coroutine, its logging, the asynchronous MAC call and the bearer notifiers in the MAC entries are left out.

## Findings

| source | as written | input that shows it | evidently intended | confidence | as-written member | corrected member |
|---|---|---|---|---|---|---|
| lib/mac/mac_ul/mac_ul_pdu_handler.h:112 | the long BSR branch sets the type with the short BSR test, `lcid == SHORT_BSR ? SHORT_BSR : SHORT_TRUNC_BSR` | any LONG_BSR or LONG_TRUNC_BSR subPDU is indicated as SHORT_TRUNC_BSR | LONG_BSR or LONG_TRUNC_BSR according to the subPDU's LCID | high; not executed | MacUlPduHandler.ProcessCeSubPduAsWritten, MacUlPduHandler.LongBsrMislabelled, MacUlPduHandler.HandleUlPdu | MacUlPduHandler.ProcessCeSubPdu |
| include/srsran/ran/nr_cell_identity.h:45-49 | the value strtoul returns is never range checked; strtoul accepts a leading `-` and negates | "-1" is parsed as 0xFFFFFFFFFFFFFFFF, above max() | reject values above max(), as from_number does | high; not executed | NrCellIdentity.ParseHexAsWritten, NrCellIdentity.NegativeHexEscapesRange | NrCellIdentity.ParseHex, NrCellIdentity.CorrectedParseRejectsNegative |
| lib/scheduler/ue_scheduling/ue_event_manager.cpp:215-243 | the first call of a slot advances the common window, which clears every entry still live, including the events the passes deferred because their UE's PCell had not run | UE 7 on PCell 2 with a reconfiguration queued: run(100, 1) defers it, and run(101, 2) clears it unrun, with no warning | a deferred event stays pending until its PCell runs, or is dropped with a warning as an event for an unknown UE is at line 235 | low; not executed; `slot_event_list` is not part of this model | UeEventManager.Advance, UeEventManagerProofs.DeferredEventDiscarded | UeEventManager.AdvanceKeepingDeferred, UeEventManagerProofs.KeepingDeferredLosesNothing, UeEventManagerProofs.DeferredEventKept |
| lib/du_manager/procedures/ue_reconfiguration_procedure.cpp:69-75 | `emplace_back()` adds an entry, and `push_back` of that entry appends a copy | a request adding one SRB gives the MAC two identical entries for it | one MAC entry per added bearer | high; not executed | DuUeReconfiguration.MacBearersAsWritten, DuUeReconfiguration.MacBearersListedTwice, DuUeReconfiguration.MacReconfigurationRequest, DuUeReconfiguration.ReconfigureUe | DuUeReconfiguration.MacBearers, DuUeReconfiguration.MacBearersListedOnce |

=== FILE: csi_helper.dfy ===
/** Default CSI measurement configuration of the scheduler: the zero-power
    (ZP) and non-zero-power (NZP) CSI-RS resources, the tracking (TRS)
    resources and the CSI-IM resource a cell hands to its UEs, plus the small
    arithmetic they rest on (the CSI-FrequencyOccupation width rule of
    3GPP TS 38.331 and the CSI-RS period bound of section 5.1.6.1.1 of
    3GPP TS 38.214). Bitmaps (`bounded_bitset`) are `seq<bool>` with bit 0
    first; a default-constructed bitmap is empty. */
module CsiHelper {
  import opened Wrappers

  /** The half-open CRB interval `[start, stop)`. */
  datatype CrbInterval = CrbInterval(start: nat, stop: nat) {
    function Length(): int { stop - start }
  }

  function Min(a: nat, b: nat): nat { if a <= b then a else b }
  function Max(a: nat, b: nat): nat { if a >= b then a else b }

  /** The smallest CSI-RS width TS 38.331 allows in a BWP of `bwpNofRbs` RBs. */
  function MinOccupation(bwpNofRbs: nat): nat { Min(24, bwpNofRbs) }

  /** `m` is `nofCrbs` rounded up to a multiple of 4 (a reference definition
      that does not divide). */
  predicate IsRoundedUpTo4(m: nat, nofCrbs: nat) {
    m % 4 == 0 && nofCrbs <= m < nofCrbs + 4
  }

  // ---------------------------------------------------------------------------
  // get_csi_freq_occupation_rbs
  // ---------------------------------------------------------------------------

  /** CRBs a CSI resource spans: `nofCrbs` rounded up to a multiple of 4, but
      never below `min(24, BWP width)`. */
  function FreqOccupationRbs(nofCrbs: nat, bwpNofRbs: nat): (r: CrbInterval)
    ensures r.start == 0
    ensures r.stop >= nofCrbs && r.stop >= MinOccupation(bwpNofRbs)
    ensures r.stop % 4 == 0 || r.stop == MinOccupation(bwpNofRbs)
    ensures r.stop > MinOccupation(bwpNofRbs) ==> r.stop < nofCrbs + 4
  {
    var nofRbsInMultiplesOf4 := 4 * ((nofCrbs + 3) / 4);
    CrbInterval(0, Max(nofRbsInMultiplesOf4, MinOccupation(bwpNofRbs)))
  }

  /** The width is the larger of the 4-RB rounding of the request and the
      TS 38.331 floor. */
  lemma FreqOccupationIsRoundedWidth(nofCrbs: nat, bwpNofRbs: nat, m: nat)
    requires IsRoundedUpTo4(m, nofCrbs)
    ensures FreqOccupationRbs(nofCrbs, bwpNofRbs).stop == Max(m, MinOccupation(bwpNofRbs))
  {
    var r := FreqOccupationRbs(nofCrbs, bwpNofRbs);
    var q := (nofCrbs + 3) / 4;
    assert nofCrbs <= 4 * q < nofCrbs + 4;
    assert 4 * q == m by {
      var k := m / 4;
      assert m == 4 * k;
      assert 4 * k < 4 * q + 4 && 4 * q < 4 * k + 4;
    }
  }

  // ---------------------------------------------------------------------------
  // CSI periodicities
  // ---------------------------------------------------------------------------

  /** CSI-ResourcePeriodicityAndOffset of TS 38.331. */
  datatype ResourcePeriodicity =
    | Slots4 | Slots5 | Slots8 | Slots10 | Slots16 | Slots20 | Slots32
    | Slots40 | Slots64 | Slots80 | Slots160 | Slots320 | Slots640
  {
    function Slots(): nat {
      match this
      case Slots4 => 4        case Slots5 => 5        case Slots8 => 8
      case Slots10 => 10      case Slots16 => 16      case Slots20 => 20
      case Slots32 => 32      case Slots40 => 40      case Slots64 => 64
      case Slots80 => 80      case Slots160 => 160    case Slots320 => 320
      case Slots640 => 640
    }
  }

  /** CSI-ReportPeriodicityAndOffset of TS 38.331 (no 32, 64 or 640). */
  datatype ReportPeriodicity =
    | ReportSlots4 | ReportSlots5 | ReportSlots8 | ReportSlots10 | ReportSlots16
    | ReportSlots20 | ReportSlots40 | ReportSlots80 | ReportSlots160 | ReportSlots320
  {
    function Slots(): nat {
      match this
      case ReportSlots4 => 4      case ReportSlots5 => 5      case ReportSlots8 => 8
      case ReportSlots10 => 10    case ReportSlots16 => 16    case ReportSlots20 => 20
      case ReportSlots40 => 40    case ReportSlots80 => 80    case ReportSlots160 => 160
      case ReportSlots320 => 320
    }
  }

  /** The slot counts per subframe of the subcarrier spacings 15 to 240 kHz
      (`get_nof_slots_per_subframe`, taken as a parameter). */
  predicate IsSlotsPerSubframe(n: nat) {
    n == 1 || n == 2 || n == 4 || n == 8 || n == 16
  }

  /** The resource periodicity whose slot count is `n` (the source's cast
      from an integer to the enumeration); defined for the counts used. */
  function ResourcePeriodicityOf(n: nat): (r: ResourcePeriodicity)
    requires n == 80 || n == 160 || n == 320 || n == 640
    ensures r.Slots() == n
  {
    if n == 80 then Slots80 else if n == 160 then Slots160 else if n == 320 then Slots320 else Slots640
  }

  /** Longest CSI-RS period: 80 ms worth of slots, capped at the largest
      periodicity TS 38.331 defines. */
  function MaxCsiRsPeriod(slotsPerSubframe: nat): (r: ResourcePeriodicity)
    requires IsSlotsPerSubframe(slotsPerSubframe)
    ensures r.Slots() <= 80 * slotsPerSubframe
    ensures forall p: ResourcePeriodicity :: p.Slots() <= 80 * slotsPerSubframe ==> p.Slots() <= r.Slots()
  {
    ResourcePeriodicityOf(Min(80 * slotsPerSubframe, 640))
  }

  /** A report period for a resource period: the shortest report period not
      shorter than the resource period; a 640-slot resource period, longer
      than every report period, gets the longest one (320). */
  function ReportPeriodOf(resPeriod: ResourcePeriodicity): (r: ReportPeriodicity)
    ensures resPeriod.Slots() <= 320 ==> r.Slots() >= resPeriod.Slots()
    ensures forall q: ReportPeriodicity :: q.Slots() >= resPeriod.Slots() ==> r.Slots() <= q.Slots()
    ensures resPeriod.Slots() > 320 ==> forall q: ReportPeriodicity :: q.Slots() <= r.Slots()
  {
    match resPeriod
    case Slots4 => ReportSlots4
    case Slots5 => ReportSlots5
    case Slots8 => ReportSlots8
    case Slots10 => ReportSlots10
    case Slots16 => ReportSlots16
    case Slots20 => ReportSlots20
    case Slots32 => ReportSlots40
    case Slots40 => ReportSlots40
    case Slots64 => ReportSlots80
    case Slots80 => ReportSlots80
    case Slots160 => ReportSlots160
    case Slots320 => ReportSlots320
    case Slots640 => ReportSlots320
  }

  /** Resource periods that are also report periods map to themselves. */
  lemma ReportPeriodKeepsSharedValues(resPeriod: ResourcePeriodicity, q: ReportPeriodicity)
    requires q.Slots() == resPeriod.Slots()
    ensures ReportPeriodOf(resPeriod) == q
  {
    var r := ReportPeriodOf(resPeriod);
    assert r.Slots() == q.Slots();
    match r
    case ReportSlots4 =>
    case ReportSlots5 =>
    case ReportSlots8 =>
    case ReportSlots10 =>
    case ReportSlots16 =>
    case ReportSlots20 =>
    case ReportSlots40 =>
    case ReportSlots80 =>
    case ReportSlots160 =>
    case ReportSlots320 =>
  }

  // ---------------------------------------------------------------------------
  // Resource records
  // ---------------------------------------------------------------------------

  datatype CdmType = NoCdm | FdCdm2
  datatype FreqDensity = DensityOne | DensityThree

  /** CSI-RS-ResourceMapping. `cdm` is `None` where the builder leaves it at
      its default-constructed value; `nofPorts` and the first symbol default
      to 0 and the bitmap to empty. */
  datatype ResourceMapping = ResourceMapping(
    nofPorts: nat,
    fdAlloc: seq<bool>,
    cdm: Option<CdmType>,
    firstOfdmSymbolInTd: nat,
    freqDensity: FreqDensity,
    freqBandRbs: CrbInterval)

  datatype ZpResource = ZpResource(id: nat, resMapping: ResourceMapping, period: ResourcePeriodicity, offset: nat)

  datatype ZpResourceSet = ZpResourceSet(id: nat, resList: seq<nat>)

  datatype NzpResource = NzpResource(
    resId: nat,
    resMapping: ResourceMapping,
    powerControlOffset: int,
    powerControlOffsetSsDb: int,
    scramblingId: nat,
    csiResPeriod: ResourcePeriodicity,
    csiResOffset: nat,
    qclInfoPeriodicCsiRs: nat)

  datatype NzpResourceSet = NzpResourceSet(resSetId: nat, nzpResources: seq<nat>, isTrsInfoPresent: bool)

  datatype CsiImResource = CsiImResource(
    resId: nat,
    subcarrierLocation: nat,
    symbolLocation: nat,
    freqBandRbs: CrbInterval,
    csiResPeriod: ResourcePeriodicity,
    csiResOffset: nat)

  /** `csi_builder_params`. */
  datatype BuilderParams = BuilderParams(
    pci: nat,
    nofRbs: nat,
    nofPorts: nat,
    csiRsPeriod: ResourcePeriodicity,
    measCsiSlotOffset: nat,
    trackingCsiSlotOffset: nat)

  /** A bitmap of `size` bits with only bit `k` set. */
  function SingleBit(size: nat, k: nat): (r: seq<bool>)
    ensures |r| == size
  {
    seq(size, j => j == k)
  }

  /** Bit `k` is the one and only set bit of `bits`. */
  predicate OnlyBitSet(bits: seq<bool>, k: nat) {
    k < |bits| && forall j :: 0 <= j < |bits| ==> (bits[j] <==> j == k)
  }

  /** `bounded_bitset::find_lowest`: index of the lowest set bit, -1 if none. */
  function FindLowest(bits: seq<bool>): (r: int)
    ensures -1 <= r < |bits|
    ensures r == -1 <==> forall j :: 0 <= j < |bits| ==> !bits[j]
    ensures r >= 0 ==> bits[r] && forall j :: 0 <= j < r ==> !bits[j]
  {
    if |bits| == 0 then -1
    else if bits[0] then 0
    else
      var t := FindLowest(bits[1..]);
      assert forall j :: 1 <= j < |bits| ==> bits[j] == bits[1..][j - 1];
      if t == -1 then -1 else t + 1
  }

  lemma SingleBitIsOnlyBit(size: nat, k: nat)
    requires k < size
    ensures OnlyBitSet(SingleBit(size, k), k)
    ensures FindLowest(SingleBit(size, k)) == k
  {
    assert SingleBit(size, k)[k];
  }

  // ---------------------------------------------------------------------------
  // make_default_zp_csi_rs_resource, make_periodic_zp_csi_rs_resource_list/_set
  // ---------------------------------------------------------------------------

  /** The template every zp resource starts from. */
  function DefaultZpResource(params: BuilderParams): ZpResource {
    var oneport := params.nofPorts == 1;
    ZpResource(
      0,
      ResourceMapping(
        params.nofPorts,
        if oneport then SingleBit(12, 8) else SingleBit(6, 4),
        Some(if oneport then NoCdm else FdCdm2),
        8,
        DensityOne,
        FreqOccupationRbs(params.nofRbs, params.nofRbs)),
      params.csiRsPeriod,
      2)
  }

  /** Number of zp resources the list builder makes, and the width and first
      set bit of their frequency-domain bitmaps. */
  function NofZpResources(nofPorts: nat): nat { if nofPorts == 1 then 4 else 2 }
  function ZpBitmapSize(nofPorts: nat): nat { if nofPorts == 1 then 12 else 6 }
  function ZpFirstBit(nofPorts: nat): nat { if nofPorts == 1 then 8 else 4 }

  /** Periodic zp CSI-RS resources at distinct frequency locations, one per
      id: four for one port, two for two ports; other port counts are fatal. */
  function ZpResourceList(params: BuilderParams): (r: Result<seq<ZpResource>>)
    ensures r.Success? <==> params.nofPorts == 1 || params.nofPorts == 2
    ensures r.Success? ==>
      var n := params.nofPorts;
      |r.value| == NofZpResources(n) &&
      forall i :: 0 <= i < |r.value| ==>
        r.value[i].id == i &&
        |r.value[i].resMapping.fdAlloc| == ZpBitmapSize(n) &&
        OnlyBitSet(r.value[i].resMapping.fdAlloc, ZpFirstBit(n) + i) &&
        r.value[i].resMapping.nofPorts == n &&
        r.value[i].resMapping.firstOfdmSymbolInTd == 8 &&
        r.value[i].period == params.csiRsPeriod &&
        r.value[i].offset == 2
  {
    if params.nofPorts == 1 || params.nofPorts == 2 then
      var base := DefaultZpResource(params);
      var n := NofZpResources(params.nofPorts);
      var list := seq(n, i requires 0 <= i < n =>
        base.(id := i,
              resMapping := base.resMapping.(fdAlloc := SingleBit(ZpBitmapSize(params.nofPorts), ZpFirstBit(params.nofPorts) + i))));
      assert forall i :: 0 <= i < n ==> list[i].resMapping.fdAlloc == SingleBit(ZpBitmapSize(params.nofPorts), ZpFirstBit(params.nofPorts) + i);
      Success(list)
    else
      Failure(Fatal("Unsupported number of antenna ports"))
  }

  /** No two zp resources of the list share a frequency-domain bit. */
  lemma ZpResourcesAreDisjoint(params: BuilderParams, i: nat, k: nat, j: nat)
    requires ZpResourceList(params).Success?
    requires i < |ZpResourceList(params).value| && k < |ZpResourceList(params).value| && i != k
    requires j < |ZpResourceList(params).value[i].resMapping.fdAlloc|
    ensures !(ZpResourceList(params).value[i].resMapping.fdAlloc[j] && ZpResourceList(params).value[k].resMapping.fdAlloc[j])
  {
    var l := ZpResourceList(params).value;
    var n := params.nofPorts;
    assert OnlyBitSet(l[i].resMapping.fdAlloc, ZpFirstBit(n) + i);
    assert OnlyBitSet(l[k].resMapping.fdAlloc, ZpFirstBit(n) + k);
  }

  function ZpResourceSetOf(params: BuilderParams): (r: Result<ZpResourceSet>)
    ensures r.Success? <==> params.nofPorts in {1, 2, 4}
    ensures r.Success? ==> r.value.id == 0 && |r.value.resList| == 4 / params.nofPorts
    ensures r.Success? ==> forall i :: 0 <= i < |r.value.resList| ==> r.value.resList[i] == i
  {
    if params.nofPorts == 1 then Success(ZpResourceSet(0, [0, 1, 2, 3]))
    else if params.nofPorts == 2 then Success(ZpResourceSet(0, [0, 1]))
    else if params.nofPorts == 4 then Success(ZpResourceSet(0, [0]))
    else Failure(Fatal("Unsupported number of antenna ports"))
  }

  /** Where both builders succeed, the zp set lists exactly the ids of the zp
      list, in order. (For four ports the set builder succeeds while the list
      builder is fatal.) */
  lemma ZpSetListsZpResources(params: BuilderParams)
    requires ZpResourceList(params).Success? && ZpResourceSetOf(params).Success?
    ensures |ZpResourceSetOf(params).value.resList| == |ZpResourceList(params).value|
    ensures forall i :: 0 <= i < |ZpResourceList(params).value| ==>
              ZpResourceSetOf(params).value.resList[i] == ZpResourceList(params).value[i].id
  {
  }

  // ---------------------------------------------------------------------------
  // NZP CSI-RS resources
  // ---------------------------------------------------------------------------

  /** Fields shared by every NZP resource (`make_common_nzp_csi_rs_resource`). */
  function CommonNzpResource(params: BuilderParams): NzpResource {
    NzpResource(
      0,
      ResourceMapping(0, [], None, 0, DensityThree, FreqOccupationRbs(params.nofRbs, params.nofRbs)),
      0, 0, params.pci, params.csiRsPeriod, 0, 0)
  }

  /** The channel-measurement resource. Four ports are fatal; port counts
      other than 1, 2 and 4 leave the bitmap empty and the CDM type unset. */
  function ChannelMeasurementNzpResource(params: BuilderParams): (r: Result<NzpResource>)
    requires params.measCsiSlotOffset < params.csiRsPeriod.Slots()
    ensures r.Success? <==> params.nofPorts != 4
    ensures r.Success? ==>
      var m := r.value.resMapping;
      r.value.resId == 0 &&
      r.value.csiResOffset == params.measCsiSlotOffset &&
      r.value.csiResOffset < r.value.csiResPeriod.Slots() &&
      r.value.csiResPeriod == params.csiRsPeriod &&
      r.value.scramblingId == params.pci &&
      m.firstOfdmSymbolInTd == 4 && m.nofPorts == params.nofPorts && m.freqDensity == DensityOne &&
      (params.nofPorts == 1 ==> |m.fdAlloc| == 12 && OnlyBitSet(m.fdAlloc, 11) && m.cdm == Some(NoCdm)) &&
      (params.nofPorts == 2 ==> |m.fdAlloc| == 6 && OnlyBitSet(m.fdAlloc, 5) && m.cdm == Some(FdCdm2)) &&
      (params.nofPorts != 1 && params.nofPorts != 2 ==> m.fdAlloc == [] && m.cdm == None)
  {
    var res := CommonNzpResource(params);
    var mapping := res.resMapping.(firstOfdmSymbolInTd := 4, nofPorts := params.nofPorts, freqDensity := DensityOne);
    if params.nofPorts == 1 then
      SingleBitIsOnlyBit(12, 11);
      Success(res.(resId := 0, csiResOffset := params.measCsiSlotOffset,
                   resMapping := mapping.(fdAlloc := SingleBit(12, 11), cdm := Some(NoCdm))))
    else if params.nofPorts == 2 then
      SingleBitIsOnlyBit(6, 5);
      Success(res.(resId := 0, csiResOffset := params.measCsiSlotOffset,
                   resMapping := mapping.(fdAlloc := SingleBit(6, 5), cdm := Some(FdCdm2))))
    else if params.nofPorts == 4 then
      Failure(Fatal("Number of ports not supported"))
    else
      Success(res.(resId := 0, csiResOffset := params.measCsiSlotOffset, resMapping := mapping))
  }

  const NOF_TRACKING_RESOURCES: nat := 4

  /** The four tracking (TRS) resources: one port, bitmap 1000, no CDM,
      density three, symbols 4, 8, 4, 8 over two consecutive slots. */
  function TrackingNzpResources(params: BuilderParams, firstResId: nat): (r: seq<NzpResource>)
    requires params.trackingCsiSlotOffset + 1 < params.csiRsPeriod.Slots()
    ensures |r| == NOF_TRACKING_RESOURCES
    ensures forall i :: 0 <= i < |r| ==>
      var m := r[i].resMapping;
      r[i].resId == firstResId + i &&
      m.firstOfdmSymbolInTd == (if i % 2 == 0 then 4 else 8) &&
      r[i].csiResOffset == params.trackingCsiSlotOffset + i / 2 &&
      r[i].csiResOffset < r[i].csiResPeriod.Slots() &&
      r[i].csiResPeriod == params.csiRsPeriod &&
      m.nofPorts == 1 && m.fdAlloc == [true, false, false, false] && m.cdm == Some(NoCdm) &&
      m.freqDensity == DensityThree
  {
    var res := CommonNzpResource(params);
    var res := res.(resMapping := res.resMapping.(nofPorts := 1, fdAlloc := [true, false, false, false],
                                                  cdm := Some(NoCdm), freqDensity := DensityThree));
    var symbolOffsets := [4, 8, 4, 8];
    var relSlotOffset := [0, 0, 1, 1];
    seq(NOF_TRACKING_RESOURCES, i requires 0 <= i < NOF_TRACKING_RESOURCES =>
      res.(resId := firstResId + i,
           resMapping := res.resMapping.(firstOfdmSymbolInTd := symbolOffsets[i]),
           csiResOffset := params.trackingCsiSlotOffset + relSlotOffset[i]))
  }

  /** The NZP list: the measurement resource (id 0) followed by the four
      tracking resources (ids 1 to 4). */
  function NzpResourceList(params: BuilderParams): (r: Result<seq<NzpResource>>)
    requires params.measCsiSlotOffset < params.csiRsPeriod.Slots()
    requires params.trackingCsiSlotOffset + 1 < params.csiRsPeriod.Slots()
    ensures r.Success? <==> params.nofPorts != 4
    ensures r.Success? ==> |r.value| == 5 && forall i :: 0 <= i < 5 ==> r.value[i].resId == i
    ensures r.Success? ==> r.value[0] == ChannelMeasurementNzpResource(params).value
    ensures r.Success? ==> r.value[1..] == TrackingNzpResources(params, 1)
  {
    var meas :- ChannelMeasurementNzpResource(params);
    Success([meas.(resId := 0)] + TrackingNzpResources(params, 1))
  }

  /** Set 0 holds the measurement resource, set 1 the tracking resources:
      each set's id is its position, every NZP resource id 0..4 is named by
      exactly one set, and only the tracking set carries TRS information. */
  function NzpResourceSets(): (r: seq<NzpResourceSet>)
    ensures |r| == 2
    ensures forall s :: 0 <= s < 2 ==> r[s].resSetId == s && (r[s].isTrsInfoPresent <==> s == 1)
    ensures forall s, k :: 0 <= s < 2 && 0 <= k < |r[s].nzpResources| ==> r[s].nzpResources[k] < 5
    ensures forall id :: 0 <= id < 5 ==> (id in r[0].nzpResources <==> id !in r[1].nzpResources)
  {
    [NzpResourceSet(0, [0], false), NzpResourceSet(1, [1, 2, 3, 4], true)]
  }

  /** Every resource id a set names indexes the NZP list at a resource with
      that id; the TRS set holds exactly the one-port tracking resources. */
  lemma NzpSetsReferToList(params: BuilderParams)
    requires params.measCsiSlotOffset < params.csiRsPeriod.Slots()
    requires params.trackingCsiSlotOffset + 1 < params.csiRsPeriod.Slots()
    requires NzpResourceList(params).Success?
    ensures forall s, k :: 0 <= s < |NzpResourceSets()| && 0 <= k < |NzpResourceSets()[s].nzpResources| ==>
              var id := NzpResourceSets()[s].nzpResources[k];
              id < |NzpResourceList(params).value| && NzpResourceList(params).value[id].resId == id
    ensures forall k :: 0 <= k < |NzpResourceSets()[1].nzpResources| ==>
              NzpResourceList(params).value[NzpResourceSets()[1].nzpResources[k]].resMapping.nofPorts == 1
  {
    var l := NzpResourceList(params).value;
    var t := TrackingNzpResources(params, 1);
    assert forall k :: 1 <= k < 5 ==> l[k] == t[k - 1];
  }

  // ---------------------------------------------------------------------------
  // make_csi_im_resources
  // ---------------------------------------------------------------------------

  /** The CSI-IM resource, placed on the resource elements of zp resource 0. */
  function CsiImResources(params: BuilderParams): (r: Result<seq<CsiImResource>>)
    ensures r.Success? <==> ZpResourceList(params).Success?
    ensures r.Success? ==>
      var zp0 := ZpResourceList(params).value[0];
      |r.value| == 1 && r.value[0].resId == 0 &&
      r.value[0].subcarrierLocation == FindLowest(zp0.resMapping.fdAlloc) * params.nofPorts &&
      r.value[0].symbolLocation == zp0.resMapping.firstOfdmSymbolInTd &&
      r.value[0].freqBandRbs == zp0.resMapping.freqBandRbs &&
      r.value[0].csiResPeriod == zp0.period &&
      r.value[0].csiResOffset == zp0.offset
  {
    var zps :- ZpResourceList(params);
    var zp0 := zps[0];
    assert OnlyBitSet(zp0.resMapping.fdAlloc, ZpFirstBit(params.nofPorts));
    assert zp0.resMapping.fdAlloc[ZpFirstBit(params.nofPorts)];
    var lowest := FindLowest(zp0.resMapping.fdAlloc);
    Success([CsiImResource(0, lowest * params.nofPorts, zp0.resMapping.firstOfdmSymbolInTd,
                           zp0.resMapping.freqBandRbs, zp0.period, zp0.offset)])
  }

  /** For both supported port counts the CSI-IM pattern lands on subcarrier 8
      of OFDM symbol 8, two slots into the CSI-RS period. */
  lemma CsiImPlacement(params: BuilderParams)
    requires params.nofPorts == 1 || params.nofPorts == 2
    ensures CsiImResources(params).Success?
    ensures CsiImResources(params).value[0].subcarrierLocation == 8
    ensures CsiImResources(params).value[0].symbolLocation == 8
    ensures CsiImResources(params).value[0].csiResOffset == 2
    ensures CsiImResources(params).value[0].csiResPeriod == params.csiRsPeriod
  {
    var zp0 := ZpResourceList(params).value[0];
    var n := params.nofPorts;
    assert OnlyBitSet(zp0.resMapping.fdAlloc, ZpFirstBit(n));
    var lowest := FindLowest(zp0.resMapping.fdAlloc);
    assert zp0.resMapping.fdAlloc[ZpFirstBit(n)];
    assert lowest == ZpFirstBit(n);
  }
}

=== FILE: du_ue_reconfiguration.dfy ===
/** UE reconfiguration procedure of the DU manager: the SRBs and DRBs of an
    F1AP UE context update are added to the UE's bearer map (keyed by LCID),
    and a MAC reconfiguration request listing them is built for the UE's
    PCell. Re-configuring a bearer that already exists is not supported. */
module DuUeReconfiguration {
  import opened Wrappers

  /** `du_logical_channel_context`; `drbId` is `None` for `drb_id_t::invalid`
      (every SRB). The MAC notifiers are left out. */
  datatype LogicalChannelContext = LogicalChannelContext(lcid: nat, drbId: Option<nat>)

  datatype DuUe = DuUe(ueIndex: nat, rnti: nat, pcellIndex: nat, bearers: map<nat, LogicalChannelContext>)

  datatype DrbToAddMod = DrbToAddMod(drbId: nat, lcid: nat)

  /** The F1AP UE configuration update handed to the procedure. An SRB id is
      used as its LCID. */
  datatype UeConfigUpdateRequest = UeConfigUpdateRequest(ueIndex: nat, srbsToAddMod: seq<nat>, drbsToAddMod: seq<DrbToAddMod>)

  datatype MacLogicalChannelAddMod = MacLogicalChannelAddMod(lcid: nat)

  datatype MacUeReconfigurationRequest =
    MacUeReconfigurationRequest(ueIndex: nat, pcellIndex: nat, bearersToAddMod: seq<MacLogicalChannelAddMod>)

  predicate NoDup<T(==)>(s: seq<T>) {
    forall i, j :: 0 <= i < j < |s| ==> s[i] != s[j]
  }

  function DrbLcids(drbs: seq<DrbToAddMod>): (r: seq<nat>)
    ensures |r| == |drbs| && forall i :: 0 <= i < |drbs| ==> r[i] == drbs[i].lcid
  {
    seq(|drbs|, i requires 0 <= i < |drbs| => drbs[i].lcid)
  }

  /** The LCIDs the request adds, SRBs first, in request order. */
  function RequestedLcids(request: UeConfigUpdateRequest): seq<nat> {
    request.srbsToAddMod + DrbLcids(request.drbsToAddMod)
  }

  /** What the per-bearer assertions demand when they are met one after the
      other: the requested LCIDs are pairwise distinct and none is in use. */
  predicate CanAddBearers(bearers: map<nat, LogicalChannelContext>, request: UeConfigUpdateRequest) {
    var lcids := RequestedLcids(request);
    NoDup(lcids) && forall k :: 0 <= k < |lcids| ==> lcids[k] !in bearers
  }

  /** The per-bearer assertions of `add_bearers_in_ue_context`, met one
      after the other: each LCID must be absent from the bearers present at
      the time it is added, `keys` being the LCIDs present so far. */
  predicate AssertsHold(keys: set<nat>, lcids: seq<nat>)
    decreases |lcids|
  {
    lcids == [] || (lcids[0] !in keys && AssertsHold(keys + {lcids[0]}, lcids[1..]))
  }

  /** The assertions all pass exactly when the requested LCIDs are distinct
      and none of them is already a bearer. */
  lemma {:induction false} CanAddBearersIff(keys: set<nat>, lcids: seq<nat>)
    ensures AssertsHold(keys, lcids) <==> NoDup(lcids) && forall k :: 0 <= k < |lcids| ==> lcids[k] !in keys
    decreases |lcids|
  {
    if lcids != [] {
      var l := lcids[0];
      var tail := lcids[1..];
      CanAddBearersIff(keys + {l}, tail);
      assert forall k :: 1 <= k < |lcids| ==> lcids[k] == tail[k - 1];
      if NoDup(lcids) && forall k :: 0 <= k < |lcids| ==> lcids[k] !in keys {
        assert forall k :: 0 <= k < |tail| ==> tail[k] == lcids[k + 1] && lcids[0] != lcids[k + 1];
      }
      if AssertsHold(keys, lcids) {
        forall i, j | 0 <= i < j < |lcids|
          ensures lcids[i] != lcids[j]
        {
          if i > 0 {
            assert lcids[i] == tail[i - 1] && lcids[j] == tail[j - 1];
          } else {
            assert tail[j - 1] !in keys + {l};
          }
        }
        forall k | 0 <= k < |lcids|
          ensures lcids[k] !in keys
        {
          if k > 0 {
            assert tail[k - 1] !in keys + {l};
          }
        }
      }
    }
  }

  /** Every bearer is stored under its own LCID. */
  predicate KeyedByLcid(bearers: map<nat, LogicalChannelContext>) {
    forall l :: l in bearers ==> bearers[l].lcid == l
  }

  /** `after` is `before` plus one bearer per requested SRB (no DRB id) and
      per requested DRB (with its DRB id), and nothing else; the bearers of
      `before` are unchanged. */
  ghost predicate BearersAdded(before: map<nat, LogicalChannelContext>, request: UeConfigUpdateRequest,
                         after: map<nat, LogicalChannelContext>) {
    (forall l :: l in before ==> l in after && after[l] == before[l]) &&
    (forall k :: 0 <= k < |request.srbsToAddMod| ==>
       var l := request.srbsToAddMod[k];
       l in after && after[l] == LogicalChannelContext(l, None)) &&
    (forall k :: 0 <= k < |request.drbsToAddMod| ==>
       var d := request.drbsToAddMod[k];
       d.lcid in after && after[d.lcid] == LogicalChannelContext(d.lcid, Some(d.drbId))) &&
    (forall l :: l in after <==> l in before || l in RequestedLcids(request))
  }

  // ---------------------------------------------------------------------------
  // add_bearers_in_ue_context
  // ---------------------------------------------------------------------------

  /** Inserts one bearer per requested SRB (no DRB id) and per requested DRB
      (with its DRB id); bearers already present are left as they were. */
  method AddBearersInUeContext(ue: DuUe, request: UeConfigUpdateRequest) returns (r: DuUe)
    requires CanAddBearers(ue.bearers, request)
    ensures r == ue.(bearers := r.bearers)
    ensures BearersAdded(ue.bearers, request, r.bearers)
  {
    var lcids := RequestedLcids(request);
    var withSrbs := AddSrbs(ue.bearers, request.srbsToAddMod, lcids);
    var b := AddDrbs(withSrbs, request.drbsToAddMod, lcids, |request.srbsToAddMod|);
    forall l | l in b
      ensures l in ue.bearers || l in lcids
    {
      if l !in ue.bearers {
        var k :| 0 <= k < |lcids| && lcids[k] == l;
      }
    }
    r := ue.(bearers := b);
  }

  /** The SRB loop: one bearer without a DRB id per SRB, in request order. */
  method AddSrbs(bearers: map<nat, LogicalChannelContext>, srbs: seq<nat>, lcids: seq<nat>)
    returns (b: map<nat, LogicalChannelContext>)
    requires |srbs| <= |lcids| && srbs == lcids[..|srbs|]
    requires NoDup(lcids) && forall k :: 0 <= k < |lcids| ==> lcids[k] !in bearers
    ensures forall l :: l in bearers ==> l in b && b[l] == bearers[l]
    ensures forall k :: 0 <= k < |srbs| ==> srbs[k] in b && b[srbs[k]] == LogicalChannelContext(srbs[k], None)
    ensures forall l :: l in b ==> l in bearers || exists k :: 0 <= k < |srbs| && lcids[k] == l
  {
    b := bearers;
    var i := 0;
    while i < |srbs|
      invariant 0 <= i <= |srbs|
      invariant forall l :: l in bearers ==> l in b && b[l] == bearers[l]
      invariant forall k :: 0 <= k < i ==> srbs[k] in b && b[srbs[k]] == LogicalChannelContext(srbs[k], None)
      invariant forall l :: l in b ==> l in bearers || exists k :: 0 <= k < i && lcids[k] == l
    {
      var lcid := srbs[i];
      assert lcid == lcids[i];
      b := b[lcid := LogicalChannelContext(lcid, None)];
      i := i + 1;
    }
  }

  /** The DRB loop: one bearer carrying its DRB id per DRB, in request order;
      `first` is where the DRBs start in `lcids`. */
  method AddDrbs(bearers: map<nat, LogicalChannelContext>, drbs: seq<DrbToAddMod>, lcids: seq<nat>, first: nat)
    returns (b: map<nat, LogicalChannelContext>)
    requires first + |drbs| == |lcids|
    requires forall k :: 0 <= k < |drbs| ==> lcids[first + k] == drbs[k].lcid
    requires NoDup(lcids) && forall k :: first <= k < |lcids| ==> lcids[k] !in bearers
    ensures forall l :: l in bearers ==> l in b && b[l] == bearers[l]
    ensures forall k :: 0 <= k < |drbs| ==>
              drbs[k].lcid in b && b[drbs[k].lcid] == LogicalChannelContext(drbs[k].lcid, Some(drbs[k].drbId))
    ensures forall l :: l in b ==> l in bearers || exists k :: first <= k < |lcids| && lcids[k] == l
  {
    b := bearers;
    var j := 0;
    while j < |drbs|
      invariant 0 <= j <= |drbs|
      invariant forall l :: l in bearers ==> l in b && b[l] == bearers[l]
      invariant forall k :: 0 <= k < j ==>
                  drbs[k].lcid in b && b[drbs[k].lcid] == LogicalChannelContext(drbs[k].lcid, Some(drbs[k].drbId))
      invariant forall l :: l in b ==> l in bearers || exists k :: first <= k < first + j && lcids[k] == l
    {
      var d := drbs[j];
      assert d.lcid == lcids[first + j];
      b := b[d.lcid := LogicalChannelContext(d.lcid, Some(d.drbId))];
      j := j + 1;
    }
  }

  /** Adding bearers keeps every bearer stored under its own LCID. */
  lemma AddingBearersKeepsKeying(before: map<nat, LogicalChannelContext>, request: UeConfigUpdateRequest,
                                 after: map<nat, LogicalChannelContext>)
    requires BearersAdded(before, request, after) && KeyedByLcid(before)
    ensures KeyedByLcid(after)
  {
    forall l | l in after
      ensures after[l].lcid == l
    {
      if l !in before {
        RequestedLcidIsAdded(before, request, after, l);
      }
    }
  }

  /** A requested LCID is stored as a bearer of that LCID. */
  lemma RequestedLcidIsAdded(before: map<nat, LogicalChannelContext>, request: UeConfigUpdateRequest,
                             after: map<nat, LogicalChannelContext>, l: nat)
    requires BearersAdded(before, request, after)
    requires l in after && l !in before
    ensures after[l].lcid == l
  {
    var lcids := RequestedLcids(request);
    var srbs := request.srbsToAddMod;
    assert l in lcids;
    var k :| 0 <= k < |lcids| && lcids[k] == l;
    if k < |srbs| {
      assert srbs[k] == l;
    } else {
      assert DrbLcids(request.drbsToAddMod)[k - |srbs|] == l;
      assert request.drbsToAddMod[k - |srbs|].lcid == l;
    }
  }

  // ---------------------------------------------------------------------------
  // update_mac_bearers
  // ---------------------------------------------------------------------------

  /** The MAC entries for a list of LCIDs as written: `emplace_back` adds an
      entry and `push_back` then appends a copy of it, so each bearer is
      listed twice, at positions `2k` and `2k + 1`, in request order. */
  function MacBearersAsWritten(bearers: map<nat, LogicalChannelContext>, lcids: seq<nat>): (r: seq<MacLogicalChannelAddMod>)
    requires forall k :: 0 <= k < |lcids| ==> lcids[k] in bearers
    ensures |r| == 2 * |lcids|
    ensures forall k :: 0 <= k < |lcids| ==>
              r[2 * k] == MacLogicalChannelAddMod(bearers[lcids[k]].lcid) && r[2 * k + 1] == r[2 * k]
  {
    if lcids == [] then []
    else
      var lc := MacLogicalChannelAddMod(bearers[lcids[0]].lcid);
      var rest := MacBearersAsWritten(bearers, lcids[1..]);
      assert forall k :: 1 <= k < |lcids| ==> ([lc, lc] + rest)[2 * k] == rest[2 * (k - 1)] && lcids[k] == lcids[1..][k - 1];
      [lc, lc] + rest
  }

  /** One MAC entry per bearer, in request order. */
  function MacBearers(bearers: map<nat, LogicalChannelContext>, lcids: seq<nat>): (r: seq<MacLogicalChannelAddMod>)
    requires forall k :: 0 <= k < |lcids| ==> lcids[k] in bearers
    ensures |r| == |lcids|
    ensures KeyedByLcid(bearers) ==> forall k :: 0 <= k < |lcids| ==> r[k].lcid == lcids[k]
  {
    if lcids == [] then []
    else [MacLogicalChannelAddMod(bearers[lcids[0]].lcid)] + MacBearers(bearers, lcids[1..])
  }

  /** The MAC request of the procedure, for the UE's index and PCell, with
      the bearer list `update_mac_bearers` builds: SRBs, then DRBs, each
      entry listed twice. */
  function MacReconfigurationRequest(ue: DuUe, request: UeConfigUpdateRequest): (r: MacUeReconfigurationRequest)
    requires forall l :: l in RequestedLcids(request) ==> l in ue.bearers
    ensures r.ueIndex == request.ueIndex && r.pcellIndex == ue.pcellIndex
    ensures |r.bearersToAddMod| == 2 * (|request.srbsToAddMod| + |request.drbsToAddMod|)
    ensures KeyedByLcid(ue.bearers) ==>
              forall k :: 0 <= k < |RequestedLcids(request)| ==>
                r.bearersToAddMod[2 * k].lcid == RequestedLcids(request)[k] &&
                r.bearersToAddMod[2 * k + 1].lcid == RequestedLcids(request)[k]
  {
    MacUeReconfigurationRequest(request.ueIndex, ue.pcellIndex, MacBearersAsWritten(ue.bearers, RequestedLcids(request)))
  }

  /** As written, any request adding at least one bearer hands the MAC a
      list that repeats an entry: the first bearer is listed twice. */
  lemma MacBearersListedTwice(bearers: map<nat, LogicalChannelContext>, lcids: seq<nat>)
    requires forall k :: 0 <= k < |lcids| ==> lcids[k] in bearers
    requires lcids != []
    ensures !NoDup(MacBearersAsWritten(bearers, lcids))
  {
    var r := MacBearersAsWritten(bearers, lcids);
    assert r[2 * 0] == r[2 * 0 + 1];
  }

  /** Corrected, the MAC sees each added bearer exactly once. */
  lemma MacBearersListedOnce(bearers: map<nat, LogicalChannelContext>, request: UeConfigUpdateRequest)
    requires KeyedByLcid(bearers) && NoDup(RequestedLcids(request))
    requires forall l :: l in RequestedLcids(request) ==> l in bearers
    ensures NoDup(MacBearers(bearers, RequestedLcids(request)))
  {
    var r := MacBearers(bearers, RequestedLcids(request));
    assert forall k :: 0 <= k < |r| ==> r[k].lcid == RequestedLcids(request)[k];
  }

  // ---------------------------------------------------------------------------
  // The procedure
  // ---------------------------------------------------------------------------

  /** Runs the procedure against the UE manager: constructing it requires the
      request's UE to exist; the UE gets its new bearers, and the MAC request
      lists them SRBs first, each twice in a row, as `update_mac_bearers`
      builds it. */
  method ReconfigureUe(ues: map<nat, DuUe>, request: UeConfigUpdateRequest)
    returns (ues': map<nat, DuUe>, macRequest: MacUeReconfigurationRequest)
    requires request.ueIndex in ues
    requires CanAddBearers(ues[request.ueIndex].bearers, request)
    ensures ues'.Keys == ues.Keys
    ensures forall i :: i in ues && i != request.ueIndex ==> ues'[i] == ues[i]
    ensures ues'[request.ueIndex] == ues[request.ueIndex].(bearers := ues'[request.ueIndex].bearers)
    ensures BearersAdded(ues[request.ueIndex].bearers, request, ues'[request.ueIndex].bearers)
    ensures macRequest.ueIndex == request.ueIndex && macRequest.pcellIndex == ues[request.ueIndex].pcellIndex
    ensures |macRequest.bearersToAddMod| == 2 * |RequestedLcids(request)|
    ensures forall k :: 0 <= k < |RequestedLcids(request)| ==>
              macRequest.bearersToAddMod[2 * k].lcid == RequestedLcids(request)[k] &&
              macRequest.bearersToAddMod[2 * k + 1].lcid == RequestedLcids(request)[k]
  {
    var ue := ues[request.ueIndex];
    var updated := AddBearersInUeContext(ue, request);
    var lcids := RequestedLcids(request);
    forall k | 0 <= k < |lcids| {
      RequestedLcidIsAdded(ue.bearers, request, updated.bearers, lcids[k]);
    }
    ues' := ues[request.ueIndex := updated];
    macRequest := MacReconfigurationRequest(updated, request);
  }
}

=== FILE: mac_ul_pdu_handler.dfy ===
/** The uplink MAC PDU handler of the DU: the decoding of the Buffer Status
    Report MAC CE of section 6.1.3.1 of 3GPP TS 38.321 into per logical
    channel group byte counts, and the order in which the subPDUs of a
    received MAC PDU are handled (C-RNTI MAC CE first, then SDUs and the
    remaining CEs in PDU order).

    The two Buffer Size level tables (Tables 6.1.3.1-1 and 6.1.3.1-2 of
    TS 38.321) are parameters of the model; the subPDU parser is abstracted
    as an optional list of already decoded subPDUs. */
module MacUlPduHandler {
  import opened Wrappers

  const UINT32_MODULUS: nat := 0x1_0000_0000

  type uint32 = x: nat | x < UINT32_MODULUS

  /** Largest logical channel group id: the LCG ID field of a short BSR is 3 bits wide. */
  const MAX_LOGICAL_CHANNEL_GROUP: nat := 7

  /** Added to the last table level, so that a report at the top of the table
      reads as bigger than the second biggest level. */
  const MAX_OFFSET: nat := 1

  datatype BsrFormat = Short | Long | ShortTrunc | LongTrunc

  /** The 5-bit and 8-bit Buffer Size level tables, in bytes. */
  datatype BsrTables = BsrTables(levels5: seq<uint32>, levels8: seq<uint32>)

  predicate ValidTables(t: BsrTables) {
    |t.levels5| > 0 && |t.levels8| > 0
  }

  predicate Ascending(levels: seq<uint32>) {
    forall i, j :: 0 <= i <= j < |levels| ==> levels[i] <= levels[j]
  }

  function LevelsOf(format: BsrFormat, t: BsrTables): seq<uint32> {
    if format == Short || format == ShortTrunc then t.levels5 else t.levels8
  }

  // ---------------------------------------------------------------------------
  // buff_size_field_to_bytes
  // ---------------------------------------------------------------------------

  /** Bytes reported by Buffer Size index `idx` of a BSR in `format`: index 0
      is an empty buffer, an index inside the table selects its level, and an
      index at or past the last level yields that level plus `MAX_OFFSET`
      (in 32-bit unsigned arithmetic). */
  function BuffSizeFieldToBytes(idx: nat, format: BsrFormat, t: BsrTables): (r: uint32)
    requires ValidTables(t)
    ensures idx == 0 ==> r == 0
    ensures var levels := LevelsOf(format, t);
            0 < idx < |levels| - 1 ==> r == levels[idx]
    ensures var levels := LevelsOf(format, t);
            0 < idx && |levels| - 1 <= idx ==>
              r == (levels[|levels| - 1] + MAX_OFFSET) % UINT32_MODULUS
  {
    if idx == 0 then 0
    else
      match format
      case Short | ShortTrunc =>
        var last := |t.levels5| - 1;
        var i := if idx < last then idx else last;
        var offset := if idx >= last then MAX_OFFSET else 0;
        (t.levels5[i] + offset) % UINT32_MODULUS
      case Long | LongTrunc =>
        var last := |t.levels8| - 1;
        var i := if idx < last then idx else last;
        var offset := if idx >= last then MAX_OFFSET else 0;
        (t.levels8[i] + offset) % UINT32_MODULUS
  }

  /** With an ascending table whose last level leaves room for the offset,
      an index at or past the last level decodes strictly above every level
      of the table, so the saturated report is distinguishable from every
      in-table index. */
  lemma LastLevelExceedsTable(idx: nat, format: BsrFormat, t: BsrTables)
    requires ValidTables(t)
    requires Ascending(LevelsOf(format, t))
    requires LevelsOf(format, t)[|LevelsOf(format, t)| - 1] + MAX_OFFSET < UINT32_MODULUS
    requires 0 < idx && |LevelsOf(format, t)| - 1 <= idx
    ensures forall j :: 0 <= j < |LevelsOf(format, t)| ==> LevelsOf(format, t)[j] < BuffSizeFieldToBytes(idx, format, t)
    ensures forall j :: 0 <= j < |LevelsOf(format, t)| - 1 ==>
              BuffSizeFieldToBytes(j, format, t) < BuffSizeFieldToBytes(idx, format, t)
  {
    var levels := LevelsOf(format, t);
    var last := |levels| - 1;
    forall j | 0 <= j < |levels| - 1
      ensures BuffSizeFieldToBytes(j, format, t) < BuffSizeFieldToBytes(idx, format, t)
    {
      assert levels[j] <= levels[last];
    }
  }

  /** With an ascending table the decoded size never decreases as the index grows. */
  lemma DecodeMonotonic(i: nat, j: nat, format: BsrFormat, t: BsrTables)
    requires ValidTables(t)
    requires Ascending(LevelsOf(format, t))
    requires LevelsOf(format, t)[|LevelsOf(format, t)| - 1] + MAX_OFFSET < UINT32_MODULUS
    requires i <= j
    ensures BuffSizeFieldToBytes(i, format, t) <= BuffSizeFieldToBytes(j, format, t)
  {
    var levels := LevelsOf(format, t);
    var last := |levels| - 1;
    if 0 < i {
      var li := if i < last then i else last;
      var lj := if j < last then j else last;
      assert levels[li] <= levels[lj];
    }
  }

  // ---------------------------------------------------------------------------
  // subPDUs and the indications they produce
  // ---------------------------------------------------------------------------

  /** One (LCG id, Buffer Size index) pair of a BSR MAC CE. */
  datatype LcgBsr = LcgBsr(lcgId: nat, bufferSize: nat)

  /** The logical channel id kinds the handler distinguishes. */
  datatype LcidKind =
    | LcidSdu | LcidCcch48 | LcidCcch64 | LcidCRnti
    | LcidShortBsr | LcidShortTruncBsr | LcidLongBsr | LcidLongTruncBsr
    | LcidPadding | LcidOther

  /** A decoded subPDU of an uplink MAC PDU. */
  datatype SubPdu =
    | SduSubPdu(lcid: nat)
    | CcchSubPdu(size64: bool)
    | CRntiSubPdu(crnti: nat)
    | ShortBsrSubPdu(truncated: bool, sbsr: LcgBsr)
    | LongBsrSubPdu(truncated: bool, lbsr: seq<LcgBsr>)
    | PaddingSubPdu
    | OtherCeSubPdu(code: nat)

  function LcidOf(sp: SubPdu): LcidKind {
    match sp
    case SduSubPdu(_) => LcidSdu
    case CcchSubPdu(size64) => if size64 then LcidCcch64 else LcidCcch48
    case CRntiSubPdu(_) => LcidCRnti
    case ShortBsrSubPdu(truncated, _) => if truncated then LcidShortTruncBsr else LcidShortBsr
    case LongBsrSubPdu(truncated, _) => if truncated then LcidLongTruncBsr else LcidLongBsr
    case PaddingSubPdu => LcidPadding
    case OtherCeSubPdu(_) => LcidOther
  }

  datatype BsrType = ShortBsr | LongBsr | ShortTruncBsr | LongTruncBsr

  datatype LcgReport = LcgReport(lcgId: nat, nofBytes: uint32)

  datatype UlBsrIndication = UlBsrIndication(cellIndex: nat, rnti: nat, bsrType: BsrType, reportedLcgs: seq<LcgReport>)

  /** What handling a PDU hands to the scheduler and to the SDU notifier, in order. */
  datatype Action =
    | SduNotified(rnti: nat, lcid: nat)
    | SrInfo(rnti: nat)
    | BsrIndicated(ind: UlBsrIndication)

  /** `MAX_LOGICAL_CHANNEL_GROUP + 1` zero reports, LCG ids `0..n-1` in order. */
  function ZeroReports(n: nat): (r: seq<LcgReport>)
    ensures |r| == n
    ensures forall j :: 0 <= j < n ==> r[j] == LcgReport(j, 0)
  {
    if n == 0 then [] else ZeroReports(n - 1) + [LcgReport(n - 1, 0)]
  }

  /** Reports of a short BSR: an empty report stands for every LCG being
      empty; otherwise the one reported LCG with its decoded size. */
  function ShortBsrReports(sbsr: LcgBsr, t: BsrTables): (r: seq<LcgReport>)
    requires ValidTables(t)
    ensures BuffSizeFieldToBytes(sbsr.bufferSize, Short, t) == 0 ==>
              |r| == MAX_LOGICAL_CHANNEL_GROUP + 1 &&
              forall j :: 0 <= j < |r| ==> r[j].lcgId == j && r[j].nofBytes == 0
    ensures BuffSizeFieldToBytes(sbsr.bufferSize, Short, t) != 0 ==>
              r == [LcgReport(sbsr.lcgId, BuffSizeFieldToBytes(sbsr.bufferSize, Short, t))]
  {
    var bytes := BuffSizeFieldToBytes(sbsr.bufferSize, Short, t);
    if bytes == 0 then ZeroReports(MAX_LOGICAL_CHANNEL_GROUP + 1)
    else [LcgReport(sbsr.lcgId, bytes)]
  }

  /** Reports of a long BSR: one per entry, same order, same LCG ids. */
  function LongBsrReports(lbsr: seq<LcgBsr>, t: BsrTables): (r: seq<LcgReport>)
    requires ValidTables(t)
    ensures |r| == |lbsr|
    ensures forall i :: 0 <= i < |lbsr| ==>
              r[i] == LcgReport(lbsr[i].lcgId, BuffSizeFieldToBytes(lbsr[i].bufferSize, Long, t))
  {
    if lbsr == [] then []
    else [LcgReport(lbsr[0].lcgId, BuffSizeFieldToBytes(lbsr[0].bufferSize, Long, t))] + LongBsrReports(lbsr[1..], t)
  }

  /** The type label the source computes in both BSR branches. */
  function ShortBsrTypeOf(lcid: LcidKind): BsrType {
    if lcid == LcidShortBsr then ShortBsr else ShortTruncBsr
  }

  /** The type label a long BSR evidently should carry. */
  function LongBsrTypeOf(lcid: LcidKind): BsrType {
    if lcid == LcidLongBsr then LongBsr else LongTruncBsr
  }

  /** No BSR indication among `acts` carries a long BSR type. */
  predicate OnlyShortLabels(acts: seq<Action>) {
    forall i :: 0 <= i < |acts| && acts[i].BsrIndicated? ==> acts[i].ind.bsrType in {ShortBsr, ShortTruncBsr}
  }

  /** `process_ce_subpdu` as written: the long BSR branch reuses the short
      BSR label, so every long BSR is indicated as a short truncated one;
      every other subPDU is handled as `ProcessCeSubPdu` states. */
  function ProcessCeSubPduAsWritten(rnti: nat, cellIndex: nat, sp: SubPdu, t: BsrTables): (r: seq<Action>)
    requires ValidTables(t)
    ensures sp.LongBsrSubPdu? ==> r == [BsrIndicated(UlBsrIndication(cellIndex, rnti, ShortTruncBsr, LongBsrReports(sp.lbsr, t)))]
    ensures !sp.LongBsrSubPdu? ==> r == ProcessCeSubPdu(rnti, cellIndex, sp, t)
    ensures OnlyShortLabels(r)
  {
    match sp
    case LongBsrSubPdu(_, lbsr) =>
      [BsrIndicated(UlBsrIndication(cellIndex, rnti, ShortBsrTypeOf(LcidOf(sp)), LongBsrReports(lbsr, t)))]
    case _ => ProcessCeSubPdu(rnti, cellIndex, sp, t)
  }

  /** A long BSR, truncated or not, is mislabelled by the as-written branch. */
  lemma LongBsrMislabelled(rnti: nat, cellIndex: nat, truncated: bool, lbsr: seq<LcgBsr>, t: BsrTables)
    requires ValidTables(t)
    ensures var sp := LongBsrSubPdu(truncated, lbsr);
            var written := ProcessCeSubPduAsWritten(rnti, cellIndex, sp, t);
            var intended := ProcessCeSubPdu(rnti, cellIndex, sp, t);
            written[0].ind.bsrType == ShortTruncBsr &&
            intended[0].ind.bsrType in {LongBsr, LongTruncBsr} &&
            written != intended
  {
  }

  /** `process_ce_subpdu` with the long BSR labelled by its own LCID. CCCH
      subPDUs notify an SDU on LCID 0, a C-RNTI CE grants the UE an uplink
      opportunity, BSRs become one indication each, padding and unknown CEs
      produce nothing. */
  function ProcessCeSubPdu(rnti: nat, cellIndex: nat, sp: SubPdu, t: BsrTables): (r: seq<Action>)
    requires ValidTables(t)
    ensures |r| <= 1
    ensures sp.CcchSubPdu? ==> r == [SduNotified(rnti, 0)]
    ensures sp.CRntiSubPdu? ==> r == [SrInfo(sp.crnti)]
    ensures sp.ShortBsrSubPdu? ==>
              r == [BsrIndicated(UlBsrIndication(cellIndex, rnti,
                       if sp.truncated then ShortTruncBsr else ShortBsr, ShortBsrReports(sp.sbsr, t)))]
    ensures sp.LongBsrSubPdu? ==>
              r == [BsrIndicated(UlBsrIndication(cellIndex, rnti,
                       if sp.truncated then LongTruncBsr else LongBsr, LongBsrReports(sp.lbsr, t)))]
    ensures sp.SduSubPdu? || sp.PaddingSubPdu? || sp.OtherCeSubPdu? ==> r == []
  {
    match sp
    case CcchSubPdu(_) => [SduNotified(rnti, 0)]
    case CRntiSubPdu(crnti) => [SrInfo(crnti)]
    case ShortBsrSubPdu(_, sbsr) =>
      [BsrIndicated(UlBsrIndication(cellIndex, rnti, ShortBsrTypeOf(LcidOf(sp)), ShortBsrReports(sbsr, t)))]
    case LongBsrSubPdu(_, lbsr) =>
      [BsrIndicated(UlBsrIndication(cellIndex, rnti, LongBsrTypeOf(LcidOf(sp)), LongBsrReports(lbsr, t)))]
    case SduSubPdu(_) => []
    case PaddingSubPdu => []
    case OtherCeSubPdu(_) => []
  }

  // ---------------------------------------------------------------------------
  // handle_ul_pdu
  // ---------------------------------------------------------------------------

  /** The backward loop of `handle_ul_pdu` over positions `n-1` down to 0:
      every C-RNTI CE is handled and its position recorded, so `pos` ends at
      the lowest position holding one (or stays at its initial value). */
  function CRntiPass(subpdus: seq<SubPdu>, n: nat, pos: nat, acts: seq<Action>, rnti: nat, cellIndex: nat, t: BsrTables): (r: (nat, seq<Action>))
    requires ValidTables(t)
    requires n <= |subpdus|
    ensures r.0 == pos || r.0 < n
    ensures |acts| <= |r.1| && r.1[..|acts|] == acts
    ensures forall i :: |acts| <= i < |r.1| ==> r.1[i].SrInfo?
  {
    if n == 0 then (pos, acts)
    else
      var sp := subpdus[n - 1];
      if LcidOf(sp) == LcidCRnti then
        CRntiPass(subpdus, n - 1, n - 1, acts + ProcessCeSubPduAsWritten(rnti, cellIndex, sp, t), rnti, cellIndex, t)
      else
        CRntiPass(subpdus, n - 1, pos, acts, rnti, cellIndex, t)
  }

  /** The forward loop of `handle_ul_pdu` from position `from` on: SDUs are
      notified, every other subPDU except the one at `crntiPos` goes through
      `process_ce_subpdu`; each subPDU gives at most one action. */
  function ForwardPass(subpdus: seq<SubPdu>, from: nat, crntiPos: nat, rnti: nat, cellIndex: nat, t: BsrTables): (r: seq<Action>)
    requires ValidTables(t)
    requires from <= |subpdus|
    ensures |r| <= |subpdus| - from
    ensures forall k :: from <= k < |subpdus| && subpdus[k].SduSubPdu? ==> SduNotified(rnti, subpdus[k].lcid) in r
    decreases |subpdus| - from
  {
    if from == |subpdus| then []
    else
      var sp := subpdus[from];
      var here :=
        if sp.SduSubPdu? then [SduNotified(rnti, sp.lcid)]
        else if from != crntiPos then ProcessCeSubPduAsWritten(rnti, cellIndex, sp, t)
        else [];
      here + ForwardPass(subpdus, from + 1, crntiPos, rnti, cellIndex, t)
  }

  /** `handle_ul_pdu`: `pdu` is `None` when the MAC PDU does not unpack.
      An unpacked PDU with `k` C-RNTI CEs hands the scheduler `2k - 1`
      uplink opportunities: every C-RNTI CE is handled in the first pass,
      and all but the one recorded at `crnti_ce_pos` once more in the
      second (so a single C-RNTI CE is handled exactly once). Every BSR MAC
      CE reaches the scheduler exactly once, in PDU order, and none of them
      is labelled as a long BSR. */
  function HandleUlPdu(rnti: nat, cellIndex: nat, pdu: Option<seq<SubPdu>>, t: BsrTables): (r: (bool, seq<Action>))
    requires ValidTables(t)
    ensures pdu.None? ==> r == (false, [])
    ensures pdu.Some? ==> r.0
    ensures pdu.Some? ==>
              CountSr(r.1) + (if CountCRnti(pdu.value) > 0 then 1 else 0) == 2 * CountCRnti(pdu.value)
    ensures pdu.Some? ==> Bsrs(r.1) == BsrsOfSubPdus(pdu.value, rnti, cellIndex, t)
    ensures OnlyShortLabels(r.1)
  {
    match pdu
    case None => (false, [])
    case Some(subpdus) =>
      var n := |subpdus|;
      var (pos, first) := CRntiPass(subpdus, n, n, [], rnti, cellIndex, t);
      var rest := ForwardPass(subpdus, 0, pos, rnti, cellIndex, t);
      HandleUlPduFacts(subpdus, rnti, cellIndex, t);
      (true, first + rest)
  }

  // ---------------------------------------------------------------------------
  // Properties of handle_ul_pdu
  // ---------------------------------------------------------------------------

  function CountCRnti(s: seq<SubPdu>): nat {
    if s == [] then 0 else (if s[0].CRntiSubPdu? then 1 else 0) + CountCRnti(s[1..])
  }

  function CountSr(acts: seq<Action>): nat {
    if acts == [] then 0 else (if acts[0].SrInfo? then 1 else 0) + CountSr(acts[1..])
  }

  lemma {:induction false} CountCRntiAppend(a: seq<SubPdu>, b: seq<SubPdu>)
    ensures CountCRnti(a + b) == CountCRnti(a) + CountCRnti(b)
  {
    if a == [] {
      assert a + b == b;
    } else {
      assert (a + b)[0] == a[0];
      assert (a + b)[1..] == a[1..] + b;
      CountCRntiAppend(a[1..], b);
    }
  }

  lemma {:induction false} CountSrAppend(a: seq<Action>, b: seq<Action>)
    ensures CountSr(a + b) == CountSr(a) + CountSr(b)
  {
    if a == [] {
      assert a + b == b;
    } else {
      assert (a + b)[0] == a[0];
      assert (a + b)[1..] == a[1..] + b;
      CountSrAppend(a[1..], b);
    }
  }

  /** The backward pass hands over one uplink opportunity per C-RNTI CE and
      leaves `pos` at the lowest C-RNTI position. */
  lemma {:induction false} CRntiPassFacts(subpdus: seq<SubPdu>, n: nat, pos: nat, acts: seq<Action>, rnti: nat, cellIndex: nat, t: BsrTables)
    requires ValidTables(t)
    requires n <= |subpdus|
    ensures var r := CRntiPass(subpdus, n, pos, acts, rnti, cellIndex, t);
            && CountSr(r.1) == CountSr(acts) + CountCRnti(subpdus[..n])
            && (CountCRnti(subpdus[..n]) == 0 ==> r.0 == pos)
            && (CountCRnti(subpdus[..n]) > 0 ==>
                  r.0 < n && subpdus[r.0].CRntiSubPdu? && CountCRnti(subpdus[..r.0]) == 0)
  {
    if n > 0 {
      var sp := subpdus[n - 1];
      assert subpdus[..n] == subpdus[..n - 1] + [sp];
      CountCRntiAppend(subpdus[..n - 1], [sp]);
      assert CountCRnti([sp]) == (if sp.CRntiSubPdu? then 1 else 0);
      if LcidOf(sp) == LcidCRnti {
        var acts' := acts + ProcessCeSubPduAsWritten(rnti, cellIndex, sp, t);
        CountSrAppend(acts, ProcessCeSubPduAsWritten(rnti, cellIndex, sp, t));
        assert CountSr([SrInfo(sp.crnti)]) == 1;
        CRntiPassFacts(subpdus, n - 1, n - 1, acts', rnti, cellIndex, t);
      } else {
        CRntiPassFacts(subpdus, n - 1, pos, acts, rnti, cellIndex, t);
      }
    }
  }

  /** The forward pass handles every C-RNTI CE from `from` on, except the one at `crntiPos`. */
  lemma {:induction false} ForwardPassSr(subpdus: seq<SubPdu>, from: nat, crntiPos: nat, rnti: nat, cellIndex: nat, t: BsrTables)
    requires ValidTables(t)
    requires from <= |subpdus|
    ensures CountSr(ForwardPass(subpdus, from, crntiPos, rnti, cellIndex, t)) ==
              CountCRnti(subpdus[from..]) -
              (if from <= crntiPos < |subpdus| && subpdus[crntiPos].CRntiSubPdu? then 1 else 0)
    decreases |subpdus| - from
  {
    if from < |subpdus| {
      var sp := subpdus[from];
      var here :=
        if sp.SduSubPdu? then [SduNotified(rnti, sp.lcid)]
        else if from != crntiPos then ProcessCeSubPduAsWritten(rnti, cellIndex, sp, t)
        else [];
      ForwardPassSr(subpdus, from + 1, crntiPos, rnti, cellIndex, t);
      CountSrAppend(here, ForwardPass(subpdus, from + 1, crntiPos, rnti, cellIndex, t));
      assert subpdus[from..][1..] == subpdus[from + 1..];
      assert CountSr([SrInfo(0)]) == 1;
      if sp.CRntiSubPdu? && from != crntiPos {
        assert here == [SrInfo(sp.crnti)];
      }
    }
  }

  /** When the PDU holds a C-RNTI CE, the very first action is the uplink
      opportunity of the last C-RNTI CE in the PDU, before any SDU or BSR. */
  lemma CRntiHandledFirst(rnti: nat, cellIndex: nat, subpdus: seq<SubPdu>, h: nat, t: BsrTables)
    requires ValidTables(t)
    requires h < |subpdus| && subpdus[h].CRntiSubPdu?
    requires forall k :: h < k < |subpdus| ==> !subpdus[k].CRntiSubPdu?
    ensures var acts := HandleUlPdu(rnti, cellIndex, Some(subpdus), t).1;
            |acts| > 0 && acts[0] == SrInfo(subpdus[h].crnti)
  {
    var n := |subpdus|;
    SkipToLastCRnti(subpdus, n, h, rnti, cellIndex, t);
  }

  lemma {:induction false} SkipToLastCRnti(subpdus: seq<SubPdu>, n: nat, h: nat, rnti: nat, cellIndex: nat, t: BsrTables)
    requires ValidTables(t)
    requires h < n <= |subpdus| && subpdus[h].CRntiSubPdu?
    requires forall k :: h < k < n ==> !subpdus[k].CRntiSubPdu?
    ensures var r := CRntiPass(subpdus, n, n, [], rnti, cellIndex, t);
            |r.1| > 0 && r.1[0] == SrInfo(subpdus[h].crnti)
  {
    var pos := n;
    var k := n;
    while k > h + 1
      invariant h + 1 <= k <= n
      invariant pos == n || pos == k
      invariant CRntiPass(subpdus, n, n, [], rnti, cellIndex, t) == CRntiPass(subpdus, k, pos, [], rnti, cellIndex, t)
    {
      assert !subpdus[k - 1].CRntiSubPdu?;
      k := k - 1;
    }
    var first := [SrInfo(subpdus[h].crnti)];
    assert k == h + 1;
    assert LcidOf(subpdus[h]) == LcidCRnti;
    assert ProcessCeSubPduAsWritten(rnti, cellIndex, subpdus[h], t) == first;
    assert [] + first == first;
    assert CRntiPass(subpdus, k, pos, [], rnti, cellIndex, t) == CRntiPass(subpdus, h, h, first, rnti, cellIndex, t);
  }

  /** The BSR indications of a sequence of actions, in order. */
  function Bsrs(acts: seq<Action>): seq<UlBsrIndication> {
    if acts == [] then []
    else (if acts[0].BsrIndicated? then [acts[0].ind] else []) + Bsrs(acts[1..])
  }

  /** The BSR indications a sequence of subPDUs calls for, in PDU order,
      with the labels `process_ce_subpdu` gives them as written. */
  function BsrsOfSubPdus(s: seq<SubPdu>, rnti: nat, cellIndex: nat, t: BsrTables): seq<UlBsrIndication>
    requires ValidTables(t)
  {
    if s == [] then []
    else Bsrs(ProcessCeSubPduAsWritten(rnti, cellIndex, s[0], t)) + BsrsOfSubPdus(s[1..], rnti, cellIndex, t)
  }

  lemma {:induction false} BsrsAppend(a: seq<Action>, b: seq<Action>)
    ensures Bsrs(a + b) == Bsrs(a) + Bsrs(b)
  {
    if a == [] {
      assert a + b == b;
    } else {
      assert (a + b)[0] == a[0];
      assert (a + b)[1..] == a[1..] + b;
      BsrsAppend(a[1..], b);
    }
  }

  lemma {:induction false} SrsHaveNoBsr(s: seq<Action>)
    requires forall i :: 0 <= i < |s| ==> s[i].SrInfo?
    ensures Bsrs(s) == []
  {
    if s != [] {
      SrsHaveNoBsr(s[1..]);
    }
  }

  lemma CRntiPassHasNoBsr(subpdus: seq<SubPdu>, n: nat, pos: nat, acts: seq<Action>, rnti: nat, cellIndex: nat, t: BsrTables)
    requires ValidTables(t)
    requires n <= |subpdus|
    ensures Bsrs(CRntiPass(subpdus, n, pos, acts, rnti, cellIndex, t).1) == Bsrs(acts)
  {
    var r := CRntiPass(subpdus, n, pos, acts, rnti, cellIndex, t).1;
    var added := r[|acts|..];
    assert r == acts + added;
    SrsHaveNoBsr(added);
    BsrsAppend(acts, added);
  }

  lemma {:induction false} ForwardPassBsrs(subpdus: seq<SubPdu>, from: nat, crntiPos: nat, rnti: nat, cellIndex: nat, t: BsrTables)
    requires ValidTables(t)
    requires from <= |subpdus|
    requires crntiPos < |subpdus| ==> subpdus[crntiPos].CRntiSubPdu?
    ensures Bsrs(ForwardPass(subpdus, from, crntiPos, rnti, cellIndex, t)) == BsrsOfSubPdus(subpdus[from..], rnti, cellIndex, t)
    decreases |subpdus| - from
  {
    if from < |subpdus| {
      var sp := subpdus[from];
      var here :=
        if sp.SduSubPdu? then [SduNotified(rnti, sp.lcid)]
        else if from != crntiPos then ProcessCeSubPduAsWritten(rnti, cellIndex, sp, t)
        else [];
      ForwardPassBsrs(subpdus, from + 1, crntiPos, rnti, cellIndex, t);
      BsrsAppend(here, ForwardPass(subpdus, from + 1, crntiPos, rnti, cellIndex, t));
      assert subpdus[from..][1..] == subpdus[from + 1..];
      assert Bsrs(here) == Bsrs(ProcessCeSubPduAsWritten(rnti, cellIndex, sp, t)) by {
        assert Bsrs([SduNotified(rnti, 0)]) == [];
        assert Bsrs([SrInfo(0)]) == [];
        if sp.SduSubPdu? {
          assert Bsrs([SduNotified(rnti, sp.lcid)]) == [];
        } else if from == crntiPos {
          assert Bsrs([SrInfo(sp.crnti)]) == [];
        }
      }
    }
  }

  lemma {:induction false} ShortLabelsAppend(a: seq<Action>, b: seq<Action>)
    requires OnlyShortLabels(a) && OnlyShortLabels(b)
    ensures OnlyShortLabels(a + b)
  {
    forall i | 0 <= i < |a + b| && (a + b)[i].BsrIndicated?
      ensures (a + b)[i].ind.bsrType in {ShortBsr, ShortTruncBsr}
    {
      if i < |a| {
        assert (a + b)[i] == a[i];
      } else {
        assert (a + b)[i] == b[i - |a|];
      }
    }
  }

  lemma {:induction false} CRntiPassShortLabels(subpdus: seq<SubPdu>, n: nat, pos: nat, acts: seq<Action>, rnti: nat, cellIndex: nat, t: BsrTables)
    requires ValidTables(t)
    requires n <= |subpdus|
    requires OnlyShortLabels(acts)
    ensures OnlyShortLabels(CRntiPass(subpdus, n, pos, acts, rnti, cellIndex, t).1)
  {
    if n > 0 {
      var sp := subpdus[n - 1];
      if LcidOf(sp) == LcidCRnti {
        ShortLabelsAppend(acts, ProcessCeSubPduAsWritten(rnti, cellIndex, sp, t));
        CRntiPassShortLabels(subpdus, n - 1, n - 1, acts + ProcessCeSubPduAsWritten(rnti, cellIndex, sp, t), rnti, cellIndex, t);
      } else {
        CRntiPassShortLabels(subpdus, n - 1, pos, acts, rnti, cellIndex, t);
      }
    }
  }

  lemma {:induction false} ForwardPassShortLabels(subpdus: seq<SubPdu>, from: nat, crntiPos: nat, rnti: nat, cellIndex: nat, t: BsrTables)
    requires ValidTables(t)
    requires from <= |subpdus|
    ensures OnlyShortLabels(ForwardPass(subpdus, from, crntiPos, rnti, cellIndex, t))
    decreases |subpdus| - from
  {
    if from < |subpdus| {
      var sp := subpdus[from];
      var here :=
        if sp.SduSubPdu? then [SduNotified(rnti, sp.lcid)]
        else if from != crntiPos then ProcessCeSubPduAsWritten(rnti, cellIndex, sp, t)
        else [];
      assert OnlyShortLabels(here);
      ForwardPassShortLabels(subpdus, from + 1, crntiPos, rnti, cellIndex, t);
      ShortLabelsAppend(here, ForwardPass(subpdus, from + 1, crntiPos, rnti, cellIndex, t));
    }
  }

  /** The pass lemmas combined for the two passes of `handle_ul_pdu`. */
  lemma HandleUlPduFacts(subpdus: seq<SubPdu>, rnti: nat, cellIndex: nat, t: BsrTables)
    requires ValidTables(t)
    ensures var n := |subpdus|;
            var (pos, first) := CRntiPass(subpdus, n, n, [], rnti, cellIndex, t);
            var acts := first + ForwardPass(subpdus, 0, pos, rnti, cellIndex, t);
            && CountSr(acts) + (if CountCRnti(subpdus) > 0 then 1 else 0) == 2 * CountCRnti(subpdus)
            && Bsrs(acts) == BsrsOfSubPdus(subpdus, rnti, cellIndex, t)
            && OnlyShortLabels(acts)
  {
    var n := |subpdus|;
    assert subpdus[..n] == subpdus;
    assert subpdus[0..] == subpdus;
    CRntiPassFacts(subpdus, n, n, [], rnti, cellIndex, t);
    CRntiPassHasNoBsr(subpdus, n, n, [], rnti, cellIndex, t);
    CRntiPassShortLabels(subpdus, n, n, [], rnti, cellIndex, t);
    var (pos, first) := CRntiPass(subpdus, n, n, [], rnti, cellIndex, t);
    var rest := ForwardPass(subpdus, 0, pos, rnti, cellIndex, t);
    ForwardPassSr(subpdus, 0, pos, rnti, cellIndex, t);
    ForwardPassBsrs(subpdus, 0, pos, rnti, cellIndex, t);
    ForwardPassShortLabels(subpdus, 0, pos, rnti, cellIndex, t);
    CountSrAppend(first, rest);
    BsrsAppend(first, rest);
    ShortLabelsAppend(first, rest);
  }
}

=== FILE: nr_cell_identity.dfy ===
/** The 36-bit NR Cell Identity of subclause 9.3.1.7 of 3GPP TS 38.413:
    its bounds, the checked conversion from a number and the parser of a
    hexadecimal string. The parser relies on C's `strtoul` with base 16,
    which is modelled here character by character (leading white space, an
    optional sign, an optional `0x` prefix, then hexadecimal digits, on the
    NUL-terminated view of the string). */
module NrCellIdentity {
  import opened Wrappers

  /** `ULONG_MAX` on an LP64 platform: `uint64_t` and `unsigned long` coincide. */
  const ULONG_MAX: nat := 0xFFFF_FFFF_FFFF_FFFF

  type uint64 = x: nat | x <= ULONG_MAX

  function Pow2(n: nat): (r: nat)
    ensures r >= 1
  {
    if n == 0 then 1 else 2 * Pow2(n - 1)
  }

  lemma {:induction false} Pow2Add(a: nat, b: nat)
    ensures Pow2(a + b) == Pow2(a) * Pow2(b)
  {
    if a > 0 {
      Pow2Add(a - 1, b);
    }
  }

  lemma Pow2Four()
    ensures Pow2(4) == 16
  {
    assert Pow2(2) == 4;
  }

  lemma Pow2Values()
    ensures Pow2(4) == 16
    ensures Pow2(36) == 0x10_0000_0000
    ensures Pow2(64) == ULONG_MAX + 1
  {
    Pow2Four();
    Pow2Add(4, 4);
    assert Pow2(8) == 0x100;
    Pow2Add(8, 8);
    assert Pow2(16) == 0x1_0000;
    Pow2Add(16, 16);
    assert Pow2(32) == 0x1_0000_0000;
    Pow2Add(32, 4);
    Pow2Add(32, 32);
  }

  /** Number of bits of an NR Cell Identity (source: `nof_bits()`). It is a
      whole number of hexadecimal digits, which `ParseHex` relies on. */
  function NofBits(): (r: nat)
    ensures r % 4 == 0 && r > 0
  {
    36
  }

  /** The identity itself; the source keeps the raw 64-bit word. */
  datatype CellIdentity = CellIdentity(value: uint64)

  function Min(): (r: CellIdentity)
    ensures r.value == 0
  {
    CellIdentity(0)
  }

  /** `(1 << 36) - 1`: the largest identity that fits in `NofBits()` bits. */
  function Max(): (r: CellIdentity)
    ensures r.value == Pow2(NofBits()) - 1
  {
    Pow2Values();
    CellIdentity(0xF_FFFF_FFFF)
  }

  predicate Valid(c: CellIdentity) {
    c.value <= Max().value
  }

  /** `from_number`: succeeds exactly for values that fit in 36 bits. */
  function FromNumber(v: uint64): (r: Result<CellIdentity>)
    ensures r.Success? <==> v <= Pow2(NofBits()) - 1
    ensures r.Success? ==> r.value.value == v && Valid(r.value)
    ensures Min().value <= v <= Max().value ==> r.Success?
  {
    if v > Max().value then Failure(DefaultError) else Success(CellIdentity(v))
  }

  // ---------------------------------------------------------------------------
  // Characters and hexadecimal digits
  // ---------------------------------------------------------------------------

  /** C's `isspace` in the "C" locale. */
  predicate IsSpace(c: char) {
    c == ' ' || c == '\t' || c == '\n' || c == '\U{000B}' || c == '\U{000C}' || c == '\r'
  }

  function HexDigitValue(c: char): Option<nat> {
    if '0' <= c <= '9' then Some(c as nat - '0' as nat)
    else if 'a' <= c <= 'f' then Some(10 + c as nat - 'a' as nat)
    else if 'A' <= c <= 'F' then Some(10 + c as nat - 'A' as nat)
    else None
  }

  predicate IsHexDigit(c: char) {
    HexDigitValue(c).Some?
  }

  predicate AllHexDigits(s: string) {
    forall i :: 0 <= i < |s| ==> IsHexDigit(s[i])
  }

  function DigitOf(c: char): (d: nat)
    requires IsHexDigit(c)
    ensures d < 16
  {
    HexDigitValue(c).value
  }

  /** The number a string of hexadecimal digits denotes, most significant first. */
  function HexValue(s: string): nat
    requires AllHexDigits(s)
  {
    if s == [] then 0 else 16 * HexValue(s[..|s| - 1]) + DigitOf(s[|s| - 1])
  }

  lemma {:induction false} HexValueBound(s: string)
    requires AllHexDigits(s)
    ensures HexValue(s) < Pow2(4 * |s|)
  {
    if s != [] {
      var p := s[..|s| - 1];
      var x := HexValue(p);
      var bound := Pow2(4 * |p|);
      HexValueBound(p);
      Pow2Add(4 * |p|, 4);
      Pow2Four();
      assert 4 * |s| == 4 * |p| + 4;
      assert Pow2(4 * |s|) == 16 * bound;
      assert HexValue(s) == 16 * x + DigitOf(s[|s| - 1]);
    }
  }

  /** The number of bytes of a character's UTF-8 encoding. */
  function Utf8Size(c: char): (n: nat)
    ensures 1 <= n <= 4
    ensures n == 1 <==> c as nat < 0x80
  {
    if c as nat < 0x80 then 1 else if c as nat < 0x800 then 2 else if c as nat < 0x1_0000 then 3 else 4
  }

  predicate IsAscii(s: string) {
    forall i :: 0 <= i < |s| ==> s[i] as nat < 0x80
  }

  /** `std::string::size()`: a string holds the UTF-8 encoding of its
      characters, and its size counts those bytes. */
  function ByteLength(s: string): (n: nat)
    ensures n >= |s|
    ensures n == |s| <==> IsAscii(s)
  {
    if s == [] then 0
    else
      var n := Utf8Size(s[0]) + ByteLength(s[1..]);
      assert IsAscii(s) <==> s[0] as nat < 0x80 && IsAscii(s[1..]) by {
        if s[0] as nat < 0x80 && IsAscii(s[1..]) {
          forall i | 0 <= i < |s|
            ensures s[i] as nat < 0x80
          {
            if i > 0 { assert s[i] == s[1..][i - 1]; }
          }
        }
      }
      n
  }

  lemma AsciiByteLength(s: string)
    requires IsAscii(s)
    ensures ByteLength(s) == |s|
  {
  }

  // ---------------------------------------------------------------------------
  // strtoul(s, &end, 16)
  // ---------------------------------------------------------------------------

  /** `std::string::c_str()` seen by a C function: everything before the first NUL. */
  function CString(s: string): (c: string)
    ensures |c| <= |s| && c == s[..|c|]
    ensures '\0' !in c
    ensures '\0' !in s ==> c == s
  {
    if s == [] || s[0] == '\0' then [] else [s[0]] + CString(s[1..])
  }

  function SkipSpaces(s: string, i: nat): (j: nat)
    requires i <= |s|
    ensures i <= j <= |s|
    ensures forall k :: i <= k < j ==> IsSpace(s[k])
    ensures j < |s| ==> !IsSpace(s[j])
    decreases |s| - i
  {
    if i < |s| && IsSpace(s[i]) then SkipSpaces(s, i + 1) else i
  }

  function DigitRun(s: string, i: nat): (j: nat)
    requires i <= |s|
    ensures i <= j <= |s|
    ensures forall k :: i <= k < j ==> IsHexDigit(s[k])
    ensures j < |s| ==> !IsHexDigit(s[j])
    ensures (forall k :: i <= k < |s| ==> IsHexDigit(s[k])) ==> j == |s|
    decreases |s| - i
  {
    if i < |s| && IsHexDigit(s[i]) then DigitRun(s, i + 1) else i
  }

  /** Index of the first digit: after white space, an optional sign and an
      optional `0x`/`0X` that is followed by a hexadecimal digit (a lone
      `0x` converts as the digit `0` and stops at the `x`). */
  function DigitsStart(s: string): (k: nat)
    ensures k <= |s|
  {
    var i := SkipSpaces(s, 0);
    var j := if i < |s| && (s[i] == '-' || s[i] == '+') then i + 1 else i;
    if j + 2 < |s| && s[j] == '0' && (s[j + 1] == 'x' || s[j + 1] == 'X') && IsHexDigit(s[j + 2])
    then j + 2
    else j
  }

  predicate Negated(s: string) {
    var i := SkipSpaces(s, 0);
    i < |s| && s[i] == '-'
  }

  /** `strtoul(s, &end, 16)` on a NUL-free string: the converted value and the
      index `end` points at. Without digits the result is 0 and `end` is the
      start of the string; an out-of-range magnitude saturates at
      `ULONG_MAX`; a leading minus negates the value modulo 2^64. */
  function StrToUL(s: string): (r: (uint64, nat))
    ensures r.1 <= |s|
    ensures r.1 > 0 ==> DigitsStart(s) < r.1
    ensures forall k :: DigitsStart(s) <= k < r.1 ==> IsHexDigit(s[k])
    ensures r.1 < |s| && r.1 > 0 ==> !IsHexDigit(s[r.1])
  {
    var k := DigitsStart(s);
    var e := DigitRun(s, k);
    if e == k then (0, 0)
    else
      var v := HexValue(s[k..e]);
      if v > ULONG_MAX then (ULONG_MAX, e)
      else if Negated(s) then ((ULONG_MAX + 1 - v) % (ULONG_MAX + 1), e)
      else (v, e)
  }

  /** Every character before the digits is white space, a sign, or the `0x` prefix. */
  lemma PrefixCharacters(s: string, i: nat)
    requires i < DigitsStart(s)
    ensures IsSpace(s[i]) || s[i] in "+-0xX"
  {
    var sp := SkipSpaces(s, 0);
    if i >= sp {
      var j := if sp < |s| && (s[sp] == '-' || s[sp] == '+') then sp + 1 else sp;
      assert i == sp || i == j || i == j + 1;
    }
  }

  // ---------------------------------------------------------------------------
  // parse_hex
  // ---------------------------------------------------------------------------

  /** `parse_hex` as the source writes it: a check of the string's size in
      bytes against `nof_bits() / 4` digits, then `strtoul` on the C string, failing when
      conversion stops before the terminating NUL. Nothing bounds the
      converted value, so a leading `-` yields an identity beyond `Max()`
      (see `NegativeHexEscapesRange`). */
  function ParseHexAsWritten(s: string): (r: Result<CellIdentity>)
    ensures ByteLength(s) > NofBits() / 4 ==> r.Failure?
    ensures |s| > NofBits() / 4 ==> r.Failure?
  {
    if ByteLength(s) > NofBits() / 4 then Failure(DefaultError)
    else
      var c := CString(s);
      var (n, e) := StrToUL(c);
      if e < |c| then Failure(DefaultError) else Success(CellIdentity(n))
  }

  /** The string "-1" is short enough and fully converted, so the as-written
      parser returns the raw word 2^64 - 1, far above `Max()`. */
  lemma NegativeHexEscapesRange()
    ensures ParseHexAsWritten("-1").Success?
    ensures ParseHexAsWritten("-1").value.value == ULONG_MAX
    ensures !Valid(ParseHexAsWritten("-1").value)
  {
    var s := "-1";
    AsciiByteLength(s);
    assert CString(s) == s;
    assert SkipSpaces(s, 0) == 0;
    assert DigitsStart(s) == 1;
    assert DigitRun(s, 2) == 2;
    assert DigitRun(s, 1) == 2;
    assert s[1..2] == "1";
    assert HexValue("1") == 16 * HexValue("") + 1;
  }

  /** `parse_hex` with the range check its result evidently needs: the
      converted value is passed through `FromNumber`. */
  function ParseHex(s: string): (r: Result<CellIdentity>)
    ensures r.Success? ==> Valid(r.value)
    ensures r.Success? ==> ParseHexAsWritten(s) == r
    ensures |s| > NofBits() / 4 ==> r.Failure?
  {
    var c :- ParseHexAsWritten(s);
    FromNumber(c.value)
  }

  lemma CorrectedParseRejectsNegative()
    ensures ParseHex("-1").Failure?
  {
    NegativeHexEscapesRange();
  }

  lemma HexDigitsAreNotNul(s: string)
    requires AllHexDigits(s)
    ensures '\0' !in s
    ensures ByteLength(s) == |s|
  {
    assert IsAscii(s) by {
      forall i | 0 <= i < |s|
        ensures s[i] as nat < 0x80
      {
        assert IsHexDigit(s[i]);
      }
    }
  }

  lemma DigitsStartOfDigits(s: string)
    requires 1 <= |s| && AllHexDigits(s)
    ensures DigitsStart(s) == 0 && !Negated(s)
  {
    assert IsHexDigit(s[0]);
    assert SkipSpaces(s, 0) == 0;
    if |s| > 2 && s[0] == '0' {
      assert IsHexDigit(s[1]);
    }
  }

  lemma HexValueFits(s: string, bits: nat)
    requires AllHexDigits(s) && 4 * |s| <= bits
    ensures HexValue(s) < Pow2(bits)
  {
    HexValueBound(s);
    Pow2Add(4 * |s|, bits - 4 * |s|);
  }

  /** `strtoul` consumes a whole string of at most sixteen hexadecimal digits
      and returns the number it denotes. */
  lemma StrToULOfDigits(s: string)
    requires 1 <= |s| <= 16
    requires AllHexDigits(s)
    ensures StrToUL(s) == (HexValue(s), |s|)
  {
    DigitsStartOfDigits(s);
    assert DigitRun(s, 0) == |s|;
    assert s[0..|s|] == s;
    HexValueFits(s, 64);
    Pow2Values();
  }

  /** A string of one to nine hexadecimal digits parses to the number it
      denotes, which always fits in 36 bits. */
  lemma {:induction false} ParseHexDigits(s: string)
    requires 1 <= |s| <= NofBits() / 4
    requires AllHexDigits(s)
    ensures HexValue(s) <= Max().value
    ensures ParseHex(s) == Success(CellIdentity(HexValue(s)))
  {
    HexDigitsAreNotNul(s);
    assert CString(s) == s;
    StrToULOfDigits(s);
    HexValueFits(s, 36);
    Pow2Values();
  }

  /** A NUL-free string holding a character that `strtoul` can never consume
      (not a digit, not white space, not a sign, not part of `0x`) fails. */
  lemma NonHexCharacterRejected(s: string, i: nat)
    requires '\0' !in s
    requires i < |s|
    requires !IsHexDigit(s[i]) && !IsSpace(s[i]) && s[i] !in "+-xX"
    ensures ParseHexAsWritten(s).Failure?
    ensures ParseHex(s).Failure?
  {
    if ByteLength(s) <= NofBits() / 4 {
      assert CString(s) == s;
      if i < DigitsStart(s) {
        PrefixCharacters(s, i);
        assert false;
      }
    }
  }

  /** Nine characters that are sixteen bytes: the size check counts bytes,
      so the string fails before any conversion, although its first
      character is a digit and a NUL follows it. */
  lemma MultiByteStringRejected()
    ensures |"1\0\U{E9}\U{E9}\U{E9}\U{E9}\U{E9}\U{E9}\U{E9}"| == 9
    ensures ParseHexAsWritten("1\0\U{E9}\U{E9}\U{E9}\U{E9}\U{E9}\U{E9}\U{E9}").Failure?
  {
    var s := "1\0\U{E9}\U{E9}\U{E9}\U{E9}\U{E9}\U{E9}\U{E9}";
    assert s[1..] == "\0\U{E9}\U{E9}\U{E9}\U{E9}\U{E9}\U{E9}\U{E9}";
    assert !IsAscii(s[1..]) by {
      assert s[1..][1] as nat == 0xE9;
    }
  }

  // ---------------------------------------------------------------------------
  // Hexadecimal formatting, the partner of the parser
  // ---------------------------------------------------------------------------

  function HexChar(d: nat): (c: char)
    requires d < 16
    ensures IsHexDigit(c) && DigitOf(c) == d
  {
    if d < 10 then ('0' as nat + d) as char else ('a' as nat + d - 10) as char
  }

  /** The `w` least significant hexadecimal digits of `v`, zero padded. */
  function ToHex(v: nat, w: nat): (s: string)
    ensures |s| == w && AllHexDigits(s)
  {
    if w == 0 then [] else ToHex(v / 16, w - 1) + [HexChar(v % 16)]
  }

  lemma {:induction false} ToHexValue(v: nat, w: nat)
    requires v < Pow2(4 * w)
    ensures HexValue(ToHex(v, w)) == v
  {
    if w == 0 {
      assert v == 0;
    } else {
      var s := ToHex(v, w);
      Pow2Add(4 * (w - 1), 4);
      Pow2Values();
      assert 4 * w == 4 * (w - 1) + 4;
      assert v / 16 < Pow2(4 * (w - 1));
      ToHexValue(v / 16, w - 1);
      assert s[..|s| - 1] == ToHex(v / 16, w - 1);
    }
  }

  /** Formatting a valid identity as nine hexadecimal digits and parsing the
      text back yields the same identity. */
  lemma FormatParseRoundTrip(c: CellIdentity)
    requires Valid(c)
    ensures ParseHex(ToHex(c.value, NofBits() / 4)) == Success(c)
  {
    Pow2Values();
    ToHexValue(c.value, 9);
    ParseHexDigits(ToHex(c.value, 9));
  }
}

=== FILE: sched_ssb.dfy ===
/** SS/PBCH block (SSB) allocation of the MAC scheduler: for a slot, the SSBs
    of the burst that fall into it, following the candidate SS/PBCH block
    cases A, B and C of section 4.1 of 3GPP TS 38.213. The in-burst bitmap
    (`ssb-PositionsInBurst`) holds SSB index 0 in its most significant bit. */
module SchedSsb {

  const NOF_SLOTS_PER_SUBFRAME: nat := 1
  const NOF_SSB_OFDM_SYMBOLS: nat := 4
  const NOF_SSB_PRBS: nat := 20
  const CUTOFF_FREQ_ARFCN_CASE_A_B_C: nat := 600000
  const CUTOFF_FREQ_ARFCN_CASE_C_UNPAIRED: nat := 376000
  /** OFDM symbols per slot with the normal cyclic prefix. */
  const NOF_OFDM_SYMB_PER_SLOT: nat := 14
  /** SSB periodicity used when upper layers leave it at 0 (5 ms, section 4.1 of TS 38.213). */
  const DEFAULT_SSB_PERIODICITY: nat := 5
  /** The scheduler only handles FR1 ARFCNs. */
  const FR2_FIRST_ARFCN: nat := 875000

  type uint16 = x: nat | x < 0x1_0000

  datatype SsbCase = CaseA | CaseB | CaseCPaired | CaseCUnpaired

  datatype TxMode = Transmission | Repetition

  /** The half-open interval `[start, stop)`. */
  datatype Interval = Interval(start: nat, stop: nat) {
    function Length(): int { stop - start }
  }

  datatype Ssb = Ssb(txMode: TxMode, ssbIdx: nat, ofdmSymbols: Interval, prbAlloc: Interval)

  /** Is SSB index `i` (0..7) marked in the burst bitmap? */
  predicate InBurst(bitmap: bv8, i: nat)
    requires i < 8
  {
    bitmap & (0x80 >> i) != 0
  }

  /** `ssb_idx` is the first SSB of the burst when masking away the bits of
      all lower indices leaves the bitmap unchanged. */
  predicate IsFirstInBurst(bitmap: bv8, ssbIdx: nat)
    requires ssbIdx < 8
  {
    bitmap & (0xFF >> ssbIdx) == bitmap
  }

  // ---------------------------------------------------------------------------
  // fill_ssb_parameters, ssb_alloc_case_A_C, ssb_alloc_case_B
  // ---------------------------------------------------------------------------

  function FillSsbParameters(offsetToPointA: nat, ofdmSymIdx: nat, ssbIdx: nat, bitmap: bv8): (r: Ssb)
    requires ssbIdx < 8
    ensures r.ssbIdx == ssbIdx
    ensures r.ofdmSymbols.start == ofdmSymIdx && r.ofdmSymbols.Length() == NOF_SSB_OFDM_SYMBOLS
    ensures r.prbAlloc.start == offsetToPointA && r.prbAlloc.Length() == NOF_SSB_PRBS
    ensures r.txMode == Transmission <==> forall j :: 0 <= j < ssbIdx ==> !InBurst(bitmap, j)
  {
    FirstInBurstIff(bitmap, ssbIdx);
    var isFirst := IsFirstInBurst(bitmap, ssbIdx);
    Ssb(if isFirst then Transmission else Repetition,
        ssbIdx,
        Interval(ofdmSymIdx, ofdmSymIdx + NOF_SSB_OFDM_SYMBOLS),
        Interval(offsetToPointA, offsetToPointA + NOF_SSB_PRBS))
  }

  /** An SSB of the burst as `fill_ssb_parameters` lays it out: its index is
      in the burst, it spans 4 symbols and 20 PRBs from `offset_to_point_A`,
      and it is a transmission exactly when no lower index is in the burst. */
  predicate BurstSsb(s: Ssb, offsetToPointA: nat, bitmap: bv8) {
    && s.ssbIdx < 8
    && InBurst(bitmap, s.ssbIdx)
    && s.ofdmSymbols.Length() == NOF_SSB_OFDM_SYMBOLS
    && s.prbAlloc == Interval(offsetToPointA, offsetToPointA + NOF_SSB_PRBS)
    && (s.txMode == Transmission <==> forall j :: 0 <= j < s.ssbIdx ==> !InBurst(bitmap, j))
  }

  /** The SSBs of one slot, found by walking two candidates with a mask that
      starts at the bit of `firstIdx` and moves one bit to the right: the
      walk tests exactly the burst bits of `firstIdx` and `firstIdx + 1`. */
  function AllocPair(offsetToPointA: nat, symbols: seq<nat>, symbolBase: nat, firstIdx: nat, bitmap: bv8): (r: seq<Ssb>)
    requires |symbols| == 2 && firstIdx + 1 < 8
    ensures r == (if InBurst(bitmap, firstIdx) then [FillSsbParameters(offsetToPointA, symbols[0] + symbolBase, firstIdx, bitmap)] else [])
                 + (if InBurst(bitmap, firstIdx + 1) then [FillSsbParameters(offsetToPointA, symbols[1] + symbolBase, firstIdx + 1, bitmap)] else [])
  {
    var mask: bv8 := 0x80 >> firstIdx;
    MaskShift(firstIdx);
    assert (bitmap & mask != 0) == InBurst(bitmap, firstIdx);
    assert (bitmap & (mask >> 1) != 0) == InBurst(bitmap, firstIdx + 1);
    (if bitmap & mask != 0 then [FillSsbParameters(offsetToPointA, symbols[0] + symbolBase, firstIdx, bitmap)] else [])
    + (if bitmap & (mask >> 1) != 0 then [FillSsbParameters(offsetToPointA, symbols[1] + symbolBase, firstIdx + 1, bitmap)] else [])
  }

  /** An SSB of slot `slotMod` in the burst, on the first symbol section 4.1
      of TS 38.213 gives its index in `ssbCase`. */
  predicate SlotSsb(s: Ssb, ssbCase: SsbCase, slotMod: nat, offsetToPointA: nat, bitmap: bv8) {
    && BurstSsb(s, offsetToPointA, bitmap)
    && 2 * slotMod <= s.ssbIdx <= 2 * slotMod + 1
    && s.ofdmSymbols.start == CandidateFirstSymbol(ssbCase, s.ssbIdx)
  }

  /** Cases A and C: symbols {2, 8} of each of the first four slots. At or
      below the cutoff only slots 0 and 1 carry SSBs, and no slot after 3. */
  function AllocCaseAC(freqArfcn: nat, cutoff: nat, slotMod: nat, offsetToPointA: nat, bitmap: bv8): (r: seq<Ssb>)
    ensures freqArfcn <= cutoff && slotMod > 1 ==> r == []
    ensures slotMod > 3 ==> r == []
    ensures |r| <= 2
    ensures forall k :: 0 <= k < |r| ==> SlotSsb(r[k], CaseA, slotMod, offsetToPointA, bitmap)
  {
    if freqArfcn <= cutoff && slotMod > 1 then []
    else if slotMod <= 3 then
      PairIsSlotSsbs(CaseA, slotMod, offsetToPointA, bitmap, [2, 8], slotMod * NOF_OFDM_SYMB_PER_SLOT);
      AllocPair(offsetToPointA, [2, 8], slotMod * NOF_OFDM_SYMB_PER_SLOT, slotMod * 2, bitmap)
    else []
  }

  /** The pair walk of a slot yields SSBs of that slot on their candidate
      symbols, when the two symbols given are the candidates' first ones. */
  lemma PairIsSlotSsbs(ssbCase: SsbCase, slotMod: nat, offsetToPointA: nat, bitmap: bv8, symbols: seq<nat>, symbolBase: nat)
    requires |symbols| == 2 && 2 * slotMod + 1 < 8
    requires symbols[0] + symbolBase == CandidateFirstSymbol(ssbCase, 2 * slotMod)
    requires symbols[1] + symbolBase == CandidateFirstSymbol(ssbCase, 2 * slotMod + 1)
    ensures var r := AllocPair(offsetToPointA, symbols, symbolBase, 2 * slotMod, bitmap);
            |r| <= 2 && forall k :: 0 <= k < |r| ==> SlotSsb(r[k], ssbCase, slotMod, offsetToPointA, bitmap)
  {
  }

  /** Case B: symbols {4, 8} in slots 0 and 2, symbols {16, 20} counted from
      the slot before in slots 1 and 3. At or below the cutoff only slots 0
      and 1 carry SSBs, and no slot after 3. */
  function AllocCaseB(freqArfcn: nat, slotMod: nat, offsetToPointA: nat, bitmap: bv8): (r: seq<Ssb>)
    ensures freqArfcn <= CUTOFF_FREQ_ARFCN_CASE_A_B_C && slotMod > 1 ==> r == []
    ensures slotMod > 3 ==> r == []
    ensures |r| <= 2
    ensures forall k :: 0 <= k < |r| ==> SlotSsb(r[k], CaseB, slotMod, offsetToPointA, bitmap)
  {
    if freqArfcn <= CUTOFF_FREQ_ARFCN_CASE_A_B_C && slotMod > 1 then []
    else if slotMod == 0 || slotMod == 2 then
      PairIsSlotSsbs(CaseB, slotMod, offsetToPointA, bitmap, [4, 8], slotMod * NOF_OFDM_SYMB_PER_SLOT);
      AllocPair(offsetToPointA, [4, 8], slotMod * NOF_OFDM_SYMB_PER_SLOT, slotMod * 2, bitmap)
    else if slotMod == 1 || slotMod == 3 then
      PairIsSlotSsbs(CaseB, slotMod, offsetToPointA, bitmap, [16, 20], (slotMod - 1) * NOF_OFDM_SYMB_PER_SLOT);
      AllocPair(offsetToPointA, [16, 20], (slotMod - 1) * NOF_OFDM_SYMB_PER_SLOT, slotMod * 2, bitmap)
    else []
  }

  /** The SSB period in slots, with a period of 0 read as the default. */
  function PeriodSlots(ssbPeriodicity: uint16): nat {
    (if ssbPeriodicity == 0 then DEFAULT_SSB_PERIODICITY else ssbPeriodicity) * NOF_SLOTS_PER_SUBFRAME
  }

  /** The slot index within the SSB period: the one slot of the period that
      lies a whole number of periods before `slot`. */
  function SlotInPeriod(slot: nat, ssbPeriodicity: uint16): (r: nat)
    ensures PeriodSlots(ssbPeriodicity) > 0
    ensures r < PeriodSlots(ssbPeriodicity) && r <= slot
    ensures (slot - r) % PeriodSlots(ssbPeriodicity) == 0
  {
    var period := if ssbPeriodicity == 0 then DEFAULT_SSB_PERIODICITY else ssbPeriodicity;
    var p := period * NOF_SLOTS_PER_SUBFRAME;
    assert p == PeriodSlots(ssbPeriodicity) && p > 0;
    WholePeriods(slot, p);
    slot % p
  }

  lemma WholePeriods(slot: nat, p: nat)
    requires p > 0
    ensures slot % p < p && slot % p <= slot
    ensures (slot - slot % p) % p == 0
  {
    var q := slot / p;
    assert slot - slot % p == q * p;
    MultipleMod(q, p);
  }

  lemma MultipleMod(q: nat, p: nat)
    requires p > 0
    ensures (q * p) % p == 0
  {
    var d := (q * p) / p;
    var m := (q * p) % p;
    assert (q - d) * p == m;
    if q - d >= 1 {
      assert (q - d) * p == (q - d - 1) * p + p;
    } else if q - d <= -1 {
      assert (q - d) * p == (q - d + 1) * p - p;
    }
  }

  /** The allocation `sched_ssb` selects by case: A and paired C share the
      3 GHz cutoff, unpaired C uses the 1.88 GHz one. */
  function AllocForCase(ssbCase: SsbCase, freqArfcn: nat, slotMod: nat, offsetToPointA: nat, bitmap: bv8): (r: seq<Ssb>)
    ensures |r| <= 2
    ensures forall k :: 0 <= k < |r| ==> SlotSsb(r[k], ssbCase, slotMod, offsetToPointA, bitmap)
  {
    match ssbCase
    case CaseA | CaseCPaired => AllocCaseAC(freqArfcn, CUTOFF_FREQ_ARFCN_CASE_A_B_C, slotMod, offsetToPointA, bitmap)
    case CaseB => AllocCaseB(freqArfcn, slotMod, offsetToPointA, bitmap)
    case CaseCUnpaired => AllocCaseAC(freqArfcn, CUTOFF_FREQ_ARFCN_CASE_C_UNPAIRED, slotMod, offsetToPointA, bitmap)
  }

  /** `sched_ssb`: appends to `ssbList` the SSBs of the burst that fall into
      `slot`, unless the list is already at its capacity `maxSsbs`. The FR1
      assertion is only reached when the list is not full. A list one short
      of its capacity can receive two SSBs. */
  function SchedSsbSlot(slot: nat, ssbPeriodicity: uint16, offsetToPointA: nat, freqArfcn: nat, bitmap: bv8,
                        ssbCase: SsbCase, ssbList: seq<Ssb>, maxSsbs: nat): (r: seq<Ssb>)
    requires |ssbList| < maxSsbs ==> freqArfcn < FR2_FIRST_ARFCN
    ensures |ssbList| >= maxSsbs ==> r == ssbList
    ensures |ssbList| <= |r| <= |ssbList| + 2 && r[..|ssbList|] == ssbList
    ensures |ssbList| < maxSsbs ==> |r| <= maxSsbs + 1
    ensures forall k :: |ssbList| <= k < |r| ==> BurstSsb(r[k], offsetToPointA, bitmap)
  {
    if |ssbList| >= maxSsbs then ssbList
    else
      var slotMod := SlotInPeriod(slot, ssbPeriodicity);
      var added := AllocForCase(ssbCase, freqArfcn, slotMod, offsetToPointA, bitmap);
      AllocationFacts(ssbCase, freqArfcn, slotMod, offsetToPointA, bitmap);
      assert (ssbList + added)[..|ssbList|] == ssbList;
      ssbList + added
  }

  // ---------------------------------------------------------------------------
  // Reference: the candidate SS/PBCH blocks of section 4.1 of TS 38.213
  // ---------------------------------------------------------------------------

  /** Number of candidate SSBs in a half frame (L_max): 4 at or below the
      case's cutoff frequency, 8 above it. */
  function MaxCandidates(ssbCase: SsbCase, freqArfcn: nat): nat {
    var cutoff := if ssbCase == CaseCUnpaired then CUTOFF_FREQ_ARFCN_CASE_C_UNPAIRED else CUTOFF_FREQ_ARFCN_CASE_A_B_C;
    if freqArfcn <= cutoff then 4 else 8
  }

  /** First OFDM symbol of candidate SSB `i`, counted from the start of the
      half frame: `{2, 8} + 14n` in cases A and C, `{4, 8, 16, 20} + 28n` in case B. */
  function CandidateFirstSymbol(ssbCase: SsbCase, i: nat): nat {
    if ssbCase == CaseB then [4, 8, 16, 20][i % 4] + 28 * (i / 4)
    else [2, 8][i % 2] + 14 * (i / 2)
  }

  /** The SSBs of the burst whose candidate lies in slot `slotMod` of the
      period: indices `2 slotMod` and `2 slotMod + 1`, when they are
      candidates at this frequency and marked in the bitmap. */
  function ExpectedSsbs(ssbCase: SsbCase, freqArfcn: nat, slotMod: nat, offsetToPointA: nat, bitmap: bv8): seq<Ssb> {
    var lmax := MaxCandidates(ssbCase, freqArfcn);
    var i0 := 2 * slotMod;
    (if i0 < lmax && InBurst(bitmap, i0) then [FillSsbParameters(offsetToPointA, CandidateFirstSymbol(ssbCase, i0), i0, bitmap)] else [])
    + (if i0 + 1 < lmax && InBurst(bitmap, i0 + 1) then [FillSsbParameters(offsetToPointA, CandidateFirstSymbol(ssbCase, i0 + 1), i0 + 1, bitmap)] else [])
  }

  lemma MaskShift(firstIdx: nat)
    requires firstIdx + 1 < 8
    ensures ((0x80 as bv8) >> firstIdx) >> 1 == (0x80 as bv8) >> (firstIdx + 1)
  {
    assert firstIdx in {0, 1, 2, 3, 4, 5, 6};
  }

  lemma PairMatchesCandidates(ssbCase: SsbCase, freqArfcn: nat, slotMod: nat, offsetToPointA: nat, bitmap: bv8,
                              symbols: seq<nat>, symbolBase: nat)
    requires |symbols| == 2 && 2 * slotMod + 1 < MaxCandidates(ssbCase, freqArfcn)
    requires symbols[0] + symbolBase == CandidateFirstSymbol(ssbCase, 2 * slotMod)
    requires symbols[1] + symbolBase == CandidateFirstSymbol(ssbCase, 2 * slotMod + 1)
    ensures AllocPair(offsetToPointA, symbols, symbolBase, 2 * slotMod, bitmap)
            == ExpectedSsbs(ssbCase, freqArfcn, slotMod, offsetToPointA, bitmap)
  {
  }

  /** The allocation of every case is exactly the set of candidate SSBs that
      section 4.1 of TS 38.213 places in the slot and the bitmap selects. */
  lemma AllocationMatchesCandidates(ssbCase: SsbCase, freqArfcn: nat, slotMod: nat, offsetToPointA: nat, bitmap: bv8)
    ensures AllocForCase(ssbCase, freqArfcn, slotMod, offsetToPointA, bitmap)
            == ExpectedSsbs(ssbCase, freqArfcn, slotMod, offsetToPointA, bitmap)
  {
    var lmax := MaxCandidates(ssbCase, freqArfcn);
    if 2 * slotMod >= lmax {
      assert ExpectedSsbs(ssbCase, freqArfcn, slotMod, offsetToPointA, bitmap) == [];
    } else if ssbCase == CaseB {
      CaseBMatchesCandidates(freqArfcn, slotMod, offsetToPointA, bitmap);
    } else {
      PairMatchesCandidates(ssbCase, freqArfcn, slotMod, offsetToPointA, bitmap, [2, 8], slotMod * 14);
    }
  }

  lemma CaseBMatchesCandidates(freqArfcn: nat, slotMod: nat, offsetToPointA: nat, bitmap: bv8)
    requires 2 * slotMod < MaxCandidates(CaseB, freqArfcn)
    ensures AllocCaseB(freqArfcn, slotMod, offsetToPointA, bitmap)
            == ExpectedSsbs(CaseB, freqArfcn, slotMod, offsetToPointA, bitmap)
  {
    if slotMod == 0 {
      PairMatchesCandidates(CaseB, freqArfcn, slotMod, offsetToPointA, bitmap, [4, 8], 0);
    } else if slotMod == 1 {
      PairMatchesCandidates(CaseB, freqArfcn, slotMod, offsetToPointA, bitmap, [16, 20], 0);
    } else if slotMod == 2 {
      PairMatchesCandidates(CaseB, freqArfcn, slotMod, offsetToPointA, bitmap, [4, 8], 28);
    } else {
      PairMatchesCandidates(CaseB, freqArfcn, slotMod, offsetToPointA, bitmap, [16, 20], 28);
    }
  }

  lemma AllocationFacts(ssbCase: SsbCase, freqArfcn: nat, slotMod: nat, offsetToPointA: nat, bitmap: bv8)
    ensures var added := AllocForCase(ssbCase, freqArfcn, slotMod, offsetToPointA, bitmap);
            && |added| <= 2
            && forall k :: 0 <= k < |added| ==> BurstSsb(added[k], offsetToPointA, bitmap)
  {
    AllocationMatchesCandidates(ssbCase, freqArfcn, slotMod, offsetToPointA, bitmap);
    ExpectedSsbsFacts(ssbCase, freqArfcn, slotMod, offsetToPointA, bitmap);
  }

  lemma ExpectedSsbsFacts(ssbCase: SsbCase, freqArfcn: nat, slotMod: nat, offsetToPointA: nat, bitmap: bv8)
    ensures var e := ExpectedSsbs(ssbCase, freqArfcn, slotMod, offsetToPointA, bitmap);
            && |e| <= 2
            && forall k :: 0 <= k < |e| ==> BurstSsb(e[k], offsetToPointA, bitmap)
  {
    var lmax := MaxCandidates(ssbCase, freqArfcn);
    var i0 := 2 * slotMod;
    var e0 := if i0 < lmax && InBurst(bitmap, i0) then [FillSsbParameters(offsetToPointA, CandidateFirstSymbol(ssbCase, i0), i0, bitmap)] else [];
    var e1 := if i0 + 1 < lmax && InBurst(bitmap, i0 + 1) then [FillSsbParameters(offsetToPointA, CandidateFirstSymbol(ssbCase, i0 + 1), i0 + 1, bitmap)] else [];
    assert forall k :: 0 <= k < |e0| ==> BurstSsb(e0[k], offsetToPointA, bitmap);
    assert forall k :: 0 <= k < |e1| ==> BurstSsb(e1[k], offsetToPointA, bitmap);
    assert ExpectedSsbs(ssbCase, freqArfcn, slotMod, offsetToPointA, bitmap) == e0 + e1;
  }

  /** `sched_ssb` appends exactly the candidate SSBs of the slot in the period. */
  lemma SchedSsbMatchesCandidates(slot: nat, ssbPeriodicity: uint16, offsetToPointA: nat, freqArfcn: nat, bitmap: bv8,
                                  ssbCase: SsbCase, ssbList: seq<Ssb>, maxSsbs: nat)
    requires freqArfcn < FR2_FIRST_ARFCN
    requires |ssbList| < maxSsbs
    ensures SchedSsbSlot(slot, ssbPeriodicity, offsetToPointA, freqArfcn, bitmap, ssbCase, ssbList, maxSsbs)
            == ssbList + ExpectedSsbs(ssbCase, freqArfcn, SlotInPeriod(slot, ssbPeriodicity), offsetToPointA, bitmap)
  {
    AllocationMatchesCandidates(ssbCase, freqArfcn, SlotInPeriod(slot, ssbPeriodicity), offsetToPointA, bitmap);
  }

  /** At or below the cutoff frequency only the first two slots of the period carry SSBs. */
  lemma NoSsbBeyondSlotOneBelowCutoff(ssbCase: SsbCase, freqArfcn: nat, slotMod: nat, offsetToPointA: nat, bitmap: bv8)
    requires MaxCandidates(ssbCase, freqArfcn) == 4 && slotMod > 1
    ensures AllocForCase(ssbCase, freqArfcn, slotMod, offsetToPointA, bitmap) == []
  {
  }

  // ---------------------------------------------------------------------------
  // The first-transmission test
  // ---------------------------------------------------------------------------

  /** Masking with `0xFF >> i` keeps the bitmap exactly when no SSB index
      below `i` is marked. */
  lemma FirstInBurstIff(bitmap: bv8, i: nat)
    requires i < 8
    ensures IsFirstInBurst(bitmap, i) <==> forall j :: 0 <= j < i ==> !InBurst(bitmap, j)
  {
    var none := forall j :: 0 <= j < i ==> !InBurst(bitmap, j);
    if i == 0 {
    } else if i == 1 {
      assert none <==> !InBurst(bitmap, 0);
    } else if i == 2 {
      assert none <==> !InBurst(bitmap, 0) && !InBurst(bitmap, 1);
    } else if i == 3 {
      assert none <==> !InBurst(bitmap, 0) && !InBurst(bitmap, 1) && !InBurst(bitmap, 2);
    } else if i == 4 {
      assert none <==> !InBurst(bitmap, 0) && !InBurst(bitmap, 1) && !InBurst(bitmap, 2) && !InBurst(bitmap, 3);
    } else if i == 5 {
      assert none <==> !InBurst(bitmap, 0) && !InBurst(bitmap, 1) && !InBurst(bitmap, 2) && !InBurst(bitmap, 3)
                       && !InBurst(bitmap, 4);
    } else if i == 6 {
      assert none <==> !InBurst(bitmap, 0) && !InBurst(bitmap, 1) && !InBurst(bitmap, 2) && !InBurst(bitmap, 3)
                       && !InBurst(bitmap, 4) && !InBurst(bitmap, 5);
    } else {
      assert none <==> !InBurst(bitmap, 0) && !InBurst(bitmap, 1) && !InBurst(bitmap, 2) && !InBurst(bitmap, 3)
                       && !InBurst(bitmap, 4) && !InBurst(bitmap, 5) && !InBurst(bitmap, 6);
    }
  }
}

=== FILE: sched_ue.dfy ===
/** The scheduler's per-UE state as the event dispatcher sees it: a UE with
    its PCell and per-cell contexts, each context holding DL and UL HARQ
    processes; and the HARQ-ACK correlation that matches the ACK bits of an
    uplink control indication (UCI) to the DL HARQ process expecting an ACK
    in the slot the UCI arrived in. The HARQ internals (`slot_ack`,
    `ack_info`, `crc_info`) and the `ue` class methods are kept as small
    records whose effects are appends and overwrites. */
module SchedUe {
  import opened Wrappers
  import MacUlPduHandler

  /** A DL HARQ process: the slot its ACK is expected in, whether it holds a
      transport block, that block's size, and the ACK bits received for it. */
  datatype DlHarq = DlHarq(slotAck: nat, active: bool, tbs: nat, acks: seq<bool>)

  /** An UL HARQ process with the CRC results received for it. */
  datatype UlHarq = UlHarq(active: bool, tbs: nat, crcs: seq<bool>)

  /** `ue_cell`: a UE's context in one serving cell. */
  datatype UeCell = UeCell(ueIndex: nat, cellIndex: nat, dlHarqs: seq<DlHarq>, ulHarqs: seq<UlHarq>)

  /** The scheduler `ue`. `cfg` stands for the dedicated configuration a
      reconfiguration replaces; the other fields record what the feedback
      handlers were given. */
  datatype Ue = Ue(
    ueIndex: nat,
    pcellIndex: nat,
    cells: map<nat, UeCell>,
    cfg: nat,
    bsrs: seq<MacUlPduHandler.UlBsrIndication>,
    srCount: nat,
    macCes: seq<nat>,
    dlBufferStates: map<nat, nat>)

  /** `ue::find_cell`. */
  function FindCell(u: Ue, cellIndex: nat): Option<UeCell> {
    if cellIndex in u.cells then Some(u.cells[cellIndex]) else None
  }

  // ---------------------------------------------------------------------------
  // HARQ process feedback
  // ---------------------------------------------------------------------------

  /** `dl_harq_process::ack_info`, whose body is not part of this model.
      The call site fixes only the result's sign: negative means no process
      took the bit. The post-state is a modelling choice: an active process
      records the bit, keeps its ACK slot and stays active, and returns its
      TB size; an inactive one is untouched and returns -1. */
  function AckInfo(h: DlHarq, ack: bool): (r: (DlHarq, int))
    ensures r.1 >= 0 <==> h.active
    ensures r.0.slotAck == h.slotAck
    ensures h.active ==> r.0 == h.(acks := h.acks + [ack]) && r.1 == h.tbs
    ensures !h.active ==> r.0 == h
  {
    if h.active then (h.(acks := h.acks + [ack]), h.tbs as int) else (h, -1)
  }

  /** `ul_harq_process::crc_info`, with the same shape as `AckInfo`. */
  function CrcInfo(h: UlHarq, ok: bool): (r: (UlHarq, int))
    ensures r.1 >= 0 <==> h.active
    ensures h.active ==> r.0 == h.(crcs := h.crcs + [ok]) && r.1 == h.tbs
    ensures !h.active ==> r.0 == h
  {
    if h.active then (h.(crcs := h.crcs + [ok]), h.tbs as int) else (h, -1)
  }

  /** A CRC for UL HARQ `harqId`; the result says whether a warning is
      logged (the process is inactive or the id is outside the table). */
  function HandleCrc(c: UeCell, harqId: nat, ok: bool): (r: (UeCell, bool))
    ensures r.0.ueIndex == c.ueIndex && r.0.cellIndex == c.cellIndex && r.0.dlHarqs == c.dlHarqs
    ensures |r.0.ulHarqs| == |c.ulHarqs|
    ensures forall h :: 0 <= h < |c.ulHarqs| && h != harqId ==> r.0.ulHarqs[h] == c.ulHarqs[h]
    ensures r.1 <==> harqId >= |c.ulHarqs| || !c.ulHarqs[harqId].active
    ensures r.1 ==> r.0 == c
  {
    if harqId < |c.ulHarqs| then
      var (h, tbs) := CrcInfo(c.ulHarqs[harqId], ok);
      (c.(ulHarqs := c.ulHarqs[harqId := h]), tbs < 0)
    else
      (c, true)
  }

  // ---------------------------------------------------------------------------
  // handle_harq_ind
  // ---------------------------------------------------------------------------

  /** The first DL HARQ process, from index `from` on, expecting its ACK in
      `slot`. */
  function FirstMatchFrom(harqs: seq<DlHarq>, slot: nat, from: nat): (r: Option<nat>)
    requires from <= |harqs|
    ensures r.Some? ==> from <= r.value < |harqs| && harqs[r.value].slotAck == slot
    ensures r.Some? ==> forall h :: from <= h < r.value ==> harqs[h].slotAck != slot
    ensures r.None? ==> forall h :: from <= h < |harqs| ==> harqs[h].slotAck != slot
    decreases |harqs| - from
  {
    if from == |harqs| then None
    else if harqs[from].slotAck == slot then Some(from)
    else FirstMatchFrom(harqs, slot, from + 1)
  }

  function FirstMatch(harqs: seq<DlHarq>, slot: nat): Option<nat> {
    FirstMatchFrom(harqs, slot, 0)
  }

  /** The lowest index with the wanted ACK slot is the first match, whatever
      else the table holds. */
  lemma FirstMatchIsLowest(harqs: seq<DlHarq>, slot: nat, h: nat)
    requires h < |harqs| && harqs[h].slotAck == slot
    requires forall k :: 0 <= k < h ==> harqs[k].slotAck != slot
    ensures FirstMatch(harqs, slot) == Some(h)
  {
    assert FirstMatch(harqs, slot).Some?;
  }

  /** One ACK bit: it goes to the first process expecting an ACK in `slot`.
      The result says whether the "DL HARQ not found" warning is logged. */
  function HarqAck(c: UeCell, slot: nat, bit: bool): (r: (UeCell, bool))
    ensures r.0.ueIndex == c.ueIndex && r.0.cellIndex == c.cellIndex && r.0.ulHarqs == c.ulHarqs
    ensures |r.0.dlHarqs| == |c.dlHarqs|
    ensures forall h :: 0 <= h < |c.dlHarqs| ==> r.0.dlHarqs[h].slotAck == c.dlHarqs[h].slotAck
  {
    match FirstMatch(c.dlHarqs, slot)
    case None => (c, true)
    case Some(h) =>
      var (p, tbs) := AckInfo(c.dlHarqs[h], bit);
      (c.(dlHarqs := c.dlHarqs[h := p]), tbs < 0)
  }

  /** Reference for `handle_harq_ind`: the bits applied one after the other,
      with the number of warnings logged. */
  function HarqInd(c: UeCell, slot: nat, bits: seq<bool>): (r: (UeCell, nat))
    ensures r.0.ueIndex == c.ueIndex && r.0.cellIndex == c.cellIndex && r.0.ulHarqs == c.ulHarqs
    ensures |r.0.dlHarqs| == |c.dlHarqs|
    ensures forall h :: 0 <= h < |c.dlHarqs| ==> r.0.dlHarqs[h].slotAck == c.dlHarqs[h].slotAck
    ensures r.1 <= |bits|
  {
    if bits == [] then (c, 0)
    else
      var (c1, w1) := HarqInd(c, slot, bits[..|bits| - 1]);
      var (c2, warn) := HarqAck(c1, slot, bits[|bits| - 1]);
      (c2, w1 + if warn then 1 else 0)
  }

  /** `handle_harq_ind` as written: for each bit, scan the DL HARQ processes
      in index order and stop at the first whose ACK slot is the UCI slot. */
  method HandleHarqInd(ueCell: UeCell, uciSlot: nat, harqBits: seq<bool>) returns (r: UeCell, warnings: nat)
    ensures (r, warnings) == HarqInd(ueCell, uciSlot, harqBits)
  {
    r := ueCell;
    warnings := 0;
    var bitIdx := 0;
    while bitIdx < |harqBits|
      invariant 0 <= bitIdx <= |harqBits|
      invariant (r, warnings) == HarqInd(ueCell, uciSlot, harqBits[..bitIdx])
    {
      var tbs := -1;
      var hId := FindDlHarq(r.dlHarqs, uciSlot);
      var before := r;
      if hId < |r.dlHarqs| {
        var (p, t) := AckInfo(r.dlHarqs[hId], harqBits[bitIdx]);
        r := r.(dlHarqs := r.dlHarqs[hId := p]);
        tbs := t;
      }
      if tbs < 0 {
        warnings := warnings + 1;
      }
      assert harqBits[..bitIdx + 1][..bitIdx] == harqBits[..bitIdx];
      assert (r, tbs < 0) == HarqAck(before, uciSlot, harqBits[bitIdx]);
      bitIdx := bitIdx + 1;
    }
    assert harqBits[..bitIdx] == harqBits;
  }

  /** The inner loop of `handle_harq_ind`: scan the processes in index order
      and stop at the first whose ACK slot is the UCI slot; `|harqs|` when
      there is none. */
  method FindDlHarq(harqs: seq<DlHarq>, uciSlot: nat) returns (hId: nat)
    ensures hId <= |harqs|
    ensures hId < |harqs| <==> FirstMatch(harqs, uciSlot) == Some(hId)
    ensures hId == |harqs| <==> FirstMatch(harqs, uciSlot).None?
  {
    hId := 0;
    while hId < |harqs|
      invariant 0 <= hId <= |harqs|
      invariant forall k :: 0 <= k < hId ==> harqs[k].slotAck != uciSlot
    {
      if harqs[hId].slotAck == uciSlot {
        FirstMatchIsLowest(harqs, uciSlot, hId);
        return;
      }
      hId := hId + 1;
    }
  }

  /** With no process expecting an ACK in the UCI slot, nothing changes and
      every bit logs a warning. */
  lemma {:induction false} HarqIndWithoutMatch(c: UeCell, slot: nat, bits: seq<bool>)
    requires forall h :: 0 <= h < |c.dlHarqs| ==> c.dlHarqs[h].slotAck != slot
    ensures HarqInd(c, slot, bits) == (c, |bits|)
  {
    if bits != [] {
      HarqIndWithoutMatch(c, slot, bits[..|bits| - 1]);
    }
  }

  /** One bit logs the "DL HARQ not found" warning exactly when no process
      expects an ACK in the UCI slot or the first one that does is inactive.
      This relies only on the sign convention of `ack_info`'s result. */
  lemma OneBitWarning(c: UeCell, slot: nat, bit: bool)
    ensures var m := FirstMatch(c.dlHarqs, slot);
            HarqInd(c, slot, [bit]).1 == (if m.None? || !c.dlHarqs[m.value].active then 1 else 0)
  {
    assert [bit][..0] == [];
  }

  /** Only the first process expecting an ACK in the UCI slot is updated; it
      receives the bits in order if it is active, and every other process
      is left as it was. */
  lemma {:induction false} HarqIndUpdatesFirstMatchOnly(c: UeCell, slot: nat, bits: seq<bool>, h: nat)
    requires FirstMatch(c.dlHarqs, slot) == Some(h)
    ensures var r := HarqInd(c, slot, bits).0;
            forall k :: 0 <= k < |c.dlHarqs| && k != h ==> r.dlHarqs[k] == c.dlHarqs[k]
    ensures var r := HarqInd(c, slot, bits).0;
            r.dlHarqs[h] == (if c.dlHarqs[h].active then c.dlHarqs[h].(acks := c.dlHarqs[h].acks + bits) else c.dlHarqs[h])
    ensures HarqInd(c, slot, bits).1 == (if c.dlHarqs[h].active then 0 else |bits|)
  {
    if bits == [] {
      assert c.dlHarqs[h].acks + bits == c.dlHarqs[h].acks;
    } else {
      var prefix := bits[..|bits| - 1];
      HarqIndUpdatesFirstMatchOnly(c, slot, prefix, h);
      var c1 := HarqInd(c, slot, prefix).0;
      assert c1.dlHarqs[h].slotAck == slot;
      assert forall k :: 0 <= k < h ==> c1.dlHarqs[k].slotAck == c.dlHarqs[k].slotAck;
      FirstMatchIsLowest(c1.dlHarqs, slot, h);
      if c.dlHarqs[h].active {
        assert c.dlHarqs[h].acks + prefix + [bits[|bits| - 1]] == c.dlHarqs[h].acks + bits by {
          assert prefix + [bits[|bits| - 1]] == bits;
        }
      }
    }
  }
}

=== FILE: ue_event_manager.dfy ===
/** The scheduler's UE event manager. Producers (`handle_*`) defer every UE
    mutation as an event: UE-wide events go to one "common" queue keyed by
    UE index (the UE being created uses the sentinel key MAX_NOF_DU_UES),
    per-cell feedback goes to that cell's queue. `Run(slot, cell)`, called
    once per cell per slot, applies them: first the common events of the UEs
    whose PCell is `cell`, then the cell's own events.

    The queue primitive (`slot_event_list`, whose body is not part of this
    model) is modelled as a pending list plus a working window. Both the
    common and the cell queues use it; the cell phase never tombstones an
    event, so an advance must replace the whole working window with the
    pending events. Consumed common entries stay in the window as tombstones
    (`callback == None`) until that advance; a common entry still live then
    (deferred for a PCell that did not run) is cleared with it. Each common
    event gets a sequence number when enqueued, so the model can account for
    it. */
module UeEventManager {
  import opened Wrappers
  import opened SchedUe
  import MacUlPduHandler

  const MAX_NOF_DU_UES: nat := 1024
  const MAX_NOF_DU_CELLS: nat := 16
  const LCID_SRB0: nat := 0

  /** The mutation a common event applies to the UE named by its key (or, for
      `AddUe`, inserts). */
  datatype CommonEvent =
    | AddUe(ue: Ue)
    | ReconfigureUe(cfg: nat)
    | DeleteUe
    | UlBsr(ind: MacUlPduHandler.UlBsrIndication)
    | Sr
    | DlMacCe(ceLcid: nat)
    | DlBufferState(lcid: nat, bs: nat)

  /** The mutation a cell-specific event applies to a UE's context in that cell. */
  datatype CellEvent =
    | Crc(harqId: nat, tbCrcSuccess: bool)
    | HarqAckBits(uciSlot: nat, harqBits: seq<bool>)

  datatype CommonEntry = CommonEntry(id: nat, ueIndex: nat, callback: Option<CommonEvent>)

  datatype CellEntry = CellEntry(ueIndex: nat, callback: CellEvent)

  /** What the scheduler tells the MAC and the SRB0 schedulers. */
  datatype Notification =
    | UeConfigComplete(ueIndex: nat)
    | UeDeleteResponse(ueIndex: nat)
    | Srb0BufferState(cellIndex: nat, ueIndex: nat)

  datatype Warning =
    | InvalidUeIndex(ueIndex: nat)
    | InvalidCellContext(ueIndex: nat, cellIndex: nat)
    | InactiveUlHarq(ueIndex: nat, harqId: nat)
    | DlHarqNotFound(ueIndex: nat, uciSlot: nat)

  /** The state the events mutate. `executed`, `dropped` and `discarded` list
      the sequence numbers of the common events that were run, dropped with a
      warning, and cleared unrun by a window advance, in order. */
  datatype Core = Core(
    ues: map<nat, Ue>,
    notifications: seq<Notification>,
    warnings: seq<Warning>,
    executed: seq<nat>,
    dropped: seq<nat>,
    discarded: seq<nat>)

  datatype CommonQueue = CommonQueue(pending: seq<CommonEntry>, window: seq<CommonEntry>)

  datatype EventManager = EventManager(
    core: Core,
    cells: set<nat>,
    common: CommonQueue,
    cellEvents: map<nat, seq<CellEntry>>,
    lastSlot: Option<nat>,
    nextId: nat)

  /** Feedback payloads of the CRC and UCI indications. */
  datatype CrcPdu = CrcPdu(ueIndex: nat, harqId: nat, tbCrcSuccess: bool)
  datatype UciPdu = UciPdu(ueIndex: nat, harqs: seq<bool>, srDetected: bool)

  /** A manager with no cells, no UEs and nothing queued. */
  function Init(): EventManager {
    EventManager(Core(map[], [], [], [], [], []), {}, CommonQueue([], []), map[], None, 0)
  }

  // ---------------------------------------------------------------------------
  // add_cell, cell_exists
  // ---------------------------------------------------------------------------

  /** `cell_exists`: the index is inside the cell table and a cell is
      registered there. */
  predicate CellExists(m: EventManager, cellIndex: nat)
    ensures CellExists(m, cellIndex) ==> cellIndex < MAX_NOF_DU_CELLS && cellIndex in m.cells
    ensures cellIndex >= MAX_NOF_DU_CELLS ==> !CellExists(m, cellIndex)
  {
    cellIndex < MAX_NOF_DU_CELLS && cellIndex in m.cells
  }

  /** Registers a cell; registering one twice is not supported. */
  function AddCell(m: EventManager, cellIndex: nat): (r: EventManager)
    requires cellIndex < MAX_NOF_DU_CELLS && !CellExists(m, cellIndex)
    ensures CellExists(r, cellIndex)
    ensures forall c :: c != cellIndex ==> (CellExists(r, c) <==> CellExists(m, c))
    ensures r.core == m.core && r.common == m.common && r.cellEvents == m.cellEvents
  {
    m.(cells := m.cells + {cellIndex})
  }

  // ---------------------------------------------------------------------------
  // Producers
  // ---------------------------------------------------------------------------

  /** Nothing but the common queue's pending list and the sequence counter
      changed: producers never touch UE state. */
  predicate OnlyCommonPendingGrew(m: EventManager, r: EventManager) {
    r.core == m.core && r.cells == m.cells && r.common.window == m.common.window &&
    r.cellEvents == m.cellEvents && r.lastSlot == m.lastSlot &&
    |r.common.pending| >= |m.common.pending| && r.common.pending[..|m.common.pending|] == m.common.pending
  }

  function EnqueueCommon(m: EventManager, ueIndex: nat, ev: CommonEvent): (r: EventManager)
    ensures OnlyCommonPendingGrew(m, r)
    ensures r.common.pending == m.common.pending + [CommonEntry(m.nextId, ueIndex, Some(ev))]
    ensures r.nextId == m.nextId + 1
  {
    m.(common := m.common.(pending := m.common.pending + [CommonEntry(m.nextId, ueIndex, Some(ev))]),
       nextId := m.nextId + 1)
  }

  function PendingCellEvents(m: EventManager, cellIndex: nat): seq<CellEntry> {
    if cellIndex in m.cellEvents then m.cellEvents[cellIndex] else []
  }

  /** A `du_ue_index_t` value naming a UE: MAX_NOF_DU_UES itself is the
      sentinel, so no UE and no event of one carries it. */
  predicate IsUeIndex(ueIndex: nat) {
    ueIndex < MAX_NOF_DU_UES
  }

  /** The UE object is built by the caller from its PCell's configuration,
      which must exist; inserting it is deferred under the sentinel key. */
  function HandleAddUeRequest(m: EventManager, u: Ue): (r: EventManager)
    requires CellExists(m, u.pcellIndex) && IsUeIndex(u.ueIndex)
    ensures OnlyCommonPendingGrew(m, r)
    ensures r.common.pending == m.common.pending + [CommonEntry(m.nextId, MAX_NOF_DU_UES, Some(AddUe(u)))]
  {
    EnqueueCommon(m, MAX_NOF_DU_UES, AddUe(u))
  }

  function HandleUeReconfigurationRequest(m: EventManager, ueIndex: nat, cfg: nat): (r: EventManager)
    requires IsUeIndex(ueIndex)
    ensures OnlyCommonPendingGrew(m, r)
    ensures r.common.pending == m.common.pending + [CommonEntry(m.nextId, ueIndex, Some(ReconfigureUe(cfg)))]
  {
    EnqueueCommon(m, ueIndex, ReconfigureUe(cfg))
  }

  function HandleUeDeleteRequest(m: EventManager, ueIndex: nat): (r: EventManager)
    requires IsUeIndex(ueIndex)
    ensures OnlyCommonPendingGrew(m, r)
    ensures r.common.pending == m.common.pending + [CommonEntry(m.nextId, ueIndex, Some(DeleteUe))]
  {
    EnqueueCommon(m, ueIndex, DeleteUe)
  }

  /** `ueIndex` is the `ue_index` of the scheduler's BSR message, which keys
      the event; the MAC-side record `ind` names the UE only by its RNTI. */
  function HandleUlBsrIndication(m: EventManager, ueIndex: nat, ind: MacUlPduHandler.UlBsrIndication): (r: EventManager)
    requires CellExists(m, ind.cellIndex) && IsUeIndex(ueIndex)
    ensures OnlyCommonPendingGrew(m, r)
    ensures r.common.pending == m.common.pending + [CommonEntry(m.nextId, ueIndex, Some(UlBsr(ind)))]
  {
    EnqueueCommon(m, ueIndex, UlBsr(ind))
  }

  function HandleDlMacCeIndication(m: EventManager, ueIndex: nat, ceLcid: nat): (r: EventManager)
    requires IsUeIndex(ueIndex)
    ensures OnlyCommonPendingGrew(m, r)
    ensures r.common.pending == m.common.pending + [CommonEntry(m.nextId, ueIndex, Some(DlMacCe(ceLcid)))]
  {
    EnqueueCommon(m, ueIndex, DlMacCe(ceLcid))
  }

  function HandleDlBufferStateIndication(m: EventManager, ueIndex: nat, lcid: nat, bs: nat): (r: EventManager)
    requires IsUeIndex(ueIndex)
    ensures OnlyCommonPendingGrew(m, r)
    ensures r.common.pending == m.common.pending + [CommonEntry(m.nextId, ueIndex, Some(DlBufferState(lcid, bs)))]
  {
    EnqueueCommon(m, ueIndex, DlBufferState(lcid, bs))
  }

  /** One cell event per CRC, in order, on the reporting cell's queue. */
  function HandleCrcIndication(m: EventManager, cellIndex: nat, crcs: seq<CrcPdu>): (r: EventManager)
    requires CellExists(m, cellIndex)
    ensures r.core == m.core && r.common == m.common && r.cells == m.cells && r.nextId == m.nextId
    ensures forall c :: c != cellIndex ==> PendingCellEvents(r, c) == PendingCellEvents(m, c)
    ensures var old_ := PendingCellEvents(m, cellIndex);
            var new_ := PendingCellEvents(r, cellIndex);
            |new_| == |old_| + |crcs| && new_[..|old_|] == old_ &&
            forall i :: 0 <= i < |crcs| ==>
              new_[|old_| + i] == CellEntry(crcs[i].ueIndex, Crc(crcs[i].harqId, crcs[i].tbCrcSuccess))
  {
    var events := seq(|crcs|, i requires 0 <= i < |crcs| => CellEntry(crcs[i].ueIndex, Crc(crcs[i].harqId, crcs[i].tbCrcSuccess)));
    m.(cellEvents := m.cellEvents[cellIndex := PendingCellEvents(m, cellIndex) + events])
  }

  /** The HARQ-ACK events of a UCI indication: one per UCI carrying ACK bits. */
  function HarqEvents(ucis: seq<UciPdu>, slotRx: nat): (r: seq<CellEntry>)
    ensures |r| <= |ucis|
    ensures forall i :: 0 <= i < |r| ==> r[i].callback.HarqAckBits? && r[i].callback.harqBits != []
    ensures forall i :: 0 <= i < |ucis| && ucis[i].harqs != [] ==>
              CellEntry(ucis[i].ueIndex, HarqAckBits(slotRx, ucis[i].harqs)) in r
    ensures forall e :: e in r ==>
              exists i :: 0 <= i < |ucis| && ucis[i].harqs != [] &&
                          e == CellEntry(ucis[i].ueIndex, HarqAckBits(slotRx, ucis[i].harqs))
  {
    if ucis == [] then []
    else
      (if ucis[0].harqs != [] then [CellEntry(ucis[0].ueIndex, HarqAckBits(slotRx, ucis[0].harqs))] else [])
      + HarqEvents(ucis[1..], slotRx)
  }

  /** The UEs of a UCI indication that reported a scheduling request. */
  function SrUes(ucis: seq<UciPdu>): (r: seq<nat>)
    ensures |r| <= |ucis|
  {
    if ucis == [] then []
    else (if ucis[0].srDetected then [ucis[0].ueIndex] else []) + SrUes(ucis[1..])
  }

  /** A further UCI adds at most one HARQ-ACK event, after all earlier ones:
      so there is exactly one event per UCI carrying bits, in UCI order. */
  lemma {:induction false} HarqEventsAppend(ucis: seq<UciPdu>, x: UciPdu, slotRx: nat)
    ensures HarqEvents(ucis + [x], slotRx)
            == HarqEvents(ucis, slotRx) + (if x.harqs != [] then [CellEntry(x.ueIndex, HarqAckBits(slotRx, x.harqs))] else [])
  {
    if ucis == [] {
      assert ucis + [x] == [x];
      assert [x][1..] == [];
    } else {
      assert (ucis + [x])[0] == ucis[0];
      assert (ucis + [x])[1..] == ucis[1..] + [x];
      HarqEventsAppend(ucis[1..], x, slotRx);
    }
  }

  /** A further UCI adds its UE after all earlier ones exactly when it
      reports a scheduling request: one SR per reporting UCI, in UCI order. */
  lemma {:induction false} SrUesAppend(ucis: seq<UciPdu>, x: UciPdu)
    ensures SrUes(ucis + [x]) == SrUes(ucis) + (if x.srDetected then [x.ueIndex] else [])
  {
    if ucis == [] {
      assert ucis + [x] == [x];
      assert [x][1..] == [];
    } else {
      assert (ucis + [x])[0] == ucis[0];
      assert (ucis + [x])[1..] == ucis[1..] + [x];
      SrUesAppend(ucis[1..], x);
    }
  }

  function EnqueueSrs(m: EventManager, ueIndices: seq<nat>): (r: EventManager)
    ensures OnlyCommonPendingGrew(m, r)
    ensures r.nextId == m.nextId + |ueIndices|
    ensures |r.common.pending| == |m.common.pending| + |ueIndices|
    ensures forall i :: 0 <= i < |ueIndices| ==>
              r.common.pending[|m.common.pending| + i] == CommonEntry(m.nextId + i, ueIndices[i], Some(Sr))
    decreases |ueIndices|
  {
    if ueIndices == [] then m
    else
      var m1 := EnqueueCommon(m, ueIndices[0], Sr);
      var r := EnqueueSrs(m1, ueIndices[1..]);
      assert forall i :: 1 <= i < |ueIndices| ==> ueIndices[1..][i - 1] == ueIndices[i];
      r
  }

  /** The HARQ-ACK bits go to the reporting cell's queue; the scheduling
      requests become common events, in UCI order. */
  function HandleUciIndication(m: EventManager, cellIndex: nat, slotRx: nat, ucis: seq<UciPdu>): (r: EventManager)
    requires CellExists(m, cellIndex)
    requires forall i :: 0 <= i < |ucis| ==> IsUeIndex(ucis[i].ueIndex)
    ensures r.core == m.core && r.cells == m.cells && r.lastSlot == m.lastSlot && r.common.window == m.common.window
    ensures forall c :: c != cellIndex ==> PendingCellEvents(r, c) == PendingCellEvents(m, c)
    ensures PendingCellEvents(r, cellIndex) == PendingCellEvents(m, cellIndex) + HarqEvents(ucis, slotRx)
    ensures r.nextId == m.nextId + |SrUes(ucis)|
    ensures |r.common.pending| == |m.common.pending| + |SrUes(ucis)|
    ensures r.common.pending[..|m.common.pending|] == m.common.pending
    ensures forall i :: 0 <= i < |SrUes(ucis)| ==>
              r.common.pending[|m.common.pending| + i] == CommonEntry(m.nextId + i, SrUes(ucis)[i], Some(Sr))
  {
    var m1 := m.(cellEvents := m.cellEvents[cellIndex := PendingCellEvents(m, cellIndex) + HarqEvents(ucis, slotRx)]);
    EnqueueSrs(m1, SrUes(ucis))
  }

  // ---------------------------------------------------------------------------
  // The deferred mutations
  // ---------------------------------------------------------------------------

  /** What a UE-wide event changes in the UE itself (`ue::handle_*`). */
  function UpdateUe(u: Ue, ev: CommonEvent): (r: Ue)
    ensures r.ueIndex == u.ueIndex && r.pcellIndex == u.pcellIndex && r.cells == u.cells
  {
    match ev
    case ReconfigureUe(cfg) => u.(cfg := cfg)
    case UlBsr(ind) => u.(bsrs := u.bsrs + [ind])
    case Sr => u.(srCount := u.srCount + 1)
    case DlMacCe(ceLcid) => u.(macCes := u.macCes + [ceLcid])
    case DlBufferState(lcid, bs) => u.(dlBufferStates := u.dlBufferStates[lcid := bs])
    case AddUe(_) => u
    case DeleteUe => u
  }

  /** The notifications a UE-wide event sends: a completed reconfiguration,
      and the PCell's SRB0 scheduler for a buffer state on SRB0. */
  function NotificationsOf(u: Ue, ueIndex: nat, ev: CommonEvent): (r: seq<Notification>)
    ensures ev.ReconfigureUe? <==> r == [UeConfigComplete(ueIndex)]
    ensures ev.DlBufferState? ==> (r != [] <==> ev.lcid == LCID_SRB0)
    ensures forall n :: n in r ==> n == UeConfigComplete(ueIndex) || n == Srb0BufferState(u.pcellIndex, ueIndex)
    ensures !ev.ReconfigureUe? && !ev.DlBufferState? ==> r == []
  {
    if ev.ReconfigureUe? then [UeConfigComplete(ueIndex)]
    else if ev.DlBufferState? && ev.lcid == LCID_SRB0 then [Srb0BufferState(u.pcellIndex, ueIndex)]
    else []
  }

  /** The body of a common event. For a UE event the repository holds the UE
      (the dispatcher checks that first); otherwise nothing happens. */
  function ApplyCommon(core: Core, ueIndex: nat, ev: CommonEvent): (r: Core)
    ensures r.executed == core.executed && r.dropped == core.dropped && r.warnings == core.warnings
    ensures r.discarded == core.discarded
    ensures ev.AddUe? ==>
              r.ues == core.ues[ev.ue.ueIndex := ev.ue] &&
              r.notifications == core.notifications + [UeConfigComplete(ev.ue.ueIndex)]
    ensures ev.DeleteUe? && ueIndex in core.ues ==>
              r.ues == core.ues - {ueIndex} && r.notifications == core.notifications + [UeDeleteResponse(ueIndex)]
    ensures !ev.AddUe? && ueIndex !in core.ues ==> r == core
    ensures !ev.AddUe? && !ev.DeleteUe? && ueIndex in core.ues ==>
              var u := core.ues[ueIndex];
              r.ues == core.ues[ueIndex := UpdateUe(u, ev)] &&
              r.notifications == core.notifications + NotificationsOf(u, ueIndex, ev)
    ensures !ev.AddUe? && !ev.DeleteUe? ==> r.ues.Keys == core.ues.Keys
    ensures forall k :: k in core.ues && k != ueIndex && !(ev.AddUe? && k == ev.ue.ueIndex) ==>
              k in r.ues && r.ues[k] == core.ues[k]
  {
    match ev
    case AddUe(u) =>
      core.(ues := core.ues[u.ueIndex := u], notifications := core.notifications + [UeConfigComplete(u.ueIndex)])
    case DeleteUe =>
      if ueIndex !in core.ues then core
      else core.(ues := core.ues - {ueIndex}, notifications := core.notifications + [UeDeleteResponse(ueIndex)])
    case _ =>
      if ueIndex !in core.ues then core
      else
        var u := core.ues[ueIndex];
        core.(ues := core.ues[ueIndex := UpdateUe(u, ev)],
              notifications := core.notifications + NotificationsOf(u, ueIndex, ev))
  }

  function Repeat<T>(x: T, n: nat): (r: seq<T>)
    ensures |r| == n && forall i :: 0 <= i < n ==> r[i] == x
  {
    seq(n, _ => x)
  }

  /** The body of a cell event, on the UE's context in `cellIndex`. */
  function ApplyCell(u: Ue, c: UeCell, ev: CellEvent): (r: (UeCell, seq<Warning>))
    ensures r.0.ueIndex == c.ueIndex && r.0.cellIndex == c.cellIndex
    ensures ev.Crc? ==> r.0.dlHarqs == c.dlHarqs && |r.1| <= 1
    ensures ev.Crc? ==> (r.1 != [] <==> ev.harqId >= |c.ulHarqs| || !c.ulHarqs[ev.harqId].active)
    ensures ev.HarqAckBits? ==> r.0.ulHarqs == c.ulHarqs && |r.1| <= |ev.harqBits|
    ensures ev.HarqAckBits? ==> forall i :: 0 <= i < |r.1| ==> r.1[i] == DlHarqNotFound(u.ueIndex, ev.uciSlot)
  {
    match ev
    case Crc(harqId, ok) =>
      var (c1, warn) := HandleCrc(c, harqId, ok);
      (c1, if warn then [InactiveUlHarq(u.ueIndex, harqId)] else [])
    case HarqAckBits(slot, bits) =>
      var (c1, w) := HarqInd(c, slot, bits);
      (c1, Repeat(DlHarqNotFound(u.ueIndex, slot), w))
  }

  // ---------------------------------------------------------------------------
  // process_common
  // ---------------------------------------------------------------------------

  datatype Outcome = Skipped | Executed | Dropped | Deferred

  /** One entry of the common window, seen by `cellIndex`'s pass. */
  function CommonStep(core: Core, e: CommonEntry, cellIndex: nat): (r: (Core, CommonEntry, Outcome))
    ensures r.1.id == e.id && r.1.ueIndex == e.ueIndex && r.0.discarded == core.discarded
    ensures r.2 == Skipped <==> e.callback.None?
    ensures r.2 == Executed <==>
              e.callback.Some? &&
              (e.ueIndex == MAX_NOF_DU_UES || (e.ueIndex in core.ues && core.ues[e.ueIndex].pcellIndex == cellIndex))
    ensures r.2 == Dropped <==> e.callback.Some? && e.ueIndex != MAX_NOF_DU_UES && e.ueIndex !in core.ues
    ensures r.2 == Skipped || r.2 == Deferred ==> r.0 == core && r.1 == e
    ensures r.2 == Executed ==> r.1.callback.None? && r.0.executed == core.executed + [e.id] && r.0.dropped == core.dropped
    ensures r.2 == Executed ==>
              var c := ApplyCommon(core, e.ueIndex, e.callback.value);
              r.0.ues == c.ues && r.0.notifications == c.notifications && r.0.warnings == core.warnings
    ensures r.2 == Dropped ==>
              r.1.callback.None? && r.0.ues == core.ues && r.0.notifications == core.notifications &&
              r.0.dropped == core.dropped + [e.id] && r.0.executed == core.executed &&
              r.0.warnings == core.warnings + [InvalidUeIndex(e.ueIndex)]
  {
    match e.callback
    case None => (core, e, Skipped)
    case Some(ev) =>
      if e.ueIndex == MAX_NOF_DU_UES then
        var c := ApplyCommon(core, e.ueIndex, ev);
        (c.(executed := c.executed + [e.id]), e.(callback := None), Executed)
      else if e.ueIndex !in core.ues then
        (core.(warnings := core.warnings + [InvalidUeIndex(e.ueIndex)], dropped := core.dropped + [e.id]),
         e.(callback := None), Dropped)
      else if core.ues[e.ueIndex].pcellIndex == cellIndex then
        var c := ApplyCommon(core, e.ueIndex, ev);
        (c.(executed := c.executed + [e.id]), e.(callback := None), Executed)
      else
        (core, e, Deferred)
  }

  /** The pass over the whole window, front to back. */
  function ProcessEntries(core: Core, entries: seq<CommonEntry>, cellIndex: nat): (r: (Core, seq<CommonEntry>))
    ensures |r.1| == |entries| && r.0.discarded == core.discarded
    ensures forall i :: 0 <= i < |entries| ==>
              r.1[i].id == entries[i].id && r.1[i].ueIndex == entries[i].ueIndex &&
              (r.1[i].callback.None? || r.1[i] == entries[i])
    decreases |entries|
  {
    if entries == [] then (core, [])
    else
      var (c1, e1, _) := CommonStep(core, entries[0], cellIndex);
      var (c2, rest) := ProcessEntries(c1, entries[1..], cellIndex);
      (c2, [e1] + rest)
  }

  /** Sequence numbers of the entries still holding their callback. */
  function LiveIds(entries: seq<CommonEntry>): (r: seq<nat>)
    ensures |r| <= |entries|
  {
    if entries == [] then []
    else (if entries[0].callback.Some? then [entries[0].id] else []) + LiveIds(entries[1..])
  }

  /** Every live entry's sequence number is listed, and only a window with a
      live entry lists any. */
  lemma {:induction false} LiveIdsOfLive(entries: seq<CommonEntry>)
    ensures forall i :: 0 <= i < |entries| && entries[i].callback.Some? ==> entries[i].id in LiveIds(entries)
    ensures (forall i :: 0 <= i < |entries| ==> entries[i].callback.None?) ==> LiveIds(entries) == []
    decreases |entries|
  {
    if entries != [] {
      LiveIdsOfLive(entries[1..]);
      assert forall i :: 1 <= i < |entries| ==> entries[i] == entries[1..][i - 1];
    }
  }

  /** `slot_event_list::slot_indication`: the pending events become the
      working window. The entries of the old window go with it; those still
      live are recorded as discarded, and no warning is logged for them. */
  function Advance(core: Core, q: CommonQueue): (r: (Core, CommonQueue))
    ensures r.1.pending == [] && r.1.window == q.pending
    ensures r.0.ues == core.ues && r.0.notifications == core.notifications && r.0.warnings == core.warnings
    ensures r.0.executed == core.executed && r.0.dropped == core.dropped
    ensures |r.0.discarded| >= |core.discarded| && r.0.discarded[..|core.discarded|] == core.discarded
    ensures forall i :: 0 <= i < |q.window| && q.window[i].callback.Some? ==> q.window[i].id in r.0.discarded
    ensures (forall i :: 0 <= i < |q.window| ==> q.window[i].callback.None?) ==> r.0.discarded == core.discarded
  {
    LiveIdsOfLive(q.window);
    (core.(discarded := core.discarded + LiveIds(q.window)), CommonQueue([], q.pending))
  }

  function LiveEntries(entries: seq<CommonEntry>): (r: seq<CommonEntry>)
    ensures |r| <= |entries|
    ensures forall i :: 0 <= i < |r| ==> r[i].callback.Some? && r[i] in entries
    ensures forall e :: e in entries && e.callback.Some? ==> e in r
  {
    if entries == [] then []
    else (if entries[0].callback.Some? then [entries[0]] else []) + LiveEntries(entries[1..])
  }

  /** An advance that keeps the live entries of the old window in front of
      the pending events, so that an event deferred for its PCell stays
      pending until that cell runs, however many slots that takes. */
  function AdvanceKeepingDeferred(q: CommonQueue): (r: CommonQueue)
    ensures r.pending == []
    ensures forall e :: e in r.window <==> (e in q.window && e.callback.Some?) || e in q.pending
  {
    CommonQueue([], LiveEntries(q.window) + q.pending)
  }

  /** The common phase of `cellIndex` in `slot`: the window advances only for
      the first call of a slot, so every cell calling in the same slot works
      on the same window. */
  function ProcessCommon(m: EventManager, slot: nat, cellIndex: nat): (r: EventManager)
    ensures r.lastSlot == Some(slot)
    ensures r.cells == m.cells && r.cellEvents == m.cellEvents && r.nextId == m.nextId
    ensures m.lastSlot == Some(slot) ==> r.common.pending == m.common.pending
    ensures m.lastSlot != Some(slot) ==> r.common.pending == []
    ensures m.lastSlot == Some(slot) ==> r.core.discarded == m.core.discarded
  {
    var (core0, q) := if m.lastSlot != Some(slot) then Advance(m.core, m.common) else (m.core, m.common);
    var (core, window) := ProcessEntries(core0, q.window, cellIndex);
    m.(core := core, common := CommonQueue(q.pending, window), lastSlot := Some(slot))
  }

  // ---------------------------------------------------------------------------
  // process_cell_specific, run
  // ---------------------------------------------------------------------------

  /** One event of `cellIndex`'s queue: dropped with a warning when the UE or
      its context in this cell is missing, otherwise applied to that context. */
  function CellStep(core: Core, e: CellEntry, cellIndex: nat): (r: Core)
    ensures r.executed == core.executed && r.dropped == core.dropped && r.notifications == core.notifications
    ensures r.discarded == core.discarded
    ensures r.ues.Keys == core.ues.Keys
    ensures forall k :: k in core.ues ==>
              var u := core.ues[k];
              var v := r.ues[k];
              v == u.(cells := v.cells) && v.cells.Keys == u.cells.Keys &&
              forall c :: c in u.cells && c != cellIndex ==> v.cells[c] == u.cells[c]
    ensures e.ueIndex !in core.ues ==> r.ues == core.ues && r.warnings == core.warnings + [InvalidUeIndex(e.ueIndex)]
    ensures e.ueIndex in core.ues && cellIndex !in core.ues[e.ueIndex].cells ==>
              r.ues == core.ues && r.warnings == core.warnings + [InvalidCellContext(e.ueIndex, cellIndex)]
    ensures e.ueIndex in core.ues && cellIndex in core.ues[e.ueIndex].cells ==>
              var u := core.ues[e.ueIndex];
              var a := ApplyCell(u, u.cells[cellIndex], e.callback);
              r.ues == core.ues[e.ueIndex := u.(cells := u.cells[cellIndex := a.0])] && r.warnings == core.warnings + a.1
    ensures forall k :: k in core.ues && k != e.ueIndex ==> r.ues[k] == core.ues[k]
  {
    if e.ueIndex !in core.ues then
      core.(warnings := core.warnings + [InvalidUeIndex(e.ueIndex)])
    else
      var u := core.ues[e.ueIndex];
      match FindCell(u, cellIndex)
      case None => core.(warnings := core.warnings + [InvalidCellContext(e.ueIndex, cellIndex)])
      case Some(c) =>
        var (c1, ws) := ApplyCell(u, c, e.callback);
        core.(ues := core.ues[e.ueIndex := u.(cells := u.cells[cellIndex := c1])], warnings := core.warnings + ws)
  }

  function ProcessCellEntries(core: Core, entries: seq<CellEntry>, cellIndex: nat): (r: Core)
    ensures r.executed == core.executed && r.dropped == core.dropped && r.notifications == core.notifications
    ensures r.discarded == core.discarded
    ensures r.ues.Keys == core.ues.Keys
    ensures forall k :: k in core.ues ==>
              var u := core.ues[k];
              var v := r.ues[k];
              v == u.(cells := v.cells) && v.cells.Keys == u.cells.Keys &&
              forall c :: c in u.cells && c != cellIndex ==> v.cells[c] == u.cells[c]
    decreases |entries|
  {
    if entries == [] then core
    else ProcessCellEntries(CellStep(core, entries[0], cellIndex), entries[1..], cellIndex)
  }

  /** One more queued event is applied after all earlier ones: the cell phase
      is `CellStep` over the queue, in queue order. */
  lemma {:induction false} ProcessCellEntriesAppend(core: Core, entries: seq<CellEntry>, e: CellEntry, cellIndex: nat)
    ensures ProcessCellEntries(core, entries + [e], cellIndex)
            == CellStep(ProcessCellEntries(core, entries, cellIndex), e, cellIndex)
    decreases |entries|
  {
    if entries == [] {
      assert entries + [e] == [e];
      assert [e][1..] == [];
    } else {
      assert (entries + [e])[0] == entries[0];
      assert (entries + [e])[1..] == entries[1..] + [e];
      ProcessCellEntriesAppend(CellStep(core, entries[0], cellIndex), entries[1..], e, cellIndex);
    }
  }

  /** The cell-specific phase: the cell's queue is drained and every event
      applied to the UE's context in this cell; the cell events change no
      UE-wide field and no other cell's context. */
  function ProcessCellSpecific(m: EventManager, cellIndex: nat): (r: EventManager)
    ensures r.common == m.common && r.cells == m.cells && r.lastSlot == m.lastSlot && r.nextId == m.nextId
    ensures PendingCellEvents(r, cellIndex) == []
    ensures forall c :: c != cellIndex ==> PendingCellEvents(r, c) == PendingCellEvents(m, c)
    ensures r.core.executed == m.core.executed && r.core.dropped == m.core.dropped
    ensures r.core.discarded == m.core.discarded
    ensures r.core.ues.Keys == m.core.ues.Keys
    ensures forall k :: k in m.core.ues ==>
              var u := m.core.ues[k];
              var v := r.core.ues[k];
              v == u.(cells := v.cells) && v.cells.Keys == u.cells.Keys &&
              forall c :: c in u.cells && c != cellIndex ==> v.cells[c] == u.cells[c]
  {
    m.(core := ProcessCellEntries(m.core, PendingCellEvents(m, cellIndex), cellIndex),
       cellEvents := m.cellEvents[cellIndex := []])
  }

  /** `run`: the common phase, then the cell-specific phase, of one cell. */
  function Run(m: EventManager, slot: nat, cellIndex: nat): (r: EventManager)
    requires CellExists(m, cellIndex)
    ensures r.lastSlot == Some(slot) && r.cells == m.cells && r.nextId == m.nextId
    ensures PendingCellEvents(r, cellIndex) == []
    ensures forall c :: c != cellIndex ==> PendingCellEvents(r, c) == PendingCellEvents(m, c)
    ensures m.lastSlot == Some(slot) ==> r.common.pending == m.common.pending
  {
    ProcessCellSpecific(ProcessCommon(m, slot, cellIndex), cellIndex)
  }
}

=== FILE: ue_event_manager_proofs.dfy ===
/** Properties of the UE event manager across calls: every common event is
    accounted for exactly once (pending, waiting in the window, executed,
    dropped or discarded by an advance), so none runs twice; a cell's common pass leaves the UEs of
    other PCells alone; and the creation/reconfiguration and
    creation/feedback orderings the dispatcher produces. */
module UeEventManagerProofs {
  import opened Wrappers
  import opened SchedUe
  import opened UeEventManager

  // ---------------------------------------------------------------------------
  // Accounting
  // ---------------------------------------------------------------------------

  function Range(n: nat): (r: seq<nat>)
    ensures |r| == n && forall i :: 0 <= i < n ==> r[i] == i
  {
    seq(n, i => i)
  }

  /** Every sequence number the manager knows about, wherever it is. */
  function Tracked(m: EventManager): multiset<nat> {
    multiset(LiveIds(m.common.pending)) + Held(m.core, m.common.window)
  }

  /** Each common event ever enqueued is in exactly one place. */
  predicate Accounted(m: EventManager) {
    Tracked(m) == multiset(Range(m.nextId))
  }

  predicate NoDup(s: seq<nat>) {
    forall i, j :: 0 <= i < j < |s| ==> s[i] != s[j]
  }

  lemma {:induction false} LiveIdsAppend(a: seq<CommonEntry>, b: seq<CommonEntry>)
    ensures LiveIds(a + b) == LiveIds(a) + LiveIds(b)
    decreases |a|
  {
    if a == [] {
      assert a + b == b;
    } else {
      var head := if a[0].callback.Some? then [a[0].id] else [];
      assert (a + b)[0] == a[0];
      assert (a + b)[1..] == a[1..] + b;
      assert LiveIds(a + b) == head + LiveIds(a[1..] + b);
      assert LiveIds(a) == head + LiveIds(a[1..]);
      LiveIdsAppend(a[1..], b);
      assert head + (LiveIds(a[1..]) + LiveIds(b)) == (head + LiveIds(a[1..])) + LiveIds(b);
    }
  }

  lemma {:induction false} LiveIdsOfLiveEntries(w: seq<CommonEntry>)
    ensures LiveIds(LiveEntries(w)) == LiveIds(w)
    decreases |w|
  {
    if w != [] {
      var head := if w[0].callback.Some? then [w[0]] else [];
      LiveIdsAppend(head, LiveEntries(w[1..]));
      LiveIdsOfLiveEntries(w[1..]);
      assert LiveIds(head) == (if w[0].callback.Some? then [w[0].id] else []);
    }
  }

  /** The sequence numbers a pass can see or has settled. */
  function Held(core: Core, window: seq<CommonEntry>): multiset<nat> {
    multiset(LiveIds(window)) + multiset(core.executed) + multiset(core.dropped) + multiset(core.discarded)
  }

  /** A common step moves at most one sequence number from the live window to
      the executed or dropped list. */
  lemma CommonStepAccounting(core: Core, e: CommonEntry, rest: seq<CommonEntry>, cellIndex: nat)
    ensures var r := CommonStep(core, e, cellIndex);
            Held(r.0, [r.1] + rest) == Held(core, [e] + rest)
  {
    var r := CommonStep(core, e, cellIndex);
    LiveIdsCons(r.1, rest);
    LiveIdsCons(e, rest);
  }

  lemma LiveIdsCons(e: CommonEntry, rest: seq<CommonEntry>)
    ensures LiveIds([e] + rest) == (if e.callback.Some? then [e.id] else []) + LiveIds(rest)
  {
    assert ([e] + rest)[1..] == rest;
  }

  /** Putting the same entry in front of two windows keeps what they hold equal. */
  lemma HeldCons(c1: Core, w1: seq<CommonEntry>, c2: Core, w2: seq<CommonEntry>, e: CommonEntry)
    requires Held(c1, w1) == Held(c2, w2)
    ensures Held(c1, [e] + w1) == Held(c2, [e] + w2)
  {
    HeldConsSplit(c1, w1, e);
    HeldConsSplit(c2, w2, e);
  }

  lemma HeldConsSplit(c: Core, w: seq<CommonEntry>, e: CommonEntry)
    ensures Held(c, [e] + w) == multiset(if e.callback.Some? then [e.id] else []) + Held(c, w)
  {
    var h: seq<nat> := if e.callback.Some? then [e.id] else [];
    LiveIdsCons(e, w);
    assert multiset(LiveIds([e] + w)) == multiset(h) + multiset(LiveIds(w));
  }

  lemma {:induction false} ProcessEntriesAccounting(core: Core, entries: seq<CommonEntry>, cellIndex: nat)
    ensures Held(ProcessEntries(core, entries, cellIndex).0, ProcessEntries(core, entries, cellIndex).1)
            == Held(core, entries)
    decreases |entries|
  {
    if entries != [] {
      var e, tail := entries[0], entries[1..];
      assert entries == [e] + tail;
      ProcessEntriesAccounting(CommonStep(core, e, cellIndex).0, tail, cellIndex);
      ProcessEntriesStepAccounting(core, e, tail, cellIndex);
    }
  }

  lemma ProcessEntriesCons(core: Core, e: CommonEntry, tail: seq<CommonEntry>, cellIndex: nat)
    ensures var step := CommonStep(core, e, cellIndex);
            var rest := ProcessEntries(step.0, tail, cellIndex);
            ProcessEntries(core, [e] + tail, cellIndex) == (rest.0, [step.1] + rest.1)
  {
    assert ([e] + tail)[1..] == tail;
  }

  /** The inductive step of `ProcessEntriesAccounting`: if the pass over the
      tail keeps what it holds, so does the pass over the whole window. */
  lemma ProcessEntriesStepAccounting(core: Core, e: CommonEntry, tail: seq<CommonEntry>, cellIndex: nat)
    requires var step := CommonStep(core, e, cellIndex);
             var rest := ProcessEntries(step.0, tail, cellIndex);
             Held(rest.0, rest.1) == Held(step.0, tail)
    ensures var r := ProcessEntries(core, [e] + tail, cellIndex);
            Held(r.0, r.1) == Held(core, [e] + tail)
  {
    var step := CommonStep(core, e, cellIndex);
    var rest := ProcessEntries(step.0, tail, cellIndex);
    ProcessEntriesCons(core, e, tail, cellIndex);
    HeldCons(rest.0, rest.1, step.0, tail, step.1);
    CommonStepAccounting(core, e, tail, cellIndex);
  }

  /** An advance moves the live sequence numbers of the old window to
      `discarded` and the pending ones into the window. */
  lemma AdvanceAccounting(core: Core, q: CommonQueue)
    ensures var r := Advance(core, q);
            multiset(LiveIds(r.1.pending)) + Held(r.0, r.1.window) == multiset(LiveIds(q.pending)) + Held(core, q.window)
  {
    var r := Advance(core, q);
    assert LiveIds(r.1.pending) == [];
    assert multiset(r.0.discarded) == multiset(core.discarded) + multiset(LiveIds(q.window));
  }

  /** The common phase neither loses nor duplicates an event: each one it
      does not run stays in the window or, at an advance, is discarded. */
  lemma ProcessCommonAccounting(m: EventManager, slot: nat, cellIndex: nat)
    ensures Tracked(ProcessCommon(m, slot, cellIndex)) == Tracked(m)
  {
    var (core0, q) := if m.lastSlot != Some(slot) then Advance(m.core, m.common) else (m.core, m.common);
    if m.lastSlot != Some(slot) {
      AdvanceAccounting(m.core, m.common);
    }
    ProcessEntriesAccounting(core0, q.window, cellIndex);
  }

  /** The corrected advance keeps every live entry: the live sequence
      numbers of the new window are those of the old window, then the
      pending ones, and nothing needs to be discarded. */
  lemma KeepingDeferredLosesNothing(q: CommonQueue)
    ensures LiveIds(AdvanceKeepingDeferred(q).window) == LiveIds(q.window) + LiveIds(q.pending)
  {
    LiveIdsAppend(LiveEntries(q.window), q.pending);
    LiveIdsOfLiveEntries(q.window);
  }

  lemma EnqueueAccounting(m: EventManager, ueIndex: nat, ev: CommonEvent)
    requires Accounted(m)
    ensures Accounted(EnqueueCommon(m, ueIndex, ev))
  {
    var r := EnqueueCommon(m, ueIndex, ev);
    var e := CommonEntry(m.nextId, ueIndex, Some(ev));
    LiveIdsAppend(m.common.pending, [e]);
    assert LiveIds([e]) == [m.nextId] by {
      assert [e][1..] == [];
    }
    assert Range(m.nextId + 1) == Range(m.nextId) + [m.nextId];
  }

  lemma {:induction false} EnqueueSrsAccounting(m: EventManager, ueIndices: seq<nat>)
    requires Accounted(m)
    ensures Accounted(EnqueueSrs(m, ueIndices))
    decreases |ueIndices|
  {
    if ueIndices != [] {
      EnqueueAccounting(m, ueIndices[0], Sr);
      EnqueueSrsAccounting(EnqueueCommon(m, ueIndices[0], Sr), ueIndices[1..]);
    }
  }

  /** Every entry point of the manager, with what its caller must ensure. */
  datatype Op =
    | AddCellOp(cellIndex: nat)
    | AddUeOp(ue: Ue)
    | ReconfigureOp(ueIndex: nat, cfg: nat)
    | DeleteOp(ueIndex: nat)
    | UlBsrOp(ueIndex: nat, ind: MacUlPduHandler.UlBsrIndication)
    | CrcOp(cellIndex: nat, crcs: seq<CrcPdu>)
    | UciOp(cellIndex: nat, slotRx: nat, ucis: seq<UciPdu>)
    | DlMacCeOp(ueIndex: nat, ceLcid: nat)
    | DlBufferStateOp(ueIndex: nat, lcid: nat, bs: nat)
    | RunOp(slot: nat, cellIndex: nat)

  predicate Enabled(m: EventManager, op: Op) {
    match op
    case AddCellOp(c) => c < MAX_NOF_DU_CELLS && !CellExists(m, c)
    case AddUeOp(u) => CellExists(m, u.pcellIndex) && IsUeIndex(u.ueIndex)
    case ReconfigureOp(k, _) => IsUeIndex(k)
    case DeleteOp(k) => IsUeIndex(k)
    case UlBsrOp(k, ind) => CellExists(m, ind.cellIndex) && IsUeIndex(k)
    case CrcOp(c, _) => CellExists(m, c)
    case UciOp(c, _, ucis) => CellExists(m, c) && forall i :: 0 <= i < |ucis| ==> IsUeIndex(ucis[i].ueIndex)
    case DlMacCeOp(k, _) => IsUeIndex(k)
    case DlBufferStateOp(k, _, _) => IsUeIndex(k)
    case RunOp(_, c) => CellExists(m, c)
  }

  function Apply(m: EventManager, op: Op): EventManager
    requires Enabled(m, op)
  {
    match op
    case AddCellOp(c) => AddCell(m, c)
    case AddUeOp(u) => HandleAddUeRequest(m, u)
    case ReconfigureOp(k, cfg) => HandleUeReconfigurationRequest(m, k, cfg)
    case DeleteOp(k) => HandleUeDeleteRequest(m, k)
    case UlBsrOp(k, ind) => HandleUlBsrIndication(m, k, ind)
    case CrcOp(c, crcs) => HandleCrcIndication(m, c, crcs)
    case UciOp(c, sl, ucis) => HandleUciIndication(m, c, sl, ucis)
    case DlMacCeOp(k, l) => HandleDlMacCeIndication(m, k, l)
    case DlBufferStateOp(k, l, bs) => HandleDlBufferStateIndication(m, k, l, bs)
    case RunOp(sl, c) => Run(m, sl, c)
  }

  /** Every entry point keeps every common event accounted for exactly once. */
  lemma ApplyKeepsAccounted(m: EventManager, op: Op)
    requires Enabled(m, op) && Accounted(m)
    ensures Accounted(Apply(m, op))
  {
    match op
    case AddCellOp(c) =>
    case AddUeOp(u) => EnqueueAccounting(m, MAX_NOF_DU_UES, AddUe(u));
    case ReconfigureOp(k, cfg) => EnqueueAccounting(m, k, ReconfigureUe(cfg));
    case DeleteOp(k) => EnqueueAccounting(m, k, DeleteUe);
    case UlBsrOp(k, ind) => EnqueueAccounting(m, k, UlBsr(ind));
    case CrcOp(c, crcs) =>
    case UciOp(c, sl, ucis) =>
      var m1 := m.(cellEvents := m.cellEvents[c := PendingCellEvents(m, c) + HarqEvents(ucis, sl)]);
      assert Tracked(m1) == Tracked(m);
      EnqueueSrsAccounting(m1, SrUes(ucis));
    case DlMacCeOp(k, l) => EnqueueAccounting(m, k, DlMacCe(l));
    case DlBufferStateOp(k, l, bs) => EnqueueAccounting(m, k, DlBufferState(l, bs));
    case RunOp(sl, c) =>
      ProcessCommonAccounting(m, sl, c);
  }

  /** The manager after a sequence of calls, each made when it is allowed. */
  predicate Reachable(ops: seq<Op>) {
    forall i :: 0 <= i < |ops| ==> Enabled(Replay(ops[..i]), ops[i])
  }

  function Replay(ops: seq<Op>): EventManager
    decreases |ops|
  {
    if ops == [] then Init()
    else
      var m := Replay(ops[..|ops| - 1]);
      if Enabled(m, ops[|ops| - 1]) then Apply(m, ops[|ops| - 1]) else m
  }

  lemma {:induction false} ReplayAccounted(ops: seq<Op>)
    requires Reachable(ops)
    ensures Accounted(Replay(ops))
    decreases |ops|
  {
    if ops == [] {
      assert Tracked(Init()) == multiset{};
      assert Range(0) == [];
    } else {
      var prefix := ops[..|ops| - 1];
      assert Reachable(prefix) by {
        forall i | 0 <= i < |prefix|
          ensures Enabled(Replay(prefix[..i]), prefix[i])
        {
          assert prefix[..i] == ops[..i];
        }
      }
      ReplayAccounted(prefix);
      assert ops[..|ops| - 1] == prefix;
      ApplyKeepsAccounted(Replay(prefix), ops[|ops| - 1]);
    }
  }

  lemma {:induction false} RangeCountsOnce(n: nat, x: nat)
    ensures multiset(Range(n))[x] <= 1
    ensures multiset(Range(n))[x] == 1 <==> x < n
  {
    if n > 0 {
      assert Range(n) == Range(n - 1) + [n - 1];
      RangeCountsOnce(n - 1, x);
    }
  }

  lemma RepeatCountedTwice(s: seq<nat>, i: nat, j: nat)
    requires i < j < |s|
    ensures s[i] == s[j] ==> multiset(s)[s[j]] >= 2
  {
    assert s == s[..j] + [s[j]] + s[j + 1..];
    assert s[i] in s[..j];
  }

  lemma CountedOnceIsNoDup(s: seq<nat>)
    requires forall x :: multiset(s)[x] <= 1
    ensures NoDup(s)
  {
    forall i, j | 0 <= i < j < |s|
      ensures s[i] != s[j]
    {
      RepeatCountedTwice(s, i, j);
    }
  }

  /** No common event is executed twice, and none is settled twice over
      (executed, dropped or discarded), whatever the calls made so far. */
  lemma ExecutedAtMostOnce(ops: seq<Op>)
    requires Reachable(ops)
    ensures NoDup(Replay(ops).core.executed + Replay(ops).core.dropped + Replay(ops).core.discarded)
    ensures forall x :: x in Replay(ops).core.executed ==> x < Replay(ops).nextId
  {
    var m := Replay(ops);
    ReplayAccounted(ops);
    var s := m.core.executed + m.core.dropped + m.core.discarded;
    forall x
      ensures multiset(s)[x] <= 1
    {
      RangeCountsOnce(m.nextId, x);
      assert multiset(s)[x] <= Tracked(m)[x];
    }
    CountedOnceIsNoDup(s);
    forall x | x in m.core.executed
      ensures x < m.nextId
    {
      RangeCountsOnce(m.nextId, x);
      assert Tracked(m)[x] >= 1;
    }
  }

  // ---------------------------------------------------------------------------
  // PCell affinity
  // ---------------------------------------------------------------------------

  /** No live creation event in `entries` builds UE `k`. */
  predicate NoCreationOf(entries: seq<CommonEntry>, k: nat) {
    forall i :: 0 <= i < |entries| && entries[i].callback.Some? && entries[i].callback.value.AddUe? ==>
      entries[i].callback.value.ue.ueIndex != k
  }

  lemma {:induction false} PassLeavesOtherPCellAlone(core: Core, entries: seq<CommonEntry>, cellIndex: nat, k: nat)
    requires k < MAX_NOF_DU_UES && k in core.ues && core.ues[k].pcellIndex != cellIndex
    requires NoCreationOf(entries, k)
    ensures k in ProcessEntries(core, entries, cellIndex).0.ues
    ensures ProcessEntries(core, entries, cellIndex).0.ues[k] == core.ues[k]
    decreases |entries|
  {
    if entries != [] {
      var step := CommonStep(core, entries[0], cellIndex);
      assert k in step.0.ues && step.0.ues[k] == core.ues[k] by {
        if step.2 == Executed {
          assert entries[0].ueIndex != k;
          assert entries[0].callback.value.AddUe? ==> entries[0].callback.value.ue.ueIndex != k;
        }
      }
      assert NoCreationOf(entries[1..], k) by {
        forall i | 0 <= i < |entries[1..]|
          ensures entries[1..][i] == entries[i + 1]
        {
        }
      }
      PassLeavesOtherPCellAlone(step.0, entries[1..], cellIndex, k);
    }
  }

  /** A cell's common pass changes no UE whose PCell is another cell (unless
      the pass itself creates that UE anew). */
  lemma CommonPassLeavesOtherPCellAlone(m: EventManager, slot: nat, cellIndex: nat, k: nat)
    requires k < MAX_NOF_DU_UES && k in m.core.ues && m.core.ues[k].pcellIndex != cellIndex
    requires NoCreationOf(m.common.window, k) && NoCreationOf(m.common.pending, k)
    ensures k in ProcessCommon(m, slot, cellIndex).core.ues
    ensures ProcessCommon(m, slot, cellIndex).core.ues[k] == m.core.ues[k]
  {
    var (core0, q) := if m.lastSlot != Some(slot) then Advance(m.core, m.common) else (m.core, m.common);
    PassLeavesOtherPCellAlone(core0, q.window, cellIndex, k);
  }

  /** A whole `run` of a cell changes nothing UE-wide in a UE whose PCell is
      another cell; only its context in the running cell can change. */
  lemma RunLeavesOtherPCellAlone(m: EventManager, slot: nat, cellIndex: nat, k: nat)
    requires CellExists(m, cellIndex)
    requires k < MAX_NOF_DU_UES && k in m.core.ues && m.core.ues[k].pcellIndex != cellIndex
    requires NoCreationOf(m.common.window, k) && NoCreationOf(m.common.pending, k)
    ensures var r := Run(m, slot, cellIndex);
            k in r.core.ues && r.core.ues[k] == m.core.ues[k].(cells := r.core.ues[k].cells) &&
            r.core.ues[k].cells.Keys == m.core.ues[k].cells.Keys &&
            forall c :: c in m.core.ues[k].cells && c != cellIndex ==> r.core.ues[k].cells[c] == m.core.ues[k].cells[c]
  {
    CommonPassLeavesOtherPCellAlone(m, slot, cellIndex, k);
  }

  // ---------------------------------------------------------------------------
  // Cell phase
  // ---------------------------------------------------------------------------

  /** The events of UE `k` in a cell queue, in queue order. */
  function EventsOf(entries: seq<CellEntry>, k: nat): seq<CellEvent> {
    if entries == [] then []
    else (if entries[0].ueIndex == k then [entries[0].callback] else []) + EventsOf(entries[1..], k)
  }

  /** A reference for one UE: its events applied one after another to its
      context in `cellIndex`, with the warnings they log. */
  function ApplyAll(u: Ue, cellIndex: nat, events: seq<CellEvent>): (Ue, seq<Warning>)
    requires cellIndex in u.cells
    decreases |events|
  {
    if events == [] then (u, [])
    else
      var a := ApplyCell(u, u.cells[cellIndex], events[0]);
      var rest := ApplyAll(u.(cells := u.cells[cellIndex := a.0]), cellIndex, events[1..]);
      (rest.0, a.1 + rest.1)
  }

  /** The cell phase gives a UE with a context in the cell exactly its own
      queued events, in queue order, whatever the other UEs' events do. */
  lemma {:induction false} CellPhaseAppliesUeEvents(core: Core, entries: seq<CellEntry>, cellIndex: nat, k: nat)
    requires k in core.ues && cellIndex in core.ues[k].cells
    ensures var r := ProcessCellEntries(core, entries, cellIndex);
            var f := ApplyAll(core.ues[k], cellIndex, EventsOf(entries, k));
            k in r.ues && r.ues[k] == f.0
    decreases |entries|
  {
    if entries != [] {
      var e := entries[0];
      var core1 := CellStep(core, e, cellIndex);
      var r := ProcessCellEntries(core1, entries[1..], cellIndex);
      assert r == ProcessCellEntries(core, entries, cellIndex);
      CellPhaseAppliesUeEvents(core1, entries[1..], cellIndex, k);
      var u := core.ues[k];
      if e.ueIndex == k {
        var a := ApplyCell(u, u.cells[cellIndex], e.callback);
        assert core1.ues[k] == u.(cells := u.cells[cellIndex := a.0]);
        assert core1.warnings == core.warnings + a.1;
        var evs := EventsOf(entries, k);
        assert evs == [e.callback] + EventsOf(entries[1..], k);
        assert evs[0] == e.callback && evs[1..] == EventsOf(entries[1..], k);
        var f1 := ApplyAll(core1.ues[k], cellIndex, EventsOf(entries[1..], k));
        assert ApplyAll(u, cellIndex, evs) == (f1.0, a.1 + f1.1);
      } else {
        assert core1.ues[k] == u;
        assert EventsOf(entries, k) == EventsOf(entries[1..], k);
      }
    }
  }

  lemma WarningsAppendAssoc(x: seq<Warning>, y: seq<Warning>, z: seq<Warning>)
    ensures x + y + z == x + (y + z)
  {
  }

  /** One event of UE `k` at the head of the queue: its warnings come first. */
  lemma OwnEventWarnings(core: Core, entries: seq<CellEntry>, cellIndex: nat, k: nat)
    requires k in core.ues && cellIndex in core.ues[k].cells
    requires entries != [] && entries[0].ueIndex == k
    ensures var core1 := CellStep(core, entries[0], cellIndex);
            k in core1.ues && cellIndex in core1.ues[k].cells &&
            core.warnings + ApplyAll(core.ues[k], cellIndex, EventsOf(entries, k)).1
            == core1.warnings + ApplyAll(core1.ues[k], cellIndex, EventsOf(entries[1..], k)).1
  {
    var e := entries[0];
    var core1 := CellStep(core, e, cellIndex);
    var u := core.ues[k];
    var a := ApplyCell(u, u.cells[cellIndex], e.callback);
    assert core1.ues[k] == u.(cells := u.cells[cellIndex := a.0]);
    var evs := EventsOf(entries, k);
    assert evs == [e.callback] + EventsOf(entries[1..], k);
    assert evs[0] == e.callback && evs[1..] == EventsOf(entries[1..], k);
    var f1 := ApplyAll(core1.ues[k], cellIndex, evs[1..]);
    assert ApplyAll(u, cellIndex, evs).1 == a.1 + f1.1;
    WarningsAppendAssoc(core.warnings, a.1, f1.1);
  }

  /** When the queue holds only one UE's events, the warnings the cell phase
      logs are those its events log, in queue order. */
  lemma {:induction false} CellPhaseUeWarnings(core: Core, entries: seq<CellEntry>, cellIndex: nat, k: nat)
    requires k in core.ues && cellIndex in core.ues[k].cells
    requires forall i :: 0 <= i < |entries| ==> entries[i].ueIndex == k
    ensures ProcessCellEntries(core, entries, cellIndex).warnings
            == core.warnings + ApplyAll(core.ues[k], cellIndex, EventsOf(entries, k)).1
    decreases |entries|
  {
    if entries != [] {
      OwnEventWarnings(core, entries, cellIndex, k);
      var core1 := CellStep(core, entries[0], cellIndex);
      assert forall i :: 0 <= i < |entries[1..]| ==> entries[1..][i].ueIndex == entries[i + 1].ueIndex;
      CellPhaseUeWarnings(core1, entries[1..], cellIndex, k);
    }
  }

  /** `run` applies the cell's own events after the common phase: a UE that
      has a context in the cell once the common phase is over (one it has
      just created included) gets all its queued events of this cell applied
      in the same run, in queue order. */
  lemma CellEventsFollowCommonPhase(m: EventManager, slot: nat, cellIndex: nat, k: nat)
    requires CellExists(m, cellIndex)
    requires var mc := ProcessCommon(m, slot, cellIndex); k in mc.core.ues && cellIndex in mc.core.ues[k].cells
    ensures var mc := ProcessCommon(m, slot, cellIndex);
            var queued := PendingCellEvents(m, cellIndex);
            var f := ApplyAll(mc.core.ues[k], cellIndex, EventsOf(queued, k));
            var r := Run(m, slot, cellIndex);
            k in r.core.ues && r.core.ues[k] == f.0 &&
            ((forall i :: 0 <= i < |queued| ==> queued[i].ueIndex == k) ==> r.core.warnings == mc.core.warnings + f.1)
  {
    var mc := ProcessCommon(m, slot, cellIndex);
    assert PendingCellEvents(mc, cellIndex) == PendingCellEvents(m, cellIndex);
    var queued := PendingCellEvents(m, cellIndex);
    CellPhaseAppliesUeEvents(mc.core, queued, cellIndex, k);
    if forall i :: 0 <= i < |queued| ==> queued[i].ueIndex == k {
      CellPhaseUeWarnings(mc.core, queued, cellIndex, k);
    }
  }

  // ---------------------------------------------------------------------------
  // Scenarios
  // ---------------------------------------------------------------------------

  /** Two cells, 1 and 2. */
  function TwoCells(): EventManager {
    AddCell(AddCell(Init(), 1), 2)
  }

  function NewUe(ueIndex: nat, pcell: nat, dlHarqs: seq<DlHarq>): Ue {
    Ue(ueIndex, pcell, map[pcell := UeCell(ueIndex, pcell, dlHarqs, [])], 0, [], 0, [], map[])
  }

  lemma ProcessOne(core: Core, e: CommonEntry, cellIndex: nat)
    ensures var s := CommonStep(core, e, cellIndex);
            ProcessEntries(core, [e], cellIndex) == (s.0, [s.1])
  {
    var s := CommonStep(core, e, cellIndex);
    assert [e][0] == e && [e][1..] == [];
    assert ProcessEntries(s.0, [], cellIndex) == (s.0, []);
    assert [s.1] + [] == [s.1];
  }

  lemma ProcessTwo(core: Core, e1: CommonEntry, e2: CommonEntry, cellIndex: nat)
    ensures var s1 := CommonStep(core, e1, cellIndex);
            var s2 := CommonStep(s1.0, e2, cellIndex);
            ProcessEntries(core, [e1, e2], cellIndex) == (s2.0, [s1.1, s2.1])
  {
    var s1 := CommonStep(core, e1, cellIndex);
    var s2 := CommonStep(s1.0, e2, cellIndex);
    assert [e1, e2][0] == e1 && [e1, e2][1..] == [e2];
    ProcessOne(s1.0, e2, cellIndex);
    assert [s1.1] + [s2.1] == [s1.1, s2.1];
  }

  /** With nothing queued for the cell, `run` is its common phase. */
  lemma RunWithoutCellEvents(m: EventManager, slot: nat, cellIndex: nat)
    requires CellExists(m, cellIndex) && PendingCellEvents(m, cellIndex) == []
    ensures Run(m, slot, cellIndex).core == ProcessCommon(m, slot, cellIndex).core
    ensures Run(m, slot, cellIndex).common == ProcessCommon(m, slot, cellIndex).common
  {
  }

  /** The manager holding the creation of UE 7 (PCell 2) and then its
      reconfiguration. */
  function CreateAndReconfigure(): EventManager {
    HandleUeReconfigurationRequest(HandleAddUeRequest(TwoCells(), NewUe(7, 2, [])), 7, 5)
  }

  /** Both events wait in the pending list of a manager that has not run yet;
      advancing moves them into the window. */
  lemma CreateAndReconfigureQueued()
    ensures var m := CreateAndReconfigure();
            && m.lastSlot == None && 1 !in m.cellEvents && 2 !in m.cellEvents && m.core == Init().core
            && m.common == CommonQueue([CommonEntry(0, MAX_NOF_DU_UES, Some(AddUe(NewUe(7, 2, [])))),
                                        CommonEntry(1, 7, Some(ReconfigureUe(5)))], [])
            && Advance(m.core, m.common) == (m.core, CommonQueue([], m.common.pending))
  {
    var m := CreateAndReconfigure();
    assert LiveIds([]) == [];
  }

  /** Cell 1 calls first: the creation runs there, although the UE's PCell is
      cell 2, and the reconfiguration is deferred. */
  lemma CreationRunsOnFirstCell()
    ensures var m1 := Run(CreateAndReconfigure(), 100, 1);
            7 in m1.core.ues && m1.core.ues[7] == NewUe(7, 2, []) && m1.core.executed == [0] &&
            m1.core.notifications == [UeConfigComplete(7)] && m1.lastSlot == Some(100) &&
            m1.core.warnings == [] && m1.core.discarded == [] && PendingCellEvents(m1, 2) == [] &&
            m1.common == CommonQueue([], [CommonEntry(0, MAX_NOF_DU_UES, None), CommonEntry(1, 7, Some(ReconfigureUe(5)))])
  {
    var m := CreateAndReconfigure();
    CreateAndReconfigureQueued();
    var add := m.common.pending[0];
    var reconf := m.common.pending[1];
    assert m.common.pending == [add, reconf];
    FirstCommonPass(m.core, add, reconf);
    RunWithoutCellEvents(m, 100, 1);
  }

  /** The pass of cell 1 over the creation of UE 7 and its reconfiguration. */
  lemma FirstCommonPass(core: Core, add: CommonEntry, reconf: CommonEntry)
    requires core == Init().core
    requires add == CommonEntry(0, MAX_NOF_DU_UES, Some(AddUe(NewUe(7, 2, []))))
    requires reconf == CommonEntry(1, 7, Some(ReconfigureUe(5)))
    ensures var r := ProcessEntries(core, [add, reconf], 1);
            7 in r.0.ues && r.0.ues[7] == NewUe(7, 2, []) && r.0.executed == [0] &&
            r.0.notifications == [UeConfigComplete(7)] &&
            r.1 == [CommonEntry(0, MAX_NOF_DU_UES, None), reconf]
  {
    var s1 := CommonStep(core, add, 1);
    assert 7 in s1.0.ues && s1.0.ues[7] == NewUe(7, 2, []);
    ProcessTwo(core, add, reconf, 1);
  }

  /** Cell 2 calls next in the same slot: it works on the same window and
      applies the reconfiguration. */
  lemma ReconfigurationRunsOnPCell()
    ensures var m2 := Run(Run(CreateAndReconfigure(), 100, 1), 100, 2);
            7 in m2.core.ues && m2.core.ues[7].cfg == 5 && m2.core.executed == [0, 1] &&
            m2.core.notifications == [UeConfigComplete(7), UeConfigComplete(7)]
  {
    CreationRunsOnFirstCell();
    var m1 := Run(CreateAndReconfigure(), 100, 1);
    SecondCommonPass(m1.core, m1.common.window[0], m1.common.window[1]);
    RunWithoutCellEvents(m1, 100, 2);
  }

  /** The pass of cell 2 over the same window: the tombstone is skipped and
      the reconfiguration runs on the UE's PCell. */
  lemma SecondCommonPass(core: Core, tomb: CommonEntry, reconf: CommonEntry)
    requires 7 in core.ues && core.ues[7] == NewUe(7, 2, []) && core.executed == [0]
    requires core.notifications == [UeConfigComplete(7)]
    requires tomb == CommonEntry(0, MAX_NOF_DU_UES, None)
    requires reconf == CommonEntry(1, 7, Some(ReconfigureUe(5)))
    ensures var r := ProcessEntries(core, [tomb, reconf], 2).0;
            7 in r.ues && r.ues[7].cfg == 5 && r.executed == [0, 1] &&
            r.notifications == [UeConfigComplete(7), UeConfigComplete(7)]
  {
    ProcessTwo(core, tomb, reconf, 2);
  }

  lemma ProcessCellOne(core: Core, e: CellEntry, cellIndex: nat)
    ensures ProcessCellEntries(core, [e], cellIndex) == CellStep(core, e, cellIndex)
  {
    assert [e][1..] == [];
  }

  /** UE 7 (PCell 2) has one DL HARQ process waiting for its ACK in slot 100. */
  function WaitingHarq(): DlHarq {
    DlHarq(100, true, 1000, [])
  }

  /** The creation of UE 7 and, in the same slot, a UCI on cell 2 carrying
      one ACK bit for it. */
  function CreateWithFeedback(): EventManager {
    HandleUciIndication(HandleAddUeRequest(TwoCells(), NewUe(7, 2, [WaitingHarq()])), 2, 100,
                        [UciPdu(7, [true], false)])
  }

  lemma FeedbackQueued()
    ensures var m := CreateWithFeedback();
            m.common == CommonQueue([CommonEntry(0, MAX_NOF_DU_UES, Some(AddUe(NewUe(7, 2, [WaitingHarq()]))))], []) &&
            m.lastSlot == None && m.cellEvents == map[2 := [CellEntry(7, HarqAckBits(100, [true]))]] &&
            m.core == Init().core
  {
    var ucis := [UciPdu(7, [true], false)];
    assert ucis[1..] == [];
    assert HarqEvents(ucis, 100) == [CellEntry(7, HarqAckBits(100, [true]))];
    assert SrUes(ucis) == [];
    assert PendingCellEvents(HandleAddUeRequest(TwoCells(), NewUe(7, 2, [WaitingHarq()])), 2) == [];
    assert [] + [CellEntry(7, HarqAckBits(100, [true]))] == [CellEntry(7, HarqAckBits(100, [true]))];
  }

  /** The HARQ-ACK bit reaches the waiting process of a context. */
  lemma AckReachesWaitingProcess(c: UeCell)
    requires c.dlHarqs == [WaitingHarq()]
    ensures HarqInd(c, 100, [true]).0.dlHarqs == [WaitingHarq().(acks := [true])]
    ensures HarqInd(c, 100, [true]).1 == 0
  {
    assert FirstMatch(c.dlHarqs, 100) == Some(0);
    HarqIndUpdatesFirstMatchOnly(c, 100, [true], 0);
    assert [] + [true] == [true];
  }

  /** The common phase of cell 2 creates UE 7 and leaves the HARQ-ACK event
      queued for the cell phase. */
  lemma FeedbackCommonPhase()
    ensures var mc := ProcessCommon(CreateWithFeedback(), 100, 2);
            && 7 in mc.core.ues && mc.core.ues[7] == NewUe(7, 2, [WaitingHarq()]) && mc.core.warnings == []
            && PendingCellEvents(mc, 2) == [CellEntry(7, HarqAckBits(100, [true]))]
  {
    var u := NewUe(7, 2, [WaitingHarq()]);
    var m := CreateWithFeedback();
    FeedbackQueued();
    var add := CommonEntry(0, MAX_NOF_DU_UES, Some(AddUe(u)));
    assert Advance(m.core, m.common) == (m.core, CommonQueue([], [add])) by {
      assert LiveIds([]) == [];
    }
    ProcessOne(m.core, add, 2);
  }

  /** Common events run before the cell's own: a UE created in this slot
      already exists when the HARQ-ACK reported for it on its PCell is
      applied, so the ACK reaches its DL HARQ process without a warning. */
  lemma CreationPrecedesFeedback()
    ensures var r := Run(CreateWithFeedback(), 100, 2);
            7 in r.core.ues && 2 in r.core.ues[7].cells &&
            r.core.ues[7].cells[2].dlHarqs == [WaitingHarq().(acks := [true])] && r.core.warnings == []
  {
    var mc := ProcessCommon(CreateWithFeedback(), 100, 2);
    FeedbackCommonPhase();
    var e := CellEntry(7, HarqAckBits(100, [true]));
    ProcessCellOne(mc.core, e, 2);
    FeedbackCellStep(mc.core);
  }

  /** The HARQ-ACK event of the scenario, applied to a core holding UE 7. */
  lemma FeedbackCellStep(core: Core)
    requires 7 in core.ues && core.ues[7] == NewUe(7, 2, [WaitingHarq()]) && core.warnings == []
    ensures var r := CellStep(core, CellEntry(7, HarqAckBits(100, [true])), 2);
            7 in r.ues && 2 in r.ues[7].cells &&
            r.ues[7].cells[2].dlHarqs == [WaitingHarq().(acks := [true])] && r.warnings == []
  {
    var u := core.ues[7];
    AckReachesWaitingProcess(u.cells[2]);
    assert Repeat(DlHarqNotFound(7, 100), 0) == [];
  }

  /** UE 7 is created and deleted, and a reconfiguration for it follows. */
  function AddDeleteReconfigure(): EventManager {
    HandleUeReconfigurationRequest(HandleUeDeleteRequest(HandleAddUeRequest(TwoCells(), NewUe(7, 2, [])), 7), 7, 5)
  }

  lemma AddDeleteReconfigureQueued()
    ensures var m := AddDeleteReconfigure();
            && m.lastSlot == None && 2 !in m.cellEvents && m.core == Init().core
            && m.common == CommonQueue([CommonEntry(0, MAX_NOF_DU_UES, Some(AddUe(NewUe(7, 2, [])))),
                                        CommonEntry(1, 7, Some(DeleteUe)),
                                        CommonEntry(2, 7, Some(ReconfigureUe(5)))], [])
            && Advance(m.core, m.common) == (m.core, CommonQueue([], m.common.pending))
  {
    var m := AddDeleteReconfigure();
    assert LiveIds([]) == [];
  }

  /** A reconfiguration that arrives after the UE's deletion finds no UE: it
      is dropped with a warning and changes nothing. */
  lemma StaleReconfigurationDropped()
    ensures var r := Run(AddDeleteReconfigure(), 100, 2);
            7 !in r.core.ues && r.core.executed == [0, 1] && r.core.dropped == [2] &&
            r.core.warnings == [InvalidUeIndex(7)]
  {
    var m := AddDeleteReconfigure();
    AddDeleteReconfigureQueued();
    var w := m.common.pending;
    assert w == [w[0], w[1], w[2]];
    StalePass(m.core, w[0], w[1], w[2]);
    FreshCommonPhase(m, 100, 2);
    RunWithoutCellEvents(m, 100, 2);
  }

  /** In a new slot with nothing left in the window, the common phase is one
      pass over the events that were pending. */
  lemma FreshCommonPhase(m: EventManager, slot: nat, cellIndex: nat)
    requires m.lastSlot != Some(slot)
    requires Advance(m.core, m.common) == (m.core, CommonQueue([], m.common.pending))
    ensures ProcessCommon(m, slot, cellIndex).core == ProcessEntries(m.core, m.common.pending, cellIndex).0
  {
  }

  /** Cell 2's pass over the creation, deletion and reconfiguration of UE 7. */
  lemma StalePass(core: Core, add: CommonEntry, del: CommonEntry, reconf: CommonEntry)
    requires core == Init().core
    requires add == CommonEntry(0, MAX_NOF_DU_UES, Some(AddUe(NewUe(7, 2, []))))
    requires del == CommonEntry(1, 7, Some(DeleteUe))
    requires reconf == CommonEntry(2, 7, Some(ReconfigureUe(5)))
    ensures var r := ProcessEntries(core, [add, del, reconf], 2).0;
            7 !in r.ues && r.executed == [0, 1] && r.dropped == [2] && r.warnings == [InvalidUeIndex(7)]
  {
    var s1 := CommonStep(core, add, 2);
    assert 7 in s1.0.ues;
    var s2 := CommonStep(s1.0, del, 2);
    assert 7 !in s2.0.ues && s2.0.executed == [0, 1];
    var s3 := CommonStep(s2.0, reconf, 2);
    assert s3.2 == Dropped;
    ProcessTwo(s1.0, del, reconf, 2);
    assert [add, del, reconf][1..] == [del, reconf];
  }

  /** The reconfiguration cell 1 deferred in slot 100 is still live when
      cell 2 first calls in slot 101: the advance clears it unrun, with no
      warning, and UE 7 keeps its initial configuration. */
  lemma DeferredEventDiscarded()
    ensures var r := Run(Run(CreateAndReconfigure(), 100, 1), 101, 2);
            7 in r.core.ues && r.core.ues[7] == NewUe(7, 2, []) &&
            r.core.executed == [0] && r.core.discarded == [1] && r.core.warnings == []
  {
    CreationRunsOnFirstCell();
    var m1 := Run(CreateAndReconfigure(), 100, 1);
    DeferredLiveIds(m1.common.window[0], m1.common.window[1]);
    RunAfterEmptyPending(m1, 101, 2);
  }

  lemma DeferredLiveIds(tomb: CommonEntry, reconf: CommonEntry)
    requires tomb.callback.None? && reconf.callback.Some?
    ensures LiveIds([tomb, reconf]) == [reconf.id]
  {
    assert [tomb, reconf][1..] == [reconf] && [reconf][1..] == [];
  }

  /** The first call of a new slot, with nothing pending on the common queue
      or the cell's queue, only discards what the old window held live. */
  lemma RunAfterEmptyPending(m: EventManager, slot: nat, cellIndex: nat)
    requires CellExists(m, cellIndex) && m.lastSlot != Some(slot)
    requires m.common.pending == [] && PendingCellEvents(m, cellIndex) == []
    ensures Run(m, slot, cellIndex).core == m.core.(discarded := m.core.discarded + LiveIds(m.common.window))
  {
    var (core0, q) := Advance(m.core, m.common);
    assert q.window == [];
    assert ProcessEntries(core0, q.window, cellIndex) == (core0, []);
    RunWithoutCellEvents(m, slot, cellIndex);
  }

  /** With the advance that keeps deferred entries, the same reconfiguration
      is still in cell 2's window in slot 101 and runs there. */
  lemma DeferredEventKept()
    ensures var m1 := Run(CreateAndReconfigure(), 100, 1);
            var r := ProcessEntries(m1.core, AdvanceKeepingDeferred(m1.common).window, 2).0;
            7 in r.ues && r.ues[7].cfg == 5 && r.executed == [0, 1] && r.discarded == []
  {
    CreationRunsOnFirstCell();
    var m1 := Run(CreateAndReconfigure(), 100, 1);
    KeptWindow(m1.common, m1.common.window[0], m1.common.window[1]);
    KeptPass(m1.core, m1.common.window[1]);
  }

  lemma KeptWindow(q: CommonQueue, tomb: CommonEntry, reconf: CommonEntry)
    requires q == CommonQueue([], [tomb, reconf]) && tomb.callback.None? && reconf.callback.Some?
    ensures AdvanceKeepingDeferred(q).window == [reconf]
  {
    assert [tomb, reconf][1..] == [reconf] && [reconf][1..] == [];
  }

  /** Cell 2's pass over the kept reconfiguration of UE 7. */
  lemma KeptPass(core: Core, reconf: CommonEntry)
    requires 7 in core.ues && core.ues[7] == NewUe(7, 2, []) && core.executed == [0] && core.discarded == []
    requires reconf == CommonEntry(1, 7, Some(ReconfigureUe(5)))
    ensures var r := ProcessEntries(core, [reconf], 2).0;
            7 in r.ues && r.ues[7].cfg == 5 && r.executed == [0, 1] && r.discarded == []
  {
    ProcessOne(core, reconf, 2);
  }

  /** Events of one UE can run out of order when a creation event rebuilds
      the UE on another PCell: UE 7 is on PCell 2, and cell 1's pass defers
      the first reconfiguration, re-creates UE 7 on PCell 1 and then runs the
      second reconfiguration, while the first is still waiting. */
  lemma RecreationReordersEvents(core: Core)
    requires core.ues == map[7 := NewUe(7, 2, [])]
    ensures var x := CommonEntry(0, 7, Some(ReconfigureUe(5)));
            var add := CommonEntry(1, MAX_NOF_DU_UES, Some(AddUe(NewUe(7, 1, []))));
            var y := CommonEntry(2, 7, Some(ReconfigureUe(6)));
            var r := ProcessEntries(core, [x, add, y], 1);
            7 in r.0.ues && r.0.ues[7].cfg == 6 && r.0.executed == core.executed + [1, 2] && r.1[0] == x
  {
    var x := CommonEntry(0, 7, Some(ReconfigureUe(5)));
    var add := CommonEntry(1, MAX_NOF_DU_UES, Some(AddUe(NewUe(7, 1, []))));
    var y := CommonEntry(2, 7, Some(ReconfigureUe(6)));
    var s1 := CommonStep(core, x, 1);
    assert s1.2 == Deferred;
    var s2 := CommonStep(s1.0, add, 1);
    assert 7 in s2.0.ues && s2.0.ues[7] == NewUe(7, 1, []);
    ProcessTwo(s1.0, add, y, 1);
    assert [x, add, y][1..] == [add, y];
  }
}

=== FILE: wrappers.dfy ===
/** Failure-compatible wrappers shared by every module of the model.
    `Result` stands for the source's `expected<T>` and for the fatal-error
    paths (`report_fatal_error`) of the configuration builders. */
module Wrappers {

  datatype Option<+T> = None | Some(value: T)

  /** The error kinds the modelled code can report. */
  datatype Error =
    | DefaultError          // `default_error_t{}` of `expected<T>`
    | Fatal(reason: string) // `report_fatal_error(...)`

  datatype Result<+T> = Success(value: T) | Failure(error: Error) {
    predicate IsFailure() {
      Failure?
    }

    function PropagateFailure<U>(): Result<U>
      requires Failure?
    {
      Failure(error)
    }

    function Extract(): T
      requires Success?
    {
      value
    }
  }
}
